=== FILE: README.md ===
# openaiclient core, modelled in Dafny

This project models the logic inside the I/O shell of `openaiclient`, a
command-line client for an OpenAI-style chat API that can run tools. There
are four parts.

- **The chat context** (`ChatContext`, `Message`). A conversation is an
  ordered log of messages, kept with the request's `stream` flag, plus a
  dirty flag. Normal messages must alternate roles. Tool answers are appended unconditionally. The context finds the
  oldest tool call still waiting for an answer and looks tool calls up by
  id. It refuses to call the API when the last message is the assistant's.
  A streamed reply is rebuilt from its `data: ` frames into one assistant
  message.
- **The command executor**. Lines of a child process's stdout and stderr
  are captured into a bounded buffer: at most 128 lines of at most 256
  characters, oldest evicted first. They are rendered with millisecond
  offsets, and the run is mapped to `(output, timed_out, exit_code)`.
- **The file tools**. These are the SEARCH/REPLACE block parser and its
  all-or-nothing application, `edit_file` and `multiedit` (first-occurrence
  replacement), and the two `read_file` line windows: the tool library's
  and the older library's.
- **`json-set`**. A value is set at a dotted path such as `a.b[2].c` in a
  JSON tree.

Each part is a module of pure functions over immutable datatypes:

- `Strings`: Rust's `find`, `split`, `lines`, `trim*`, `usize` parsing and
  `len`, which counts UTF-8 bytes.
- `Messages`, `Conversation`, `Streaming`: the chat context.
- `Executor`.
- `TextEdits`, `SearchReplace`, `FileTools`: the file tools.
- `JsonEdit`.

A file's contents, a read or write error, a decoded frame, and the
interleaving and time stamps of a child's output are inputs to the
functions, not effects. A Rust panic is an outcome of its own, for example
`Panicked`, `SlicePanic` or `Outcome.Panic`, and never a precondition.
Integer arithmetic on `usize` follows a debug build: an overflowing add
panics.

Four behaviours of the code are easy to miss, and the model keeps them:

- A streamed turn with more than one finished tool call panics
  (src/openaiapi/mod.rs:528-530). It is not a recoverable error.
- `call_api` marks the chat as a streaming request before any check
  (src/openaiapi/mod.rs:395-397). So even a refused call changes the chat.
  The flag is not marked dirty, but it is written by the next save of a
  dirty context.
- A completed run reports exit code -1 for every unsuccessful exit, not
  the process's own code (src/tools/executor.rs:172).
- A tool answer is appended without checking that its id is pending or
  not yet answered (src/openaiapi/mod.rs:381-392). So "at most one answer
  per call" is not an invariant of the log. The pending ids are computed
  from whatever log there is.

Every operation has a partner:

- The streamed-reply loop is proved equal to a reference definition of
  texts, segments and last writes.
- The bounded buffer is proved to keep the last `min(n, 128)` lines.
- A run's result is derived from event traces for both endings. A trace
  whose pipes both end in time drains and is not a timeout. A trace that
  leaves a pipe open past the two minutes is a timeout with exit code 137.
- Block parsing is proved to invert the block format for the blocks the
  format can carry. In such a block, the first separator after the search
  text and the first REPLACE marker after the replace text are the ones the
  format writes, and neither text starts with a line feed. A single block
  reads back exactly when it is such a block.
- `parse_array_path` is proved to invert `key[i][j]`.
- Sets are proved idempotent and proved to read back. They are proved to
  fail exactly where reading the path fails, with the same error.
- The read windows are compared with one corrected window.

## Model

| member | source | states |
|---|---|---|
| Conversation.New | src/openaiapi/mod.rs:212-224 | a new context has no chat and no chat id and is dirty; it fails only when the URL does not parse, with that error |
| Conversation.SetSystemPrompt | src/openaiapi/mod.rs:231-243 | succeeds exactly when the first message has role `system`; it then replaces only that message's content by the prompt, keeps every other message and sets dirty; otherwise nothing changes and the error is `SystemPromptNotFound` with the source's two messages |
| Conversation.SaveChat | src/openaiapi/mod.rs:269-281 | the context never changes; a clean context returns Ok without writing; a dirty one with no chat or id fails with "No chat id"; otherwise the write's outcome is returned |
| Conversation.LoadChat | src/openaiapi/mod.rs:283-295 | a successful read installs the chat and its id and clears dirty; a failed read leaves the context unchanged and returns the error |
| Conversation.GetLastMessage | src/openaiapi/mod.rs:312-323 | returns the last message exactly when a non-empty chat is loaded; no chat and an empty chat give their two distinct errors |
| Conversation.GetLastPendingToolCallId | src/openaiapi/mod.rs:325-345 | fails exactly when no chat is loaded; otherwise None exactly when no call is pending, else the first pending id |
| Conversation.PendingQueueIsPending | src/openaiapi/mod.rs:325-345 | the queue loop (push every call id, then retain ids other than the answered one) equals the reference: the ids of calls not answered by any later message, in emission order |
| Conversation.AnswerCancelsEarlierCalls | src/openaiapi/mod.rs:328-339 | an answer removes its id from the pending ids, and a call with that id emitted after the answer is pending again |
| Conversation.GetToolCall | src/openaiapi/mod.rs:347-359 | no chat gives `ChatContainsNoMessages` "No Messages"; a missing id gives `LastToolCallIdNotFound` carrying the id |
| Conversation.GetToolCallFinds | src/openaiapi/mod.rs:347-359 | the lookup succeeds exactly when some call in message order has the id, and it returns the first such call |
| Conversation.FirstCallWithIdFinds | src/openaiapi/mod.rs:349-357 | the first-match search finds a call exactly when some call has the id |
| Conversation.AddMessage | src/openaiapi/mod.rs:361-365 | with a chat loaded, appends exactly the message and sets dirty; with none, fails with "No chat currently loaded" and changes nothing |
| Conversation.AddNormalMessage | src/openaiapi/mod.rs:367-378 | fails exactly when no chat is loaded or the last message has the same role, leaving the context unchanged; otherwise appends one normal message and sets dirty |
| Conversation.AddNormalKeepsAlternation | src/openaiapi/mod.rs:367-378 | normal appends keep the roles of consecutive messages distinct |
| Conversation.AddToolMessage | src/openaiapi/mod.rs:381-392 | whatever the previous role, appends exactly one message with the role, name and tool call id, no tool calls, and sets dirty; fails only when no chat is loaded |
| Conversation.DirtyLifecycle | src/openaiapi/mod.rs:220 | a new context is dirty, loading clears dirty, saving a clean context is a no-op returning Ok, and every successful append sets dirty |
| Conversation.SendGuard | src/openaiapi/mod.rs:402-409 | sending is allowed exactly when a non-empty chat is loaded whose last message is not the assistant's, with the three distinct errors |
| Conversation.RefusedCallMarksChat | src/openaiapi/mod.rs:395-409 | a refused call still changes a chat that was not yet marked as streaming, and leaves the dirty flag as it was |
| Conversation.CallApiTwiceRefused | src/openaiapi/mod.rs:394-446 | after a successful call whose reply is the assistant's, a second call is refused with "Last message was from the assistant" and changes nothing |
| Conversation.CallApi | src/openaiapi/mod.rs:394-446 | a loaded chat is marked as a streaming request first, whatever follows; a refused guard or a failed request leaves the messages, id and dirty flag unchanged; a body with both `data: ` and `[DONE]` is parsed as a stream, and more than one finished call panics; otherwise the plain parser is used; a parsed message is appended, dirty is set and its readable form is returned |
| Messages.HumanReadable | src/openaiapi/mod.rs:95-117 | the rendering starts with `# role` on its own line |
| Messages.HumanReadableShowsContent | src/openaiapi/mod.rs:97-100 | a plain text content appears in the rendering |
| Messages.HumanReadableShowsParts | src/openaiapi/mod.rs:101-110 | the text of a list content's parts appears in the rendering right after the header |
| Messages.HumanReadableShowsCalls | src/openaiapi/mod.rs:111-115 | every tool call of the message appears as a fenced block named after its function |
| Messages.CallBlocksShowEveryCall | src/openaiapi/mod.rs:111-115 | the joined call blocks contain each call's block |
| Messages.CallBlocksSplit | src/openaiapi/mod.rs:111-115 | the joined call blocks are the blocks of the calls before `i`, then call `i`'s block, then the blocks of the calls after it |
| Messages.CallBlocksGrow | src/openaiapi/mod.rs:111-115 | adding the next call appends its block to the end of the blocks so far, so blocks appear in call order |
| Messages.HumanReadableCallAt | src/openaiapi/mod.rs:95-117 | call `i`'s block starts right after the header, the content and the blocks of the calls before it |
| Messages.PartsTextGrow | src/openaiapi/mod.rs:101-110 | a further part is rendered after the parts before it: text as it is, an image as `Image (N bytes)` with N the URL's length in UTF-8 bytes |
| Messages.ImageSizeIsCharCountIffAscii | src/openaiapi/mod.rs:105-107 | the size shown for an image equals the URL's count of characters exactly when the URL is ASCII |
| Messages.ImageSizeOfAccent | src/openaiapi/mod.rs:106 | an image whose URL is the one character `é` is shown as `Image (2 bytes)` |
| Streaming.FramePayload | src/openaiapi/mod.rs:459-463 | a body line is a frame exactly when, trimmed, it is non-empty, not `[DONE]`, and starts with `data: `; the payload is what follows the prefix |
| Streaming.ParseStreamingResponse | src/openaiapi/mod.rs:448-532 | more than one finished call panics with the source's message; otherwise the message is the assistant's, its content is the concatenated text (None when empty), and its calls are the reference calls (None when none) |
| Streaming.FoldMatchesReference | src/openaiapi/mod.rs:459-512 | the frame loop's text is the in-order concatenation of deltas, and its calls are one call per finishing segment, assembled from that segment alone, with an unfinished tail dropped |
| Streaming.FoldInvariant | src/openaiapi/mod.rs:459-512 | after any prefix of frames, the loop's accumulator holds the text so far, the calls of closed segments, and the last-written id, type and name and the concatenated arguments of the open segment |
| Streaming.LastWriteIsLast | src/openaiapi/mod.rs:480-495 | a field's value is its default when never written, and otherwise its last write |
| Streaming.FirstFinishSpec | src/openaiapi/mod.rs:503-512 | the first finishing frame is finishing, no earlier frame finishes, and there is none exactly when no frame finishes |
| Streaming.CallsCount | src/openaiapi/mod.rs:503-530 | there are exactly as many calls as frames with finish reason `tool_calls` |
| Executor.Truncate | src/tools/executor.rs:51-56 | the stored line is the first `min(len, 256)` characters of the line |
| Executor.PushBounded | src/tools/executor.rs:53-67 | the new line comes last; a full buffer of 128 loses its oldest entry and keeps its size; a non-full buffer grows by one and keeps all its entries |
| Executor.PushBoundedKeepsLast | src/tools/executor.rs:58-66 | one push leaves the last `min(n, 128)` of the old buffer plus the truncated line |
| Executor.PushAllKeepsLast | src/tools/executor.rs:50-67 | any sequence of pushes leaves the last `min(n, 128)` lines of the old buffer followed by the pushed lines, in order |
| Executor.PushAllFromEmpty | src/tools/executor.rs:50-67 | from empty, the buffer holds the last `min(n, 128)` pushed lines in order and never more than 128 |
| Executor.Consume | src/tools/executor.rs:98-136 | a drained loop has seen an end report from every pipe that was still open when it started; the buffer stays within 128 entries |
| Executor.ConsumeDrains | src/tools/executor.rs:98-117 | with every event in time, no read error, each pipe ending once and nothing after its end, the loop drains and buffers exactly the lines read, in arrival order |
| Executor.InterleavingEndsLast | src/tools/executor.rs:95-117 | in any interleaving of two pipes, nothing from a pipe follows its end |
| Executor.LinesKeepPipeOrder | src/tools/executor.rs:98-117 | the lines the loop pushes from one pipe, before truncation and eviction, are that pipe's lines in its own order |
| Executor.LinesWithOffsets | src/tools/executor.rs:139-152 | the rendering is empty exactly when the buffer is |
| Executor.LinesWithOffsetsSplits | src/tools/executor.rs:139-152 | cut at line feeds, the rendering gives one `{offset:>5}| line` entry per buffered line, in buffer order, with a signed offset and no trailing line feed |
| Executor.Execute | src/tools/executor.rs:155-181 | it succeeds exactly on a timeout or on a drained run whose wait succeeds; a timeout always succeeds with `timed_out` and 137; a read or wait error is returned as the error; a completed run is not a timeout and reports 0 on success and -1 otherwise; the exit code is always in {0, -1, 137} and 137 only on timeout |
| Executor.ConsumeTimesOut | src/tools/executor.rs:98-136 | when the timely, error-free events leave a pipe open and nothing more arrives in time, the loop times out holding the last 128 of their lines, in order |
| Executor.RunTimesOut | src/tools/executor.rs:98-181 | a run whose pipes do not both end within two minutes of the timer's start succeeds as a timeout with exit code 137, whatever waiting would give, and outputs the last 128 lines read in time |
| Executor.RunCompletes | src/tools/executor.rs:98-181 | a run whose two pipes end within two minutes of the timer's start, without a read error succeeds, is not a timeout, and outputs the last 128 lines read |
| TextEdits.ReplaceFirst | src/tools/files/mod.rs:322-323 | a replacement exists exactly when the old text occurs |
| TextEdits.ReplaceFirstKeepsRest | src/tools/files/mod.rs:322-323 | the text before the first occurrence and after it is unchanged, the new text sits where the old one started, and no earlier occurrence exists |
| TextEdits.ReplaceFirstUndo | src/tools/files/mod.rs:322-323 | replacing the new text back by the old restores the content, when the new text's first character does not occur before the edit |
| TextEdits.EditFile | src/tools/files/mod.rs:319-330 | succeeds exactly when the old text occurs, with the first-occurrence replacement and "Edit applied successfully"; otherwise the not-found message |
| TextEdits.EditFileTool | src/files/mod.rs:111-122 | a read error passes through; it succeeds exactly when the text occurs and the write succeeds; a missing text reports not found and a write error is returned |
| TextEdits.MultiEdit | src/tools/files/mod.rs:301-317 | succeeds exactly when every edit applies in turn on the evolving text, and reports the number of edits |
| TextEdits.MultiEditTool | src/files/mod.rs:93-109 | a read error passes through; nothing is written unless every edit applies; a write error is returned; success reports the number of edits |
| TextEdits.MultiEditFailsOnFirstMissing | src/tools/files/mod.rs:304-311 | the edits fail exactly when some edit's text is missing from the result of the edits before it, and the first such edit is the one reported |
| TextEdits.ApplyEditsAppend | src/tools/files/mod.rs:304-311 | editing in two batches is editing in one |
| TextEdits.MultiEditOfOne | src/files/mod.rs:93-122 | a one-edit `multiedit` changes the text as `edit_file` does and fails with the same message |
| SearchReplace.NextBlock | src/tools/files/mod.rs:199-231 | a found block leaves strictly less text to scan, and neither of its texts starts with a line feed |
| SearchReplace.NextBlockClean | src/tools/files/mod.rs:205-218 | a found search text holds neither `=======` nor `>>>>>>> REPLACE`, and its replace text holds no `>>>>>>> REPLACE` |
| SearchReplace.ScanClean | src/tools/files/mod.rs:197-233 | every parsed block is clean in that sense |
| SearchReplace.ParseBlocks | src/tools/files/mod.rs:195-239 | parsing succeeds exactly when the scan succeeds with at least one block; a successful scan with none gives "No SEARCH/REPLACE blocks found" |
| SearchReplace.NoMarkerNoBlocks | src/tools/files/mod.rs:200-203 | text without a SEARCH marker gives "No SEARCH/REPLACE blocks found" |
| SearchReplace.ParseRaws | src/tools/files/mod.rs:195-239 | parsing writable blocks written out in the block format gives back the blocks, in order |
| SearchReplace.ScanRaws | src/tools/files/mod.rs:197-233 | after text with no `<`, writable blocks written out scan back to themselves |
| SearchReplace.ReadBackIffWritable | src/tools/files/mod.rs:199-231 | one round of the loop reads a block's written-out form back as that block exactly when the block is writable: its first separator and first REPLACE marker are where the format puts them and neither text starts with a line feed |
| SearchReplace.ParseRawIffWritable | src/tools/files/mod.rs:195-239 | parsing one written-out block gives exactly that block back exactly when the block is writable |
| SearchReplace.WarningsNone | src/tools/files/mod.rs:262-270 | there are no warnings exactly when no block changes its line count |
| SearchReplace.WarningsFromReshapes | src/tools/files/mod.rs:262-270 | every warning names the line counts of a block whose line count changes |
| SearchReplace.ApplyBlocks | src/tools/files/mod.rs:241-299 | a read error is reported; it succeeds exactly when every block's search text occurs at its turn and the write succeeds; the written text is the blocks applied in order, the report carries the counts and warnings; a missing block is the first whose text is missing from the evolving content |
| SearchReplace.SearchReplace | src/tools/files/mod.rs:187-193 | a parse error is returned; success exactly when the blocks parse, the file is read, every block applies and the write succeeds |
| FileTools.ReadWindow | src/files/mod.rs:65-91 | the intended window never panics; it errors exactly on a read error or a start of 0 |
| FileTools.ReadWindowRows | src/files/mod.rs:74-89 | the output, cut at line feeds, is the lines from the start, at most `count` of them and none at index 1000 or beyond, each labelled `N: ` with its 1-based number when asked for, each ended by a line feed |
| FileTools.ReadWindowToEnd | src/files/mod.rs:77 | with no count, the window runs to the end of the text or to line 1000 |
| FileTools.ReadFileTools | src/tools/files/mod.rs:159-185 | as written: it panics exactly with no limit, an overflowing `offset + limit`, or a start past the end; otherwise it shows the window of `limit + 1` lines |
| FileTools.ToolsShowsOneExtra | src/tools/files/mod.rs:171 | well inside the text, the tool library's window shows `limit + 1` lines |
| FileTools.ToolsPanicsWithoutLimit | src/tools/files/mod.rs:165-171 | with no limit the tool library's window always overflows, while the intended window shows the rest |
| FileTools.ReadFileLegacy | src/files/mod.rs:65-91 | as written: it panics exactly when `line_start - 1 + line_count` overflows or the start is past the end, and otherwise equals the intended window |
| FileTools.LegacyRender | src/files/mod.rs:76-89 | without overflow, the older window panics exactly when the start is past the end, and otherwise shows the intended text |
| FileTools.LegacyPanicsWithoutCount | src/files/mod.rs:75-77 | with no count and a start of 2 or more, the older window overflows, while the intended window answers |
| FileTools.PastEndPanics | src/tools/files/mod.rs:170-175 | a start two or more lines past the end panics in both libraries, while the intended window is empty |
| FileTools.CheckedAdd | src/tools/files/mod.rs:171 | the `usize` sum exists exactly when it does not overflow, and is then the sum |
| JsonEdit.ParseIndices | src/jsonedit.rs:137-141 | one index per piece, each the `usize` reading of the piece's text up to its first `]` |
| JsonEdit.ParseArrayPath | src/jsonedit.rs:131-144 | a segment without `[` is its own key with no indices |
| JsonEdit.ParseArrayPathRoundTrip | src/jsonedit.rs:131-144 | parsing `key[i][j]...` gives back the key and the indices |
| JsonEdit.IndexTextStopsAtBracket | src/jsonedit.rs:138 | text after a `]` is ignored, and a missing `]` is tolerated |
| JsonEdit.ParsePieces | src/jsonedit.rs:137-141 | written-out indices parse back to themselves |
| JsonEdit.SetKeepsKind | src/jsonedit.rs:59-122 | a successful set keeps the root an object exactly when it was one |
| JsonEdit.SetIdempotent | src/jsonedit.rs:59-122 | setting the same value at the same path twice is setting it once |
| JsonEdit.SetLastIdempotent | src/jsonedit.rs:96-122 | the same for the final segment alone |
| JsonEdit.SetLastKey | src/jsonedit.rs:115-118 | a final plain key is inserted or overwritten and every other key keeps its value |
| JsonEdit.SetLastItem | src/jsonedit.rs:97-114 | a final `key[..][i]` replaces item `i` of the array under the key; the array keeps its length and other items, and the object its other keys |
| JsonEdit.SetThenGet | src/jsonedit.rs:59-122 | after a set along plain keys, reading the path back gives the value |
| JsonEdit.SetKeepsOtherKeys | src/jsonedit.rs:82-92 | a set along plain keys keeps every top-level key other than the first segment |
| JsonEdit.SetLastSkipsEarlierIndices | src/jsonedit.rs:104-108 | as written: `key[0][1]` on `{key: [[a, b], [c, d]]}` overwrites `[c, d]`, and `key[0][1]` still reads `b` |
| JsonEdit.SetLastNestedReadsBack | src/jsonedit.rs:97-114 | corrected: a final `key[i][j]..` succeeds exactly when the nested place exists, and the value then reads back there with every other key kept |
| JsonEdit.SetLastNestedFollowsEveryIndex | src/jsonedit.rs:104-108 | corrected: on the same tree, `key[0][1]` writes inside `[a, b]` |
| JsonEdit.WriteAtReadsBack | src/jsonedit.rs:73-81 | writing along indices succeeds exactly when the place exists, and the value then reads back there |
| JsonEdit.Follow | src/jsonedit.rs:73-81 | following indices arrives exactly when the nested place exists, at that place |
| JsonEdit.SetLastFailsLikeLastFault | src/jsonedit.rs:96-122 | the last segment fails exactly for a bad index, a missing key, a non-array under a bracketed key, an out-of-bounds last index, or a plain key on a non-object, with that error; a bracketed last segment on a non-object leaves the node as it is |
| JsonEdit.DescendFailsLikeFollow | src/jsonedit.rs:73-81 | the indices of a segment fail where following them fails, with `ExpectedArray` or `OutOfBounds`; otherwise the set fails exactly as the rest of the path does from where they arrive |
| JsonEdit.SetFailsLikeFault | src/jsonedit.rs:59-122 | json-set fails exactly when reading the path to the parent fails or the last segment cannot be written into the parent, and with that error |
| JsonEdit.DescendThenFollow | src/jsonedit.rs:73-81 | a successful descent arrives where following the indices arrives, and the result holds the set rest of the path there |
| JsonEdit.SetThenGetPath | src/jsonedit.rs:59-122 | after a successful set whose last segment is a plain key, reading the path back through keys and indices gives the value |
| Strings.Find | src/tools/files/mod.rs:200-213 | `str::find`: the first position of the pattern, and absent exactly when it does not occur |
| Strings.JoinSplit | src/jsonedit.rs:59 | joining the pieces of a split with the separator gives the text back |
| Strings.SplitJoin | src/jsonedit.rs:137 | splitting pieces joined by a separator absent from them gives the pieces back |
| Strings.UnlinesLines | src/tools/files/mod.rs:168 | `lines` inverts ending every line with a line feed, for text without carriage returns |
| Strings.ParseUsize | src/jsonedit.rs:139 | only an empty text gives `Empty`; a success has decimal digits after an optional `+`, and its value is theirs and fits in a `usize` |
| Strings.ParseUsizeAccepts | src/jsonedit.rs:139 | parsing succeeds exactly when the text after an optional `+` is a non-empty run of decimal digits whose value fits in a `usize` |
| Strings.ParseUsizeFirstFault | src/jsonedit.rs:139 | read left to right, the first fault decides the error: a non-digit gives `InvalidDigit` and a digit that takes the value past `usize::MAX` gives `PosOverflow` |
| Strings.ParseUsizeRoundTrip | src/jsonedit.rs:139 | a `usize` written in decimal parses back to itself |
| Strings.Utf8Length | src/openaiapi/mod.rs:106 | `str::len` counts UTF-8 bytes: between one and four for each character |
| Strings.Utf8LengthAscii | src/openaiapi/mod.rs:106 | the byte count equals the character count exactly when the text is ASCII |
| Strings.Utf8LengthAppend | src/openaiapi/mod.rs:106 | the byte count of a concatenation is the sum of the byte counts |
| Strings.NatToStringValue | src/tools/executor.rs:148 | the decimal text of a number denotes that number |
| Strings.PadLeft | src/tools/executor.rs:148 | right-alignment to a width pads with spaces on the left and keeps the text at the end |

## Left out

- HTTP, request bodies, the streaming transport and the request/response
  dump files of `call_api` are left out. The body text and the request's
  error are inputs.
- serde decoding is left out. A body line's JSON becomes a `Frame` through
  a `decode` parameter, and a non-streamed body becomes a message through a
  `parseResponse` parameter.
- Conversation.Chat keeps only `messages` and `stream` of the request body.
  `model`, `tools`, `max_tokens`, the penalties, `temperature`, `top_p` and
  `stop` (src/openaiapi/mod.rs:184-197) are not modelled, since no modelled
  operation reads or changes them.
- `new_chat`, `load_or_new_chat`, `set_model_name`, `current_chat` and
  reading or writing chat files are left out. `LoadChat` and `SaveChat`
  take the read and the write outcome as inputs and model only their
  effect on the context.
- Process spawning, tokio `select!` and `timeout`, real clocks, and the
  SIGTERM/SIGKILL sequence of `terminate_child_gracefully` are left out.
  The drain loop takes the interleaved events with integer time stamps as
  input, and the exit status and its wait error are inputs.
- Executor.Truncate: strings are taken as ASCII, so character and byte
  lengths coincide. The panic of `String::truncate` inside a multi-byte
  character is not modelled.
- Floating point (`temperature`, `top_p`) is left out. JSON numbers are
  integers in `JsonEdit.Json`.
- Reading and writing files, and the JSON argument decoding of the file
  tools, are left out. The file's text, or the read error, and the write
  error are inputs.
- SearchReplace.ApplyBlocks: `lines_changed` is an unbounded count. The
  `usize` overflow of the sum is not modelled, since it needs more than
  2^64 lines.
- SearchReplace.ApplyBlocks: the report's `content:` field shows the
  tool's JSON input text, as the source does. It is passed through
  unchanged and is not proved about.
- JsonEdit.SetAt, JsonEdit.SetLast and JsonEdit.JsonSet have no
  `ensures` of their own. Their behaviour is stated by the `JsonEdit`
  lemmas: when they fail and with which error, kind, idempotence,
  read-back, and other keys kept.
- JsonEdit.SetThenGetPath: read-back is proved for paths whose last
  segment is a plain key. A bracketed last segment, as written, writes at
  its last index only (see Findings). The corrected
  `SetLastNestedReadsBack` states read-back for that case.
- Reading the JSON file, parsing the new value, and printing the result
  in `json-set` are left out.
- Release builds are not modelled. There, `usize` addition wraps instead
  of panicking. The model follows a debug build.

## Findings

| source | as written | input that shows it | evidently intended | confidence | as-written member | corrected member |
|---|---|---|---|---|---|---|
| src/tools/files/mod.rs:171 | the window ends at `start + limit`, and `start` is 1-based | offset 1, limit 2 on a three-line file shows three lines | end at `start_idx + limit`, as src/files/mod.rs:77 does, showing `limit` lines | not executed; high | FileTools.ToolsShowsOneExtra | FileTools.ReadWindowRows |
| src/tools/files/mod.rs:165-171 | with no limit, `start + usize::MAX` is computed | any call without `limit`: the add overflows and panics in a debug build | read to the end of the text (or line 1000) | not executed; high | FileTools.ToolsPanicsWithoutLimit | FileTools.ReadWindowToEnd |
| src/files/mod.rs:75-77 | with no count, `start_idx + usize::MAX` is computed | `line_start` 2 and no `line_count`: the add overflows and panics in a debug build | read to the end of the text (or line 1000) | not executed; high | FileTools.LegacyPanicsWithoutCount | FileTools.ReadWindowToEnd |
| src/tools/files/mod.rs:170-175 and src/files/mod.rs:76-81 | a start past the end makes the slice start after its end | a one-line file read from line 3: the slice `lines[2..1]` panics | an empty window | not executed; medium | FileTools.PastEndPanics | FileTools.ReadWindow |
| src/jsonedit.rs:104-108 | a final `key[i][j]` writes at `j` in the array under `key`, ignoring `i` | `{"m": [[1, 2], [3, 4]]}` with path `m[0][1]` and value 9 gives `{"m": [[1, 2], 9]}` | follow every index, as the earlier segments do (src/jsonedit.rs:73-81), giving `{"m": [[1, 9], [3, 4]]}` | not executed; medium | JsonEdit.SetLastSkipsEarlierIndices | JsonEdit.SetLastNestedReadsBack |

=== FILE: conversation.dfy ===
/**
 * `ChatContext` (src/openaiapi/mod.rs): the message log of one chat, its id
 * and the dirty flag, with the operations that read and extend the log.
 *
 * The context's paths, API key, URL and model name, and the request fields
 * other than `messages` and `stream`, play no part in these operations and
 * are not modelled.
 * Reading and writing chat files, and the HTTP exchange, are parameters: the
 * decoded file or body, or the error the I/O produced.
 */
module Conversation {
  import opened Wrappers
  import opened Strings
  import opened Messages
  import opened Streaming

  datatype ChatErrorKind =
    | ChatContainsNoMessages
    | SystemPromptNotFound
    | LastToolCallIdNotFound
    | LastMessageFromAssistant
    | Other

  /** The boxed errors of the source: a `ChatError`, an I/O error with its
      message, or a panic. */
  datatype Error =
    | ChatError(kind: ChatErrorKind, message: string)
    | IoError(message: string)
    | Panicked(message: string)

  /** `Chat`: the request body kept for a conversation. Of its fields, the
      log of messages and the `stream` flag are modelled. */
  datatype Chat = Chat(messages: seq<Message>, stream: Option<bool>)

  /** The chat with `m` appended to its log. */
  function Appended(c: Chat, m: Message): Chat {
    c.(messages := c.messages + [m])
  }

  datatype Context = Context(chat: Option<Chat>, chatId: Option<string>, dirty: bool)

  /** The context after an operation, and what the operation returned. */
  datatype Step<T> = Step(ctx: Context, result: Result<T, Error>)

  const Assistant: string := "assistant"
  const System: string := "system"
  const NoChatLoaded: string := "No chat currently loaded"

  /** `ChatContext::new`: no chat loaded, and dirty. Only the URL parse can fail. */
  function New(urlParses: bool): (r: Result<Context, Error>)
    ensures r.Success? <==> urlParses
    ensures r.Success? ==> r.value.chat.None? && r.value.chatId.None? && r.value.dirty
    ensures r.Failure? ==> r.error == ChatError(Other, "URL Parse Error")
  {
    if urlParses then Success(Context(None, None, true))
    else Failure(ChatError(Other, "URL Parse Error"))
  }

  /* ---------------------------------------------------------------------- */
  /* Loading, saving, reading the log                                       */
  /* ---------------------------------------------------------------------- */

  /** `load_chat`: `read` is the decoded chat file, or the error reading it. */
  function LoadChat(ctx: Context, id: string, read: Result<Chat, Error>): (r: Step<()>)
    ensures r.result.Success? <==> read.Success?
    ensures read.Success? ==> r.ctx == Context(Some(read.value), Some(id), false)
    ensures read.Failure? ==> r.ctx == ctx && r.result.error == read.error
  {
    match read
    case Success(chat) => Step(Context(Some(chat), Some(id), false), Success(()))
    case Failure(e) => Step(ctx, Failure(e))
  }

  /** `save_chat`: `write` is the outcome of writing the file. A clean context
      writes nothing. Saving does not clear the flag. */
  function SaveChat(ctx: Context, write: Result<(), Error>): (r: Step<()>)
    ensures r.ctx == ctx
    ensures !ctx.dirty ==> r.result.Success?
    ensures ctx.dirty && (ctx.chatId.None? || ctx.chat.None?) ==> r.result == Failure(IoError("No chat id"))
    ensures ctx.dirty && ctx.chatId.Some? && ctx.chat.Some? ==> r.result == write
  {
    if !ctx.dirty then Step(ctx, Success(()))
    else if ctx.chatId.Some? && ctx.chat.Some? then Step(ctx, write)
    else Step(ctx, Failure(IoError("No chat id")))
  }

  /** `get_last_message`. */
  function GetLastMessage(ctx: Context): (r: Result<Message, Error>)
    ensures r.Success? <==> ctx.chat.Some? && |ctx.chat.value.messages| > 0
    ensures r.Success? ==> r.value == ctx.chat.value.messages[|ctx.chat.value.messages| - 1]
    ensures ctx.chat.None? ==> r == Failure(IoError(NoChatLoaded))
    ensures (ctx.chat.Some? && ctx.chat.value.messages == []) ==> r == Failure(ChatError(ChatContainsNoMessages, "No messages in loaded chat"))
  {
    match ctx.chat
    case None => Failure(IoError(NoChatLoaded))
    case Some(Chat(messages, _)) =>
      if |messages| > 0 then Success(messages[|messages| - 1])
      else Failure(ChatError(ChatContainsNoMessages, "No messages in loaded chat"))
  }

  /** `set_system_prompt`: overwrite the content of the leading system message. */
  function SetSystemPrompt(ctx: Context, prompt: string): (r: Step<()>)
    ensures r.result.Success? <==> ctx.chat.Some? && |ctx.chat.value.messages| > 0 && ctx.chat.value.messages[0].role == System
    ensures r.result.Failure? ==> r.ctx == ctx
    ensures r.result.Failure? && ctx.chat.Some? && |ctx.chat.value.messages| > 0 ==>
      r.result.error == ChatError(SystemPromptNotFound, "First message was not a system prompt")
    ensures r.result.Failure? && (ctx.chat.None? || ctx.chat.value.messages == []) ==>
      r.result.error == ChatError(SystemPromptNotFound, "There are no messages.")
    ensures r.result.Success? ==>
      var old_ := ctx.chat.value.messages;
      r.ctx.chatId == ctx.chatId && r.ctx.dirty && r.ctx.chat.Some? &&
      var new_ := r.ctx.chat.value.messages;
      |new_| == |old_| &&
      new_[0] == old_[0].(content := Some(Simple(prompt))) &&
      forall i :: 0 < i < |new_| ==> new_[i] == old_[i]
  {
    if ctx.chat.None? || |ctx.chat.value.messages| == 0 then
      Step(ctx, Failure(ChatError(SystemPromptNotFound, "There are no messages.")))
    else
      var messages := ctx.chat.value.messages;
      if messages[0].role != System then
        Step(ctx, Failure(ChatError(SystemPromptNotFound, "First message was not a system prompt")))
      else
        var first := messages[0].(content := Some(Simple(prompt)));
        Step(ctx.(chat := Some(ctx.chat.value.(messages := [first] + messages[1..])), dirty := true), Success(()))
  }

  /* ---------------------------------------------------------------------- */
  /* Appending                                                              */
  /* ---------------------------------------------------------------------- */

  /** `add_message`: append any message to the loaded chat. */
  function AddMessage(ctx: Context, m: Message): (r: Step<()>)
    ensures r.result.Success? <==> ctx.chat.Some?
    ensures ctx.chat.None? ==> r == Step(ctx, Failure(IoError(NoChatLoaded)))
    ensures ctx.chat.Some? ==> r.ctx == ctx.(chat := Some(Appended(ctx.chat.value, m)), dirty := true)
  {
    match ctx.chat
    case None => Step(ctx, Failure(IoError(NoChatLoaded)))
    case Some(chat) => Step(ctx.(chat := Some(Appended(chat, m)), dirty := true), Success(()))
  }

  /** The role of the last message, when there is one. */
  function LastRole(messages: seq<Message>): Option<string> {
    if |messages| == 0 then None else Some(messages[|messages| - 1].role)
  }

  /** `add_normal_message`: refuses two messages in a row from one role. */
  function AddNormalMessage(ctx: Context, role: string, content: Content): (r: Step<()>)
    ensures r.result.Success? <==> ctx.chat.Some? && LastRole(ctx.chat.value.messages) != Some(role)
    ensures r.result.Failure? ==> r.ctx == ctx
    ensures ctx.chat.None? ==> r.result == Failure(IoError(NoChatLoaded))
    ensures ctx.chat.Some? && LastRole(ctx.chat.value.messages) == Some(role) ==>
      r.result == Failure(ChatError(Other, "Last message was from same role"))
    ensures r.result.Success? ==>
      r.ctx == ctx.(chat := Some(Appended(ctx.chat.value, Normal(role, content))), dirty := true)
  {
    match ctx.chat
    case None => Step(ctx, Failure(IoError(NoChatLoaded)))
    case Some(chat) =>
      var messages := chat.messages;
      if |messages| > 0 && messages[|messages| - 1].role == role then
        Step(ctx, Failure(ChatError(Other, "Last message was from same role")))
      else
        Step(ctx.(chat := Some(Appended(chat, Normal(role, content))), dirty := true), Success(()))
  }

  /** `add_tool_message`: append the answer to a tool call, whatever the
      previous role. */
  function AddToolMessage(ctx: Context, role: string, name: string, toolCallId: string, content: Content): (r: Step<()>)
    ensures r.result.Success? <==> ctx.chat.Some?
    ensures ctx.chat.None? ==> r == Step(ctx, Failure(IoError(NoChatLoaded)))
    ensures r.result.Success? ==>
      r.ctx.dirty && r.ctx.chatId == ctx.chatId && r.ctx.chat.Some? &&
      var m := r.ctx.chat.value.messages;
      |m| == |ctx.chat.value.messages| + 1 && m[..|m| - 1] == ctx.chat.value.messages &&
      m[|m| - 1].role == role && m[|m| - 1].name == Some(name) &&
      m[|m| - 1].toolCallId == Some(toolCallId) && m[|m| - 1].toolCalls.None? &&
      m[|m| - 1].content == Some(content)
  {
    AddMessage(ctx, ToolResponse(role, name, toolCallId, content))
  }

  /** No two neighbouring messages share a role. */
  predicate Alternating(messages: seq<Message>) {
    forall i :: 0 < i < |messages| ==> messages[i - 1].role != messages[i].role
  }

  /** Normal appends keep the roles alternating. */
  lemma AddNormalKeepsAlternation(ctx: Context, role: string, content: Content)
    requires ctx.chat.Some? && Alternating(ctx.chat.value.messages)
    ensures var r := AddNormalMessage(ctx, role, content); r.ctx.chat.Some? && Alternating(r.ctx.chat.value.messages)
  {
    var r := AddNormalMessage(ctx, role, content);
    var old_ := ctx.chat.value.messages;
    if r.result.Success? {
      var m := r.ctx.chat.value.messages;
      forall i | 0 < i < |m|
        ensures m[i - 1].role != m[i].role
      {
        if i < |old_| {
          assert m[i - 1] == old_[i - 1] && m[i] == old_[i];
        } else {
          assert m[i] == Normal(role, content);
          assert m[i - 1] == old_[|old_| - 1];
        }
      }
    }
  }

  /** Dirty flag: loading clears it, every successful change sets it, and a
      clean context saves nothing and stays clean. */
  lemma DirtyLifecycle(ctx: Context, id: string, chat: Chat, m: Message, write: Result<(), Error>)
    ensures New(true).value.dirty
    ensures var loaded := LoadChat(ctx, id, Success(chat)).ctx;
      var messages := chat.messages;
      !loaded.dirty &&
      SaveChat(loaded, write) == Step(loaded, Success(())) &&
      AddMessage(loaded, m).ctx.dirty &&
      !AddNormalMessage(loaded, m.role, Simple("")).ctx.dirty ==
        (|messages| > 0 && messages[|messages| - 1].role == m.role)
  {
  }

  /* ---------------------------------------------------------------------- */
  /* Tool calls                                                             */
  /* ---------------------------------------------------------------------- */

  /** The ids of the calls a message issues, in order. */
  function IdsOf(m: Message): seq<string> {
    var calls := CallsOf(m);
    seq(|calls|, i requires 0 <= i < |calls| => calls[i].id)
  }

  /** `Vec::retain` with `s != id`, when the message answers `id`. */
  function Retain(queue: seq<string>, answer: Option<string>): (r: seq<string>)
    decreases |queue|
  {
    if |queue| == 0 then []
    else (if answer == Some(queue[0]) then [] else [queue[0]]) + Retain(queue[1..], answer)
  }

  /** One iteration of the loop of `get_last_pending_tool_call_id`: queue the
      message's call ids, then drop every queued copy of the id it answers. */
  function PendingStep(queue: seq<string>, m: Message): seq<string> {
    Retain(queue + IdsOf(m), m.toolCallId)
  }

  /** The loop over the whole log. */
  function PendingQueue(messages: seq<Message>): seq<string>
    decreases |messages|
  {
    if |messages| == 0 then []
    else PendingStep(PendingQueue(messages[..|messages| - 1]), messages[|messages| - 1])
  }

  /** The message list answers `id` somewhere. */
  function Answers(messages: seq<Message>, id: string): (r: bool)
    decreases |messages|
  {
    |messages| > 0 && (messages[0].toolCallId == Some(id) || Answers(messages[1..], id))
  }

  /** The ids among `ids` that no message of `later` answers, in order. */
  function Unanswered(ids: seq<string>, later: seq<Message>): seq<string>
    decreases |ids|
  {
    if |ids| == 0 then []
    else (if Answers(later, ids[0]) then [] else [ids[0]]) + Unanswered(ids[1..], later)
  }

  /**
   * Reference: the calls still pending are those whose id no message from
   * the issuing one onwards answers, in the order they were issued. A call
   * issued after an answer to the same id stays pending.
   */
  function Pending(messages: seq<Message>): seq<string>
    decreases |messages|
  {
    if |messages| == 0 then []
    else Unanswered(IdsOf(messages[0]), messages) + Pending(messages[1..])
  }

  /** `get_last_pending_tool_call_id`: the oldest pending id. */
  function GetLastPendingToolCallId(ctx: Context): (r: Result<Option<string>, Error>)
    ensures ctx.chat.None? <==> r.Failure?
    ensures r.Failure? ==> r.error == ChatError(ChatContainsNoMessages, "No Messages")
    ensures r.Success? ==> (r.value.None? <==> Pending(ctx.chat.value.messages) == [])
    ensures r.Success? && r.value.Some? ==> r.value.value == Pending(ctx.chat.value.messages)[0]
  {
    match ctx.chat
    case None => Failure(ChatError(ChatContainsNoMessages, "No Messages"))
    case Some(Chat(messages, _)) =>
      var queue := PendingQueue(messages);
      PendingQueueIsPending(messages);
      if |queue| > 0 then Success(Some(queue[0])) else Success(None)
  }

  lemma {:induction false} RetainAppend(a: seq<string>, b: seq<string>, answer: Option<string>)
    ensures Retain(a + b, answer) == Retain(a, answer) + Retain(b, answer)
    decreases |a|
  {
    if |a| == 0 {
      assert a + b == b;
    } else {
      assert (a + b)[1..] == a[1..] + b;
      RetainAppend(a[1..], b, answer);
    }
  }

  lemma {:induction false} AnswersSnoc(messages: seq<Message>, m: Message, id: string)
    ensures Answers(messages + [m], id) == (Answers(messages, id) || m.toolCallId == Some(id))
    decreases |messages|
  {
    if |messages| == 0 {
      assert (messages + [m])[1..] == [];
    } else {
      assert (messages + [m])[1..] == messages[1..] + [m];
      AnswersSnoc(messages[1..], m, id);
    }
  }

  /** One more answer at the end drops its id from every earlier segment. */
  lemma {:induction false} UnansweredSnoc(ids: seq<string>, later: seq<Message>, m: Message)
    ensures Unanswered(ids, later + [m]) == Retain(Unanswered(ids, later), m.toolCallId)
    decreases |ids|
  {
    if |ids| > 0 {
      AnswersSnoc(later, m, ids[0]);
      UnansweredSnoc(ids[1..], later, m);
      RetainAppend(if Answers(later, ids[0]) then [] else [ids[0]], Unanswered(ids[1..], later), m.toolCallId);
    }
  }

  lemma {:induction false} UnansweredSelf(ids: seq<string>, m: Message)
    ensures Unanswered(ids, [m]) == Retain(ids, m.toolCallId)
    decreases |ids|
  {
    if |ids| > 0 {
      assert [m][1..] == [];
      assert Answers([m], ids[0]) == (m.toolCallId == Some(ids[0]));
      UnansweredSelf(ids[1..], m);
    }
  }

  lemma {:induction false} PendingSnoc(messages: seq<Message>, m: Message)
    ensures Pending(messages + [m]) == PendingStep(Pending(messages), m)
    decreases |messages|
  {
    if |messages| == 0 {
      assert messages + [m] == [m];
      assert [m][1..] == [];
      UnansweredSelf(IdsOf(m), m);
      assert Pending([m]) == Unanswered(IdsOf(m), [m]) + Pending([]);
      assert Pending(messages) + IdsOf(m) == IdsOf(m);
    } else {
      var rest := messages[1..];
      assert (messages + [m])[1..] == rest + [m];
      assert (messages + [m])[0] == messages[0];
      PendingSnoc(rest, m);
      UnansweredSnoc(IdsOf(messages[0]), messages, m);
      RetainAppend(Pending(rest), IdsOf(m), m.toolCallId);
      RetainAppend(Unanswered(IdsOf(messages[0]), messages), Pending(rest) + IdsOf(m), m.toolCallId);
      assert Unanswered(IdsOf(messages[0]), messages) + (Pending(rest) + IdsOf(m))
        == Pending(messages) + IdsOf(m);
    }
  }

  /** The source's queue holds exactly the reference's pending ids, in order. */
  lemma {:induction false} PendingQueueIsPending(messages: seq<Message>)
    ensures PendingQueue(messages) == Pending(messages)
    decreases |messages|
  {
    if |messages| > 0 {
      var pre := messages[..|messages| - 1];
      assert messages == pre + [messages[|messages| - 1]];
      PendingQueueIsPending(pre);
      PendingSnoc(pre, messages[|messages| - 1]);
    }
  }

  lemma {:induction false} RetainRemoves(queue: seq<string>, id: string)
    ensures id !in Retain(queue, Some(id))
    decreases |queue|
  {
    if |queue| > 0 {
      RetainRemoves(queue[1..], id);
    }
  }

  /** An answer cancels every copy of its id issued before it, and a call
      issued after the answer is pending again. */
  lemma AnswerCancelsEarlierCalls(messages: seq<Message>, answer: Message, call: Message)
    requires answer.toolCallId.Some?
    requires call.toolCallId.None? && IdsOf(call) == [answer.toolCallId.value]
    ensures answer.toolCallId.value !in Pending(messages + [answer])
    ensures Pending(messages + [answer] + [call]) == Pending(messages + [answer]) + [answer.toolCallId.value]
  {
    PendingSnoc(messages, answer);
    RetainRemoves(Pending(messages) + IdsOf(answer), answer.toolCallId.value);
    PendingSnoc(messages + [answer], call);
    RetainNone(Pending(messages + [answer]) + IdsOf(call));
  }

  lemma {:induction false} RetainNone(queue: seq<string>)
    ensures Retain(queue, None) == queue
    decreases |queue|
  {
    if |queue| > 0 {
      RetainNone(queue[1..]);
      assert queue == [queue[0]] + queue[1..];
    }
  }

  /** Every call of the log, in message order. */
  function AllCalls(messages: seq<Message>): seq<ToolCall>
    decreases |messages|
  {
    if |messages| == 0 then [] else CallsOf(messages[0]) + AllCalls(messages[1..])
  }

  /** The index of the first call with this id. */
  function FirstCallWithId(calls: seq<ToolCall>, id: string): (r: Option<nat>)
    decreases |calls|
    ensures r.Some? ==> r.value < |calls| && calls[r.value].id == id
    ensures r.Some? ==> forall i :: 0 <= i < r.value ==> calls[i].id != id
    ensures r.None? ==> forall i :: 0 <= i < |calls| ==> calls[i].id != id
  {
    if |calls| == 0 then None
    else if calls[0].id == id then Some(0)
    else match FirstCallWithId(calls[1..], id)
      case None => None
      case Some(k) =>
        assert forall i :: 1 <= i <= k ==> calls[i] == calls[1..][i - 1];
        Some(k + 1)
  }

  /** `get_tool_call`: the first call in message order with the given id. */
  function GetToolCall(ctx: Context, id: string): (r: Result<ToolCall, Error>)
    ensures ctx.chat.None? ==> r == Failure(ChatError(ChatContainsNoMessages, "No Messages"))
    ensures ctx.chat.Some? && r.Failure? ==> r.error == ChatError(LastToolCallIdNotFound, id)
  {
    match ctx.chat
    case None => Failure(ChatError(ChatContainsNoMessages, "No Messages"))
    case Some(Chat(messages, _)) =>
      var calls := AllCalls(messages);
      match FirstCallWithId(calls, id)
      case Some(k) => Success(calls[k])
      case None => Failure(ChatError(LastToolCallIdNotFound, id))
  }

  /** With a log, `get_tool_call` succeeds exactly when some call has the id,
      and then returns the first such call. */
  lemma GetToolCallFinds(ctx: Context, id: string)
    requires ctx.chat.Some?
    ensures GetToolCall(ctx, id).Success? <==> HasCallWithId(AllCalls(ctx.chat.value.messages), id)
    ensures var calls := AllCalls(ctx.chat.value.messages);
      GetToolCall(ctx, id).Success? ==>
        exists k :: 0 <= k < |calls| && GetToolCall(ctx, id).value == calls[k] && calls[k].id == id &&
          forall i :: 0 <= i < k ==> calls[i].id != id
  {
    var calls := AllCalls(ctx.chat.value.messages);
    FirstCallWithIdFinds(calls, id);
  }

  /** Some call of the list carries this id. */
  predicate HasCallWithId(calls: seq<ToolCall>, id: string) {
    exists i :: 0 <= i < |calls| && calls[i].id == id
  }

  /** `FirstCallWithId` finds a call exactly when one has the id. */
  lemma FirstCallWithIdFinds(calls: seq<ToolCall>, id: string)
    ensures FirstCallWithId(calls, id).Some? <==> HasCallWithId(calls, id)
  {
    var f := FirstCallWithId(calls, id);
    if f.Some? {
      assert calls[f.value].id == id;
    }
  }

  /* ---------------------------------------------------------------------- */
  /* Sending                                                                */
  /* ---------------------------------------------------------------------- */

  /** The checks `call_api` makes before sending anything. */
  function SendGuard(ctx: Context): (r: Result<(), Error>)
    ensures r.Success? <==> ctx.chat.Some? && |ctx.chat.value.messages| > 0 && LastRole(ctx.chat.value.messages) != Some(Assistant)
    ensures ctx.chat.None? ==> r == Failure(IoError(NoChatLoaded))
    ensures (ctx.chat.Some? && ctx.chat.value.messages == []) ==> r == Failure(ChatError(ChatContainsNoMessages, "No messages in loaded chat"))
    ensures ctx.chat.Some? && LastRole(ctx.chat.value.messages) == Some(Assistant) ==>
      r == Failure(ChatError(LastMessageFromAssistant, "Last message was from the assistant"))
  {
    var last :- GetLastMessage(ctx);
    if last.role == Assistant then
      Failure(ChatError(LastMessageFromAssistant, "Last message was from the assistant"))
    else
      // The source then looks up the pending call id and forwards its error;
      // that lookup fails only when no chat is loaded, which is excluded here.
      assert GetLastPendingToolCallId(ctx).Success?;
      Success(())
  }

  /** The first thing `call_api` does: a loaded chat is marked as a streaming
      request, before any check, and the mark stays whatever happens next. */
  function MarkStreaming(ctx: Context): Context {
    if ctx.chat.Some? then ctx.(chat := Some(ctx.chat.value.(stream := Some(true)))) else ctx
  }

  /**
   * `call_api` once the exchange is done: `body` is the response text (or the
   * transport's error), `decode` decodes one streamed frame and
   * `parseResponse` stands for `parse_response` on a non-streamed body. The
   * chat is marked as streaming first; then the reply is appended and its
   * human-readable form returned. The panic on more than one streamed tool
   * call is the `Panicked` outcome.
   */
  function CallApi(ctx: Context, body: Result<string, Error>, decode: string -> Frame,
                   parseResponse: string -> Result<Message, Error>): (r: Step<string>)
    ensures ctx.chat.Some? ==> r.ctx.chat.Some? && r.ctx.chat.value.stream == Some(true)
    ensures r.result.Failure? ==>
      r.ctx.chatId == ctx.chatId && r.ctx.dirty == ctx.dirty && (r.ctx.chat.Some? <==> ctx.chat.Some?) &&
      (ctx.chat.Some? ==> r.ctx.chat.value.messages == ctx.chat.value.messages)
    ensures SendGuard(ctx).Failure? ==> r == Step(MarkStreaming(ctx), Failure(SendGuard(ctx).error))
    ensures SendGuard(ctx).Success? && body.Failure? ==> r == Step(MarkStreaming(ctx), Failure(body.error))
    ensures r.result.Failure? ==> r.ctx == MarkStreaming(ctx)
    ensures SendGuard(ctx).Success? && body.Success? && IsStreamingBody(body.value) ==>
      var parsed := ParseStreamingBody(body.value, decode);
      var marked := MarkStreaming(ctx);
      (parsed.Failure? ==> r == Step(marked, Failure(Panicked(TooManyCalls)))) &&
      (parsed.Success? ==> r == Step(marked.(chat := Some(Appended(marked.chat.value, parsed.value)), dirty := true),
                                     Success(HumanReadable(parsed.value))))
    ensures SendGuard(ctx).Success? && body.Success? && !IsStreamingBody(body.value) ==>
      var parsed := parseResponse(body.value);
      var marked := MarkStreaming(ctx);
      (parsed.Failure? ==> r == Step(marked, Failure(parsed.error))) &&
      (parsed.Success? ==> r == Step(marked.(chat := Some(Appended(marked.chat.value, parsed.value)), dirty := true),
                                     Success(HumanReadable(parsed.value))))
  {
    var marked := MarkStreaming(ctx);
    assert SendGuard(marked) == SendGuard(ctx) by {
      assert GetLastMessage(marked) == GetLastMessage(ctx);
    }
    match SendGuard(marked)
    case Failure(e) => Step(marked, Failure(e))
    case Success(_) =>
      match body
      case Failure(e) => Step(marked, Failure(e))
      case Success(text) =>
        var reply :=
          if IsStreamingBody(text) then
            match ParseStreamingBody(text, decode)
            case Success(m) => Success(m)
            case Failure(msg) => Failure(Panicked(msg))
          else parseResponse(text);
        match reply
        case Failure(e) => Step(marked, Failure(e))
        case Success(m) =>
          var added := AddMessage(marked, m);
          Step(added.ctx, Success(HumanReadable(m)))
  }

  /** Even a refused call changes a chat that was not yet marked as
      streaming, without setting the dirty flag. */
  lemma RefusedCallMarksChat(ctx: Context, body: Result<string, Error>, decode: string -> Frame,
                             parseResponse: string -> Result<Message, Error>)
    requires ctx.chat.Some? && ctx.chat.value.stream != Some(true)
    requires SendGuard(ctx).Failure?
    ensures CallApi(ctx, body, decode, parseResponse).result.Failure?
    ensures CallApi(ctx, body, decode, parseResponse).ctx != ctx
    ensures CallApi(ctx, body, decode, parseResponse).ctx.dirty == ctx.dirty
  {
  }

  /** After a successful call whose reply is the assistant's, calling again
      is refused with "Last message was from the assistant" and, the chat
      being marked already, changes nothing. */
  lemma CallApiTwiceRefused(ctx: Context, body: Result<string, Error>, body2: Result<string, Error>,
                            decode: string -> Frame, parseResponse: string -> Result<Message, Error>)
    requires var r := CallApi(ctx, body, decode, parseResponse);
      r.result.Success? && LastRole(r.ctx.chat.value.messages) == Some(Assistant)
    ensures var r := CallApi(ctx, body, decode, parseResponse);
      CallApi(r.ctx, body2, decode, parseResponse) ==
        Step(r.ctx, Failure(ChatError(LastMessageFromAssistant, "Last message was from the assistant")))
  {
    var r := CallApi(ctx, body, decode, parseResponse);
    assert MarkStreaming(r.ctx) == r.ctx;
  }
}

=== FILE: executor.dfy ===
/**
 * Output capture of the shell-command tool (src/tools/executor.rs).
 *
 * Time is an integer count of milliseconds. Each line read from the child's
 * stdout or stderr becomes an `Event` stamped with the time it was read; the
 * order in which the two pipes deliver is a nondeterministic input: the
 * event sequence is any interleaving of the two pipes' own sequences. A pipe
 * that never reports its end within the listed events is one that is still
 * open when the events run out. Process spawning, signals and the real
 * clock are not modelled.
 */
module Executor {
  import opened Wrappers
  import opened Strings

  const MaxLines: nat := 128
  const MaxLineLen: nat := 256
  /** The whole run may take this long before the child is killed. */
  const TimeoutMs: nat := 120000
  /** The exit code reported for a run that timed out. */
  const KilledExitCode: int := 137

  datatype StreamKind = Stdout | Stderr

  datatype TimedLine = TimedLine(at: int, kind: StreamKind, line: string)

  /* ---------------------------------------------------------------------- */
  /* The bounded buffer                                                     */
  /* ---------------------------------------------------------------------- */

  /** `String::truncate(MAX_LINE_LEN)` when the line is longer (strings are
      taken as ASCII, so characters and bytes coincide). */
  function Truncate(line: string): (r: string)
    ensures |r| == Min(|line|, MaxLineLen)
    ensures r == line[..|r|]
  {
    if |line| > MaxLineLen then line[..MaxLineLen] else line
  }

  /** `push_bounded`: store the truncated line, first dropping the oldest
      entry when the buffer is full. */
  function PushBounded(buf: seq<TimedLine>, at: int, kind: StreamKind, line: string): (r: seq<TimedLine>)
    ensures |r| == if |buf| == MaxLines then |buf| else |buf| + 1
    ensures |buf| <= MaxLines ==> |r| <= MaxLines
    ensures r[|r| - 1] == TimedLine(at, kind, Truncate(line))
    ensures |buf| == MaxLines ==> r[..|r| - 1] == buf[1..]
    ensures |buf| != MaxLines ==> r[..|r| - 1] == buf
  {
    var entry := TimedLine(at, kind, Truncate(line));
    if |buf| == MaxLines then buf[1..] + [entry] else buf + [entry]
  }

  /** The last `n` entries of `s` (all of them when there are fewer). */
  function LastN<T>(s: seq<T>, n: nat): (r: seq<T>)
    ensures |r| == Min(|s|, n)
  {
    s[|s| - Min(|s|, n)..]
  }

  /** A line read from one of the pipes, before truncation. */
  datatype Pushed = Pushed(at: int, kind: StreamKind, line: string)

  function Stored(p: Pushed): TimedLine {
    TimedLine(p.at, p.kind, Truncate(p.line))
  }

  function StoredAll(ps: seq<Pushed>): (r: seq<TimedLine>)
    ensures |r| == |ps|
  {
    seq(|ps|, i requires 0 <= i < |ps| => Stored(ps[i]))
  }

  /** Pushing several lines in order. */
  function PushAll(buf: seq<TimedLine>, ps: seq<Pushed>): seq<TimedLine>
    decreases |ps|
  {
    if |ps| == 0 then buf
    else PushAll(PushBounded(buf, ps[0].at, ps[0].kind, ps[0].line), ps[1..])
  }

  lemma PushBoundedKeepsLast(buf: seq<TimedLine>, p: Pushed)
    requires |buf| <= MaxLines
    ensures PushBounded(buf, p.at, p.kind, p.line) == LastN(buf + [Stored(p)], MaxLines)
  {
    var s := buf + [Stored(p)];
    if |buf| == MaxLines {
      assert s[1..] == buf[1..] + [Stored(p)];
    } else {
      assert s[0..] == s;
    }
  }

  lemma LastNOfLastN<T>(a: seq<T>, b: seq<T>, n: nat)
    ensures LastN(LastN(a, n) + b, n) == LastN(a + b, n)
  {
    var la := LastN(a, n);
    var k := Min(|la + b|, n);
    var k2 := Min(|a + b|, n);
    assert k == k2;
    assert (la + b)[|la + b| - k..] == (a + b)[|a + b| - k..];
  }

  /**
   * After any sequence of pushes onto a buffer that holds at most 128
   * entries, the buffer is the last 128 of the old entries followed by the
   * truncated new lines.
   */
  lemma {:induction false} PushAllKeepsLast(buf: seq<TimedLine>, ps: seq<Pushed>)
    requires |buf| <= MaxLines
    ensures PushAll(buf, ps) == LastN(buf + StoredAll(ps), MaxLines)
    decreases |ps|
  {
    if |ps| == 0 {
      assert buf + StoredAll(ps) == buf;
      assert buf[0..] == buf;
    } else {
      var next := PushBounded(buf, ps[0].at, ps[0].kind, ps[0].line);
      var pushed := buf + [Stored(ps[0])];
      assert PushAll(buf, ps) == LastN(pushed + StoredAll(ps[1..]), MaxLines) by {
        PushBoundedKeepsLast(buf, ps[0]);
        PushAllKeepsLast(next, ps[1..]);
        LastNOfLastN(pushed, StoredAll(ps[1..]), MaxLines);
      }
      assert pushed + StoredAll(ps[1..]) == buf + StoredAll(ps) by {
        assert StoredAll(ps) == [Stored(ps[0])] + StoredAll(ps[1..]);
      }
    }
  }

  /** From an empty buffer: the last min(n, 128) lines, truncated, in order. */
  lemma PushAllFromEmpty(ps: seq<Pushed>)
    ensures PushAll([], ps) == StoredAll(ps)[|ps| - Min(|ps|, MaxLines)..]
    ensures |PushAll([], ps)| <= MaxLines
  {
    PushAllKeepsLast([], ps);
    assert [] + StoredAll(ps) == StoredAll(ps);
  }

  /* ---------------------------------------------------------------------- */
  /* The drain loop                                                         */
  /* ---------------------------------------------------------------------- */

  /** What one `next_line` on a pipe yields. */
  datatype Item = Line(text: string) | Closed | Broken(message: string)

  datatype Event = Event(at: int, kind: StreamKind, item: Item)

  /** A pipe's own sequence: lines, then at most one end report, last. */
  predicate PipeOf(events: seq<Event>, kind: StreamKind) {
    (forall i :: 0 <= i < |events| ==> events[i].kind == kind) &&
    (forall i :: 0 <= i < |events| - 1 ==> events[i].item.Line?)
  }

  /** The events of one pipe, in order. */
  function Project(events: seq<Event>, kind: StreamKind): (r: seq<Event>)
    decreases |events|
    ensures forall i :: 0 <= i < |r| ==> r[i].kind == kind
  {
    if |events| == 0 then []
    else (if events[0].kind == kind then [events[0]] else []) + Project(events[1..], kind)
  }

  /** `events` interleaves the stdout sequence `out` and the stderr sequence `err`. */
  predicate Interleaves(events: seq<Event>, out: seq<Event>, err: seq<Event>) {
    PipeOf(out, Stdout) && PipeOf(err, Stderr) &&
    Project(events, Stdout) == out && Project(events, Stderr) == err
  }

  datatype Drain =
    | Drained(buf: seq<TimedLine>)
    | TimedOut(buf: seq<TimedLine>)
    | ReadFailed(message: string)

  function Ended(kind: StreamKind, outDone: bool, errDone: bool): bool {
    if kind == Stdout then outDone else errDone
  }

  /** Some event of `events` is the end report of pipe `kind`. */
  predicate SawEnd(events: seq<Event>, kind: StreamKind) {
    exists i :: 0 <= i < |events| && events[i].kind == kind && events[i].item.Closed?
  }

  lemma SawEndLater(events: seq<Event>, kind: StreamKind)
    requires |events| > 0
    ensures SawEnd(events[1..], kind) ==> SawEnd(events, kind)
    ensures events[0].kind == kind && events[0].item.Closed? ==> SawEnd(events, kind)
  {
    if SawEnd(events[1..], kind) {
      var i :| 0 <= i < |events[1..]| && events[1..][i].kind == kind && events[1..][i].item.Closed?;
      assert events[i + 1] == events[1..][i];
    }
  }

  /**
   * The `select!` loop of `run_and_capture_with_timeout`, from the point
   * where `events` remain and the flags say which pipes have ended. The loop
   * stops when both pipes have ended; it times out when the next event comes
   * after `deadline` or when the events run out first. A read error ends the
   * run with that error. An event from a pipe that already ended cannot be
   * selected; it is passed over.
   */
  function Consume(events: seq<Event>, deadline: int, buf: seq<TimedLine>, outDone: bool, errDone: bool): (r: Drain)
    decreases |events|
    ensures r.Drained? ==> (outDone || SawEnd(events, Stdout)) && (errDone || SawEnd(events, Stderr))
    ensures |buf| <= MaxLines && !r.ReadFailed? ==> |r.buf| <= MaxLines
  {
    if outDone && errDone then Drained(buf)
    else if |events| == 0 || events[0].at > deadline then TimedOut(buf)
    else
      SawEndLater(events, Stdout);
      SawEndLater(events, Stderr);
      var e := events[0];
      if Ended(e.kind, outDone, errDone) then Consume(events[1..], deadline, buf, outDone, errDone)
      else match e.item
        case Line(text) =>
          Consume(events[1..], deadline, PushBounded(buf, e.at, e.kind, text), outDone, errDone)
        case Broken(message) => ReadFailed(message)
        case Closed =>
          Consume(events[1..], deadline, buf, outDone || e.kind == Stdout, errDone || e.kind == Stderr)
  }

  /** The lines of `events` that the loop pushes, in order. */
  function LinesOf(events: seq<Event>): seq<Pushed>
    decreases |events|
  {
    if |events| == 0 then []
    else
      var e := events[0];
      var head := if e.item.Line? then [Pushed(e.at, e.kind, e.item.text)] else [];
      head + LinesOf(events[1..])
  }

  /** Every event is timely and no pipe reports a read error. */
  predicate Clean(events: seq<Event>, deadline: int) {
    forall i :: 0 <= i < |events| ==> events[i].at <= deadline && !events[i].item.Broken?
  }

  /** Neither pipe has an event after its own end report. */
  predicate NothingAfterEnd(events: seq<Event>) {
    forall i, j :: 0 <= i < j < |events| && !events[i].item.Line? ==> events[j].kind != events[i].kind
  }

  /** Number of pipes that still have to report their end. */
  function Open(outDone: bool, errDone: bool): nat {
    (if outDone then 0 else 1) + (if errDone then 0 else 1)
  }

  /** The ends reported in `events`. */
  function EndCount(events: seq<Event>): nat
    decreases |events|
  {
    if |events| == 0 then 0 else (if events[0].item.Closed? then 1 else 0) + EndCount(events[1..])
  }

  /**
   * When every event is timely and error-free, the pipes that are still open
   * report their ends exactly at the end of `events`, and nothing follows an
   * end, the loop drains: the buffer holds the last 128 lines pushed, in the
   * order they were read.
   */
  lemma {:induction false} ConsumeDrains(events: seq<Event>, deadline: int, buf: seq<TimedLine>, outDone: bool, errDone: bool)
    requires Clean(events, deadline) && NothingAfterEnd(events)
    requires forall i :: 0 <= i < |events| ==> !Ended(events[i].kind, outDone, errDone)
    requires EndCount(events) == Open(outDone, errDone)
    requires |events| > 0 ==> !events[|events| - 1].item.Line?
    requires |buf| <= MaxLines
    ensures Consume(events, deadline, buf, outDone, errDone) == Drained(PushAll(buf, LinesOf(events)))
    decreases |events|
  {
    if |events| > 0 {
      var e := events[0];
      var rest := events[1..];
      TailConditions(events, deadline);
      match e.item
      case Line(text) =>
        var p := Pushed(e.at, e.kind, text);
        assert LinesOf(events) == [p] + LinesOf(rest);
        assert ([p] + LinesOf(rest))[1..] == LinesOf(rest);
        assert forall i :: 0 <= i < |rest| ==> !Ended(rest[i].kind, outDone, errDone) by {
          assert forall i :: 0 <= i < |rest| ==> rest[i] == events[i + 1];
        }
        ConsumeDrains(rest, deadline, PushBounded(buf, e.at, e.kind, text), outDone, errDone);
      case Closed =>
        var out2 := outDone || e.kind == Stdout;
        var err2 := errDone || e.kind == Stderr;
        assert forall i :: 0 <= i < |rest| ==> !Ended(rest[i].kind, out2, err2) by {
          forall i | 0 <= i < |rest|
            ensures !Ended(rest[i].kind, out2, err2)
          {
            assert rest[i] == events[i + 1];
            assert events[i + 1].kind != events[0].kind;
          }
        }
        assert LinesOf(events) == LinesOf(rest);
        ConsumeDrains(rest, deadline, buf, out2, err2);
    }
  }

  /** The conditions of `ConsumeDrains` that carry over to the tail. */
  lemma TailConditions(events: seq<Event>, deadline: int)
    requires |events| > 0
    requires Clean(events, deadline) && NothingAfterEnd(events)
    ensures Clean(events[1..], deadline) && NothingAfterEnd(events[1..])
    ensures events[0].at <= deadline && !events[0].item.Broken?
    ensures |events| > 1 ==> events[1..][|events| - 2] == events[|events| - 1]
    ensures EndCount(events) == (if events[0].item.Closed? then 1 else 0) + EndCount(events[1..])
  {
    var rest := events[1..];
    assert forall i :: 0 <= i < |rest| ==> rest[i] == events[i + 1];
  }

  lemma {:induction false} ProjectAppend(a: seq<Event>, b: seq<Event>, kind: StreamKind)
    ensures Project(a + b, kind) == Project(a, kind) + Project(b, kind)
    decreases |a|
  {
    if |a| == 0 {
      assert a + b == b;
    } else {
      assert (a + b)[1..] == a[1..] + b;
      ProjectAppend(a[1..], b, kind);
    }
  }

  /** Where an event of a pipe sits in that pipe's own sequence. */
  lemma ProjectPosition(events: seq<Event>, kind: StreamKind, i: nat)
    requires i < |events| && events[i].kind == kind
    ensures |Project(events[..i], kind)| < |Project(events, kind)|
    ensures Project(events, kind)[|Project(events[..i], kind)|] == events[i]
    ensures Project(events[..i + 1], kind) == Project(events[..i], kind) + [events[i]]
  {
    assert events == events[..i] + ([events[i]] + events[i + 1..]);
    assert events[..i + 1] == events[..i] + [events[i]];
    ProjectAppend(events[..i], [events[i]] + events[i + 1..], kind);
    ProjectAppend([events[i]], events[i + 1..], kind);
    ProjectAppend(events[..i], [events[i]], kind);
    assert Project([events[i]], kind) == [events[i]] by {
      assert [events[i]][1..] == [];
    }
  }

  /** An event followed later by one from the same pipe is a line. */
  lemma EarlierOfPipeIsLine(events: seq<Event>, out: seq<Event>, err: seq<Event>, i: nat, j: nat)
    requires Interleaves(events, out, err)
    requires i < j < |events|
    ensures events[j].kind == events[i].kind ==> events[i].item.Line?
  {
    if events[j].kind == events[i].kind {
      var kind := events[i].kind;
      var proj := Project(events, kind);
      ProjectPosition(events, kind, i);
      ProjectPosition(events, kind, j);
      var a := |Project(events[..i], kind)|;
      assert events[..j] == events[..i + 1] + events[i + 1..j];
      ProjectAppend(events[..i + 1], events[i + 1..j], kind);
      assert a < |proj| - 1;
      assert PipeOf(proj, kind);
      assert proj[a].item.Line?;
    }
  }

  /** In an interleaving of two pipes, nothing comes from a pipe after its
      end report. */
  lemma InterleavingEndsLast(events: seq<Event>, out: seq<Event>, err: seq<Event>)
    requires Interleaves(events, out, err)
    ensures NothingAfterEnd(events)
  {
    forall i, j | 0 <= i < j < |events| && !events[i].item.Line?
      ensures events[j].kind != events[i].kind
    {
      EarlierOfPipeIsLine(events, out, err, i, j);
    }
  }

  /** Each pipe's lines reach the buffer in the pipe's own order. */
  lemma {:induction false} LinesKeepPipeOrder(events: seq<Event>, kind: StreamKind)
    ensures LinesOf(Project(events, kind)) == ProjectPushed(LinesOf(events), kind)
    decreases |events|
  {
    if |events| > 0 {
      LinesKeepPipeOrder(events[1..], kind);
      var head := if events[0].kind == kind then [events[0]] else [];
      LinesOfAppend(head, Project(events[1..], kind));
      var pushed := if events[0].item.Line? then [Pushed(events[0].at, events[0].kind, events[0].item.text)] else [];
      ProjectPushedAppend(pushed, LinesOf(events[1..]), kind);
      if events[0].kind == kind {
        assert LinesOf(head) == pushed by {
          assert head[1..] == [];
        }
      } else {
        assert head == [];
      }
    }
  }

  /** The pushed lines of one pipe, in order. */
  function ProjectPushed(ps: seq<Pushed>, kind: StreamKind): seq<Pushed>
    decreases |ps|
  {
    if |ps| == 0 then [] else (if ps[0].kind == kind then [ps[0]] else []) + ProjectPushed(ps[1..], kind)
  }

  lemma {:induction false} LinesOfAppend(a: seq<Event>, b: seq<Event>)
    ensures LinesOf(a + b) == LinesOf(a) + LinesOf(b)
    decreases |a|
  {
    if |a| == 0 {
      assert a + b == b;
    } else {
      var head := if a[0].item.Line? then [Pushed(a[0].at, a[0].kind, a[0].item.text)] else [];
      assert (a + b)[0] == a[0];
      assert (a + b)[1..] == a[1..] + b;
      assert LinesOf(a + b) == head + LinesOf(a[1..] + b);
      LinesOfAppend(a[1..], b);
      assert LinesOf(a) == head + LinesOf(a[1..]);
    }
  }

  lemma {:induction false} ProjectPushedAppend(a: seq<Pushed>, b: seq<Pushed>, kind: StreamKind)
    ensures ProjectPushed(a + b, kind) == ProjectPushed(a, kind) + ProjectPushed(b, kind)
    decreases |a|
  {
    if |a| == 0 {
      assert a + b == b;
    } else {
      var head := if a[0].kind == kind then [a[0]] else [];
      assert (a + b)[0] == a[0];
      assert (a + b)[1..] == a[1..] + b;
      assert ProjectPushed(a + b, kind) == head + ProjectPushed(a[1..] + b, kind);
      ProjectPushedAppend(a[1..], b, kind);
      assert ProjectPushed(a, kind) == head + ProjectPushed(a[1..], kind);
    }
  }

  /* ---------------------------------------------------------------------- */
  /* The tool's result                                                      */
  /* ---------------------------------------------------------------------- */

  /** `ExitStatus`: the exit code, absent when a signal ended the child. */
  datatype ExitStatus = ExitStatus(code: Option<int>) {
    predicate Success() {
      code == Some(0)
    }
  }

  datatype ExecuteResults = ExecuteResults(output: string, timedOut: bool, exitCode: int)

  /** One buffered line as `{offset:>5}| {line}`, the offset in milliseconds
      since the start, negative for a line stamped before it. */
  function OffsetEntry(start: int, t: TimedLine): string {
    PadLeft(IntToString(t.at - start), 5) + "| " + t.line
  }

  function Entries(start: int, lines: seq<TimedLine>): (r: seq<string>)
    ensures |r| == |lines|
    ensures forall i :: 0 <= i < |lines| ==> r[i] == OffsetEntry(start, lines[i])
  {
    seq(|lines|, i requires 0 <= i < |lines| => OffsetEntry(start, lines[i]))
  }

  /** `lines_with_offsets`: the entries joined by newlines, none trailing. */
  function LinesWithOffsets(start: int, lines: seq<TimedLine>): (r: string)
    ensures |lines| == 0 <==> r == ""
  {
    var r := Join(Entries(start, lines), "\n");
    assert |lines| > 0 ==> |r| > 0 by {
      if |lines| > 0 {
        JoinNonEmpty(Entries(start, lines), "\n");
      }
    }
    r
  }

  lemma {:induction false} JoinNonEmpty(parts: seq<string>, sep: string)
    requires |parts| > 0 && |parts[0]| > 0
    ensures |Join(parts, sep)| > 0
  {
  }

  /** The rendered output splits back into one entry per buffered line, in
      order, as long as no line holds a newline (which `next_line` strips). */
  lemma LinesWithOffsetsSplits(start: int, lines: seq<TimedLine>)
    requires |lines| > 0
    requires forall i :: 0 <= i < |lines| ==> '\n' !in lines[i].line
    ensures Split(LinesWithOffsets(start, lines), '\n') == Entries(start, lines)
  {
    var es := Entries(start, lines);
    forall k | 0 <= k < |es|
      ensures '\n' !in es[k]
    {
      EntryHasNoNewline(start, lines[k]);
    }
    SplitJoin(es, '\n');
  }

  lemma EntryHasNoNewline(start: int, t: TimedLine)
    requires '\n' !in t.line
    ensures '\n' !in OffsetEntry(start, t)
  {
    var num := IntToString(t.at - start);
    var pad := PadLeft(num, 5);
    assert AllDigits(NatToString(if t.at - start < 0 then start - t.at else t.at - start));
    assert '\n' !in num;
    assert '\n' !in pad by {
      forall i | 0 <= i < |pad|
        ensures pad[i] != '\n'
      {
        if i >= |pad| - |num| {
          assert pad[i] == pad[|pad| - |num|..][i - (|pad| - |num|)];
        }
      }
    }
  }

  /** `Executor::execute` once the loop has run: a timeout reports 137, a
      finished run 0 on success and -1 otherwise, and a read or wait error is
      returned as its message. */
  function Execute(start: int, drain: Drain, wait: Result<ExitStatus, string>): (r: Result<ExecuteResults, string>)
    ensures r.Success? <==> drain.TimedOut? || (drain.Drained? && wait.Success?)
    ensures drain.ReadFailed? ==> r == Failure(drain.message)
    ensures drain.Drained? && wait.Failure? ==> r == Failure(wait.error)
    ensures drain.TimedOut? ==> r.Success? && r.value.timedOut && r.value.exitCode == KilledExitCode
    ensures drain.Drained? && wait.Success? ==> r.Success? && !r.value.timedOut
    ensures r.Success? ==> r.value.exitCode in {0, -1, KilledExitCode}
    ensures r.Success? ==> (r.value.exitCode == KilledExitCode <==> r.value.timedOut)
    ensures r.Success? ==> (r.value.timedOut <==> drain.TimedOut?)
    ensures r.Success? && drain.Drained? ==> (r.value.exitCode == 0 <==> wait.value.Success())
    ensures r.Success? ==> r.value.output == LinesWithOffsets(start, drain.buf)
  {
    match drain
    case ReadFailed(message) => Failure(message)
    case TimedOut(buf) => Success(ExecuteResults(LinesWithOffsets(start, buf), true, KilledExitCode))
    case Drained(buf) =>
      match wait
      case Failure(message) => Failure(message)
      case Success(status) =>
        var code := if status.Success() then status.code.GetOr(-1) else -1;
        Success(ExecuteResults(LinesWithOffsets(start, buf), false, code))
  }

  /** The whole run from its event trace. Offsets count from `start`, taken
      before the child is spawned; the two minutes count from `timerStart`,
      when the timeout is set up after the spawn. The loop starts with an
      empty buffer. */
  function Run(start: int, timerStart: int, events: seq<Event>, wait: Result<ExitStatus, string>): Result<ExecuteResults, string> {
    Execute(start, Consume(events, timerStart + TimeoutMs, [], false, false), wait)
  }

  /**
   * When the events before `rest` are timely and error-free and leave a pipe
   * open, and `rest` is empty or starts after the deadline, the loop times
   * out holding the last 128 lines of those events.
   */
  lemma {:induction false} ConsumeTimesOut(pre: seq<Event>, rest: seq<Event>, deadline: int, buf: seq<TimedLine>, outDone: bool, errDone: bool)
    requires Clean(pre, deadline) && NothingAfterEnd(pre)
    requires forall i :: 0 <= i < |pre| ==> !Ended(pre[i].kind, outDone, errDone)
    requires EndCount(pre) < Open(outDone, errDone)
    requires |rest| == 0 || rest[0].at > deadline
    requires |buf| <= MaxLines
    ensures Consume(pre + rest, deadline, buf, outDone, errDone) == TimedOut(PushAll(buf, LinesOf(pre)))
    decreases |pre|
  {
    var events := pre + rest;
    if |pre| == 0 {
      assert events == rest;
    } else {
      var e := pre[0];
      assert events[0] == e;
      assert events[1..] == pre[1..] + rest;
      OpenPipeTail(pre, deadline, outDone, errDone);
      ConsumeStep(events, deadline, buf, outDone, errDone);
      PushAllStep(buf, pre);
      ConsumeTimesOut(pre[1..], rest, deadline, NextBuf(buf, e), outDone || Ends(e, Stdout), errDone || Ends(e, Stderr));
    }
  }

  /** `e` is the end report of pipe `kind`. */
  predicate Ends(e: Event, kind: StreamKind) {
    e.item.Closed? && e.kind == kind
  }

  /** The buffer after the loop takes `e` from a pipe that is still open. */
  function NextBuf(buf: seq<TimedLine>, e: Event): seq<TimedLine> {
    if e.item.Line? then PushBounded(buf, e.at, e.kind, e.item.text) else buf
  }

  /** One round of the loop on a timely line or end report from a pipe that
      is still open. */
  lemma ConsumeStep(events: seq<Event>, deadline: int, buf: seq<TimedLine>, outDone: bool, errDone: bool)
    requires |events| > 0 && !(outDone && errDone) && events[0].at <= deadline
    requires !Ended(events[0].kind, outDone, errDone) && !events[0].item.Broken?
    ensures Consume(events, deadline, buf, outDone, errDone) ==
      Consume(events[1..], deadline, NextBuf(buf, events[0]), outDone || Ends(events[0], Stdout), errDone || Ends(events[0], Stderr))
  {
  }

  lemma PushAllStep(buf: seq<TimedLine>, events: seq<Event>)
    requires |events| > 0
    ensures PushAll(buf, LinesOf(events)) == PushAll(NextBuf(buf, events[0]), LinesOf(events[1..]))
  {
    var e := events[0];
    if e.item.Line? {
      var p := Pushed(e.at, e.kind, e.item.text);
      assert LinesOf(events) == [p] + LinesOf(events[1..]);
      assert ([p] + LinesOf(events[1..]))[1..] == LinesOf(events[1..]);
    } else {
      assert LinesOf(events) == LinesOf(events[1..]);
    }
  }

  /** The conditions of `ConsumeTimesOut` carry over to the tail, with the
      flags updated by the first event. */
  lemma OpenPipeTail(pre: seq<Event>, deadline: int, outDone: bool, errDone: bool)
    requires |pre| > 0
    requires Clean(pre, deadline) && NothingAfterEnd(pre)
    requires forall i :: 0 <= i < |pre| ==> !Ended(pre[i].kind, outDone, errDone)
    requires EndCount(pre) < Open(outDone, errDone)
    ensures !(outDone && errDone) && pre[0].at <= deadline && !pre[0].item.Broken?
    ensures !Ended(pre[0].kind, outDone, errDone)
    ensures var out2, err2 := outDone || Ends(pre[0], Stdout), errDone || Ends(pre[0], Stderr);
      Clean(pre[1..], deadline) && NothingAfterEnd(pre[1..]) &&
      (forall i :: 0 <= i < |pre[1..]| ==> !Ended(pre[1..][i].kind, out2, err2)) &&
      EndCount(pre[1..]) < Open(out2, err2)
  {
    var later := pre[1..];
    var out2, err2 := outDone || Ends(pre[0], Stdout), errDone || Ends(pre[0], Stderr);
    TailConditions(pre, deadline);
    forall i | 0 <= i < |later|
      ensures !Ended(later[i].kind, out2, err2)
    {
      assert later[i] == pre[i + 1];
      if pre[0].item.Closed? {
        assert pre[i + 1].kind != pre[0].kind;
      }
    }
  }

  /** A run whose pipes do not both close before the two minutes are up
      succeeds as a timeout with exit code 137, whatever waiting would have
      given, and reports the last 128 lines read in time. */
  lemma RunTimesOut(start: int, timerStart: int, pre: seq<Event>, rest: seq<Event>, out: seq<Event>, err: seq<Event>,
                     wait: Result<ExitStatus, string>)
    requires Interleaves(pre, out, err) && Clean(pre, timerStart + TimeoutMs)
    requires EndCount(pre) < 2
    requires |rest| == 0 || rest[0].at > timerStart + TimeoutMs
    ensures Run(start, timerStart, pre + rest, wait) ==
      Success(ExecuteResults(LinesWithOffsets(start, PushAll([], LinesOf(pre))), true, KilledExitCode))
  {
    InterleavingEndsLast(pre, out, err);
    ConsumeTimesOut(pre, rest, timerStart + TimeoutMs, [], false, false);
  }

  /** A run whose pipes both close in time, with no read error, reports every
      line read (up to the last 128) and is not a timeout. */
  lemma RunCompletes(start: int, timerStart: int, events: seq<Event>, out: seq<Event>, err: seq<Event>, status: ExitStatus)
    requires Interleaves(events, out, err) && Clean(events, timerStart + TimeoutMs)
    requires EndCount(events) == 2
    requires |events| > 0 && !events[|events| - 1].item.Line?
    ensures Run(start, timerStart, events, Success(status)).Success?
    ensures !Run(start, timerStart, events, Success(status)).value.timedOut
    ensures Run(start, timerStart, events, Success(status)).value.output ==
      LinesWithOffsets(start, PushAll([], LinesOf(events)))
  {
    InterleavingEndsLast(events, out, err);
    ConsumeDrains(events, timerStart + TimeoutMs, [], false, false);
  }
}

=== FILE: file_tools.dfy ===
/**
 * The `read_file` line window of the two file libraries: FileLibrary in
 * src/tools/files/mod.rs and the older one in src/files/mod.rs. Both take
 * the file's text (or the read error) as input and produce the reply text.
 * They differ in how the window's end is computed, and both compute it with
 * `usize` arithmetic that panics on overflow (debug builds). `ReadWindow` is
 * the window both evidently mean; the two `ReadFile` functions are stated
 * against it.
 */
module FileTools {
  import opened Wrappers
  import opened Strings

  /** No line at or beyond this index is ever shown. */
  const MaxShownLine: nat := 1000

  const StartError: string := "line_start must be >= 1"

  /** The reply of a read: text, a reported error, or a panic. */
  datatype Outcome = Ok(text: string) | Err(message: string) | Panic(reason: string)

  /** A shown line, with its 1-based number in front when asked for. */
  function Label(number: nat, line: string, numbered: bool): string {
    if numbered then NatToString(number) + ": " + line else line
  }

  function Labelled(lines: seq<string>, first: nat, numbered: bool): (r: seq<string>)
    ensures |r| == |lines|
  {
    seq(|lines|, k requires 0 <= k < |lines| => Label(first + k, lines[k], numbered))
  }

  /**
   * The lines a window from index `from` of at most `count` lines shows:
   * the longest run of consecutive lines from there that has at most
   * `count` lines and stays within the file and the first 1000 lines.
   */
  function Shown(lines: seq<string>, from: nat, count: nat): (r: seq<string>)
    ensures |r| <= count
    ensures forall k :: 0 <= k < |r| ==> from + k < |lines| && from + k < MaxShownLine && r[k] == lines[from + k]
    ensures |r| == count || from + |r| >= |lines| || from + |r| >= MaxShownLine
  {
    var end := Min(Min(from + count, |lines|), MaxShownLine);
    if from >= end then [] else lines[from..end]
  }

  /** The reply text for the lines `Shown` picks: each line, labelled,
      followed by a line feed. */
  function WindowText(content: string, numbered: bool, start: nat, count: nat): string
    requires start >= 1
  {
    Unlines(Labelled(Shown(Lines(content), start - 1, count), start, numbered))
  }

  /** The window as intended: lines `offset` to `offset + limit - 1`
      (1-based), all the rest when there is no limit, nothing past the end
      of the file or line 1000, and never a panic. */
  function ReadWindow(read: Result<string, string>, showLineNumbers: Option<bool>,
                      offset: Option<usize>, limit: Option<usize>): (r: Outcome)
    ensures !r.Panic?
    ensures r.Err? <==> read.Failure? || offset == Some(0)
    ensures read.Failure? ==> r == Err(read.error)
    ensures read.Success? && offset == Some(0) ==> r == Err(StartError)
  {
    match read
    case Failure(e) => Err(e)
    case Success(content) =>
      var start := offset.GetOr(1);
      if start == 0 then Err(StartError)
      else Ok(WindowText(content, showLineNumbers.GetOr(false), start, limit.GetOr(USIZE_MAX)))
  }

  /** `usize` addition of a debug build: `None` is the overflow panic. */
  function CheckedAdd(a: usize, b: usize): (r: Option<usize>)
    ensures r.Some? <==> a + b <= USIZE_MAX
    ensures r.Some? ==> r.value == a + b
  {
    if a + b <= USIZE_MAX then Some(a + b) else None
  }

  /** The loop both versions share, once the window's end has been summed:
      `lines[startIdx..endIdx]` panics when the start is past the end. */
  function Render(lines: seq<string>, startIdx: nat, sum: Option<usize>, numbered: bool): Outcome {
    match sum
    case None => Panic("attempt to add with overflow")
    case Some(total) =>
      var endIdx := Min(Min(total, |lines|), MaxShownLine);
      if startIdx > endIdx then
        Panic("slice index starts at " + NatToString(startIdx) + " but ends at " + NatToString(endIdx))
      else Ok(Unlines(Labelled(lines[startIdx..endIdx], startIdx + 1, numbered)))
  }

  /** The start is past what the window may show: the slice panics. */
  predicate PastEnd(content: string, start: nat) {
    start - 1 > Min(|Lines(content)|, MaxShownLine)
  }

  /**
   * `read_file` of src/tools/files/mod.rs. The end is `offset + limit`, so
   * a window shows one line more than `limit` asks for; with no limit the
   * sum `offset + usize::MAX` always overflows.
   */
  function ReadFileTools(read: Result<string, string>, showLineNumbers: Option<bool>,
                         offset: Option<usize>, limit: Option<usize>): (r: Outcome)
    ensures read.Failure? || offset == Some(0) ==> r == ReadWindow(read, showLineNumbers, offset, limit)
    ensures r.Panic? <==> (read.Success? && offset != Some(0) &&
      (limit.None? || offset.GetOr(1) + limit.value > USIZE_MAX || PastEnd(read.value, offset.GetOr(1))))
    ensures r.Ok? ==> (limit.Some? &&
      r.text == WindowText(read.value, showLineNumbers.GetOr(false), offset.GetOr(1), limit.value + 1))
  {
    match read
    case Failure(e) => Err(e)
    case Success(content) =>
      var start := offset.GetOr(1);
      if start == 0 then Err(StartError)
      else
        var lines := Lines(content);
        Render(lines, start - 1, CheckedAdd(start, limit.GetOr(USIZE_MAX)), showLineNumbers.GetOr(false))
  }

  /**
   * `read_file` of src/files/mod.rs. The end is `start_idx + count`, which
   * is the intended window; with no count the sum overflows from the second
   * line on.
   */
  function ReadFileLegacy(read: Result<string, string>, showLineNumbers: Option<bool>,
                          lineStart: Option<usize>, lineCount: Option<usize>): (r: Outcome)
    ensures !r.Panic? ==> r == ReadWindow(read, showLineNumbers, lineStart, lineCount)
    ensures r.Panic? <==> (read.Success? && lineStart != Some(0) &&
      (lineStart.GetOr(1) - 1 + lineCount.GetOr(USIZE_MAX) > USIZE_MAX || PastEnd(read.value, lineStart.GetOr(1))))
  {
    match read
    case Failure(e) => Err(e)
    case Success(content) =>
      var start := lineStart.GetOr(1);
      if start == 0 then Err(StartError)
      else
        var lines := Lines(content);
        LegacyRender(content, start, lineCount.GetOr(USIZE_MAX), showLineNumbers.GetOr(false));
        Render(lines, start - 1, CheckedAdd(start - 1, lineCount.GetOr(USIZE_MAX)), showLineNumbers.GetOr(false))
  }

  /** Once `start_idx + count` is summed without overflow, the legacy loop
      panics exactly past the end and otherwise shows the intended window. */
  lemma LegacyRender(content: string, start: nat, count: nat, numbered: bool)
    requires start >= 1
    ensures start - 1 + count <= USIZE_MAX ==>
      var r := Render(Lines(content), start - 1, Some(start - 1 + count), numbered);
      (r.Panic? <==> PastEnd(content, start)) &&
      (!r.Panic? ==> r == Ok(WindowText(content, numbered, start, count)))
  {
    var lines := Lines(content);
    var from := start - 1;
    var end := Min(Min(from + count, |lines|), MaxShownLine);
    if from < end {
      assert Shown(lines, from, count) == lines[from..end];
    } else if from == end {
      assert Shown(lines, from, count) == [] == lines[from..end];
    }
  }

  /* ---------------------------------------------------------------------- */
  /* What the reply text holds                                              */
  /* ---------------------------------------------------------------------- */

  lemma {:induction false} JoinUnlines(lines: seq<string>)
    ensures Join(lines + [""], "\n") == Unlines(lines)
    decreases |lines|
  {
    if |lines| > 0 {
      assert (lines + [""])[1..] == lines[1..] + [""];
      JoinUnlines(lines[1..]);
    }
  }

  /** Cutting text made of line-feed-free lines at its line feeds gives the
      lines back, and one empty piece after the last line feed. */
  lemma UnlinesSplit(lines: seq<string>)
    requires forall k :: 0 <= k < |lines| ==> '\n' !in lines[k]
    ensures Split(Unlines(lines), '\n') == lines + [""]
  {
    JoinUnlines(lines);
    SplitJoin(lines + [""], '\n');
  }

  lemma LabelHasNoNewline(number: nat, line: string, numbered: bool)
    requires '\n' !in line
    ensures '\n' !in Label(number, line, numbered)
  {

  }

  /**
   * The reply of an intended window, cut at its line feeds, is one entry per
   * shown line — `N: line` with the line's 1-based number when numbered,
   * the line itself otherwise — then one empty piece.
   */
  lemma ReadWindowRows(content: string, showLineNumbers: Option<bool>, offset: Option<usize>, limit: Option<usize>)
    requires offset != Some(0)
    ensures var r := ReadWindow(Success(content), showLineNumbers, offset, limit);
      var start := offset.GetOr(1);
      r.Ok? && Split(r.text, '\n') ==
        Labelled(Shown(Lines(content), start - 1, limit.GetOr(USIZE_MAX)), start, showLineNumbers.GetOr(false)) + [""]
  {
    var start := offset.GetOr(1);
    var shown := Shown(Lines(content), start - 1, limit.GetOr(USIZE_MAX));
    assert forall k :: 0 <= k < |shown| ==> '\n' !in shown[k];
    LabelledSplit(shown, start, showLineNumbers.GetOr(false));
  }

  /** Labelled line-feed-free lines, written one per line, cut back apart. */
  lemma LabelledSplit(lines: seq<string>, first: nat, numbered: bool)
    requires forall k :: 0 <= k < |lines| ==> '\n' !in lines[k]
    ensures Split(Unlines(Labelled(lines, first, numbered)), '\n') == Labelled(lines, first, numbered) + [""]
  {
    var labelled := Labelled(lines, first, numbered);
    forall k | 0 <= k < |labelled|
      ensures '\n' !in labelled[k]
    {
      LabelHasNoNewline(first + k, lines[k], numbered);
    }
    UnlinesSplit(labelled);
  }

  /** With no limit the intended window shows every line from `offset` up to
      the end of the file or line 1000, whichever comes first. */
  lemma ReadWindowToEnd(content: string, offset: Option<usize>)
    requires offset != Some(0)
    ensures var start := offset.GetOr(1);
      start - 1 + |Shown(Lines(content), start - 1, USIZE_MAX)| == Max(start - 1, Min(|Lines(content)|, MaxShownLine))
  {
  }

  /* ---------------------------------------------------------------------- */
  /* The source as written, against the intended window                     */
  /* ---------------------------------------------------------------------- */

  /** src/tools/files/mod.rs shows `limit + 1` lines whenever the file has
      that many from `offset` on: `offset = 1`, `limit = 2` on a three-line
      file shows all three. */
  lemma ToolsShowsOneExtra(content: string, showLineNumbers: Option<bool>, offset: usize, limit: usize)
    requires offset >= 1 && offset + limit <= Min(|Lines(content)|, MaxShownLine)
    ensures var r := ReadFileTools(Success(content), showLineNumbers, Some(offset), Some(limit));
      r.Ok? && |Split(r.text, '\n')| - 1 == limit + 1
  {
    ReadWindowRows(content, showLineNumbers, Some(offset), Some(limit + 1));
    assert ReadFileTools(Success(content), showLineNumbers, Some(offset), Some(limit)).text
      == ReadWindow(Success(content), showLineNumbers, Some(offset), Some(limit + 1)).text;
  }

  /** src/tools/files/mod.rs panics whenever the limit is left out, while the
      intended window shows the rest of the file. */
  lemma ToolsPanicsWithoutLimit(content: string, showLineNumbers: Option<bool>, offset: Option<usize>)
    requires offset != Some(0)
    ensures ReadFileTools(Success(content), showLineNumbers, offset, None).Panic?
    ensures ReadWindow(Success(content), showLineNumbers, offset, None).Ok?
  {
  }

  /** src/files/mod.rs panics when the count is left out and the window does
      not start at line 1. */
  lemma LegacyPanicsWithoutCount(content: string, showLineNumbers: Option<bool>, lineStart: usize)
    requires lineStart >= 2
    ensures ReadFileLegacy(Success(content), showLineNumbers, Some(lineStart), None).Panic?
    ensures ReadWindow(Success(content), showLineNumbers, Some(lineStart), None).Ok?
  {
  }

  /** Both versions panic on a start two or more lines past the end of a
      short file, where the intended window is empty. */
  lemma PastEndPanics(content: string, showLineNumbers: Option<bool>, start: usize, count: usize)
    requires |Lines(content)| < MaxShownLine && start >= |Lines(content)| + 2
    requires start + count <= USIZE_MAX
    ensures ReadFileTools(Success(content), showLineNumbers, Some(start), Some(count)).Panic?
    ensures ReadFileLegacy(Success(content), showLineNumbers, Some(start), Some(count)).Panic?
    ensures ReadWindow(Success(content), showLineNumbers, Some(start), Some(count)) == Ok("")
  {
  }
}

=== FILE: json_edit.dfy ===
/**
 * The `json-set` tool of src/jsonedit.rs: set the value at a dotted path in
 * a JSON tree, where a path segment may carry `[i]` array indices. The tree
 * is a decoded value; reading it, parsing the new value and printing the
 * result are not modelled.
 */
module JsonEdit {
  import opened Wrappers
  import opened Strings

  /** A decoded JSON value. Numbers are integers here. */
  datatype Json = Null | Bool(b: bool) | Num(n: int) | Str(s: string) | Arr(items: seq<Json>) | Obj(fields: map<string, Json>)

  /** Why a set fails. */
  datatype SetError =
    | KeyNotFound(key: string)
    | OutOfBounds(index: nat)
    | ExpectedArray(part: string)
    | ExpectedObject(part: string)
    | BadIndex(kind: IntErrorKind)

  function Message(e: SetError): string {
    match e
    case KeyNotFound(key) => "Key '" + key + "' not found in JSON"
    case OutOfBounds(index) => "Index " + NatToString(index) + " out of bounds"
    case ExpectedArray(part) => "Expected array at path '" + part + "'"
    case ExpectedObject(part) => "Expected object at path '" + part + "'"
    case BadIndex(kind) => IntErrorMessage(kind)
  }

  /* ---------------------------------------------------------------------- */
  /* parse_array_path                                                       */
  /* ---------------------------------------------------------------------- */

  /** The index text of one piece after a `[`: everything up to its first
      `]`, or all of it when there is none. */
  function IndexText(piece: string): string {
    Split(piece, ']')[0]
  }

  /** The indices of the pieces, in order; the first that is not a `usize`
      stops everything. */
  function ParseIndices(pieces: seq<string>): (r: Result<seq<nat>, IntErrorKind>)
    ensures r.Success? ==> |r.value| == |pieces|
    ensures r.Success? ==> forall k :: 0 <= k < |pieces| ==> ParseUsize(IndexText(pieces[k])) == Success(r.value[k])
    decreases |pieces|
  {
    if |pieces| == 0 then Success([])
    else
      match ParseUsize(IndexText(pieces[0]))
      case Failure(e) => Failure(e)
      case Success(i) =>
        match ParseIndices(pieces[1..])
        case Failure(e) => Failure(e)
        case Success(rest) => Success([i] + rest)
  }

  /** `parse_array_path`: the key before the first `[`, and the index after
      each `[`. */
  function ParseArrayPath(part: string): (r: Result<(string, seq<nat>), IntErrorKind>)
    ensures Find(part, "[").None? ==> r == Success((part, []))
  {
    match Find(part, "[")
    case None => Success((part, []))
    case Some(open) =>
      match ParseIndices(Split(part[open..], '[')[1..])
      case Failure(e) => Failure(e)
      case Success(indices) => Success((part[..open], indices))
  }

  /** A key and its indices written as `key[i][j]`. */
  function Indexed(key: string, indices: seq<nat>): string {
    key + Brackets(indices)
  }

  function Brackets(indices: seq<nat>): string
    decreases |indices|
  {
    if |indices| == 0 then "" else "[" + NatToString(indices[0]) + "]" + Brackets(indices[1..])
  }

  function Pieces(indices: seq<nat>): (r: seq<string>)
    ensures |r| == |indices|
  {
    seq(|indices|, k requires 0 <= k < |indices| => NatToString(indices[k]) + "]")
  }

  lemma DigitsHaveNoBracket(n: nat)
    ensures '[' !in NatToString(n) && ']' !in NatToString(n)
  {
  }

  lemma {:induction false} BracketsJoin(indices: seq<nat>)
    requires |indices| > 0
    ensures Brackets(indices) == "[" + Join(Pieces(indices), "[")
    decreases |indices|
  {
    var p := NatToString(indices[0]) + "]";
    if |indices| > 1 {
      BracketsJoin(indices[1..]);
      assert Pieces(indices)[1..] == Pieces(indices[1..]);
    }
  }

  /** A piece `d]` reads as `d`, and so does `d` with the `]` missing or
      with anything after the `]`. */
  lemma IndexTextStopsAtBracket(d: string, junk: string)
    requires ']' !in d
    ensures IndexText(d + "]" + junk) == d
    ensures IndexText(d) == d
  {
    CharOccurs(d, ']');
    FindCharAt(d + "]" + junk, ']', |d|) by {
      assert (d + "]" + junk)[..|d|] == d;
    }
    assert (d + "]" + junk)[..|d|] == d;
    FindWithoutFirstChar(d, "]");
  }

  lemma {:induction false} ParsePieces(indices: seq<nat>)
    requires forall k :: 0 <= k < |indices| ==> indices[k] <= USIZE_MAX
    ensures ParseIndices(Pieces(indices)) == Success(indices)
    decreases |indices|
  {
    if |indices| > 0 {
      var d := NatToString(indices[0]);
      DigitsHaveNoBracket(indices[0]);
      IndexTextStopsAtBracket(d, "");
      assert d + "]" + "" == d + "]";
      ParseUsizeRoundTrip(indices[0]);
      assert Pieces(indices)[1..] == Pieces(indices[1..]);
      ParsePieces(indices[1..]);
      assert [indices[0]] + indices[1..] == indices;
    }
  }

  /** Writing a key free of `[` and its `usize` indices as `key[i][j]` and
      parsing it back gives them back. */
  lemma ParseArrayPathRoundTrip(key: string, indices: seq<nat>)
    requires '[' !in key
    requires forall k :: 0 <= k < |indices| ==> indices[k] <= USIZE_MAX
    ensures ParseArrayPath(Indexed(key, indices)) == Success((key, indices))
  {
    var part := Indexed(key, indices);
    if |indices| == 0 {
      assert part == key;
      FindWithoutFirstChar(key, "[");
    } else {
      var b := Brackets(indices);
      BracketsJoin(indices);
      FindAfterFreePrefix(key, b, "[");
      assert part[..|key|] == key && part[|key|..] == b;
      var pieces := Pieces(indices);
      forall k | 0 <= k < |[""] + pieces|
        ensures '[' !in ([""] + pieces)[k]
      {
        if k > 0 {
          DigitsHaveNoBracket(indices[k - 1]);
        }
      }
      assert Join([""] + pieces, "[") == b;
      SplitJoin([""] + pieces, '[');
      assert Split(b, '[')[1..] == pieces;
      ParsePieces(indices);
    }
  }

  /* ---------------------------------------------------------------------- */
  /* Traversal and set                                                      */
  /* ---------------------------------------------------------------------- */

  /**
   * Set `value` at the path whose segments are `parts`, starting at `node`;
   * the result is the updated `node`. Each segment but the last navigates:
   * a plain key needs an object holding it; a segment with indices looks its
   * key up only when the node is an object, then follows each index into an
   * array. The last segment writes.
   */
  function SetAt(node: Json, parts: seq<string>, value: Json): Result<Json, SetError>
    requires |parts| >= 1
    decreases |parts|, 0
  {
    var part := parts[0];
    if |parts| == 1 then SetLast(node, part, value)
    else if Contains(part, "[") then
      match ParseArrayPath(part)
      case Failure(e) => Failure(BadIndex(e))
      case Success((key, indices)) =>
        if node.Obj? then
          if key !in node.fields then Failure(KeyNotFound(key))
          else
            match Descend(node.fields[key], indices, part, parts[1..], value)
            case Failure(e) => Failure(e)
            case Success(child) => Success(Obj(node.fields[key := child]))
        else Descend(node, indices, part, parts[1..], value)
    else if node.Obj? then
      if part !in node.fields then Failure(KeyNotFound(part))
      else
        match SetAt(node.fields[part], parts[1..], value)
        case Failure(e) => Failure(e)
        case Success(child) => Success(Obj(node.fields[part := child]))
    else Failure(ExpectedObject(part))
  }

  /** Follow `indices` into arrays, then go on with the remaining segments. */
  function Descend(node: Json, indices: seq<nat>, part: string, parts: seq<string>, value: Json): Result<Json, SetError>
    requires |parts| >= 1
    decreases |parts|, 1 + |indices|
  {
    if |indices| == 0 then SetAt(node, parts, value)
    else if node.Arr? then
      if indices[0] >= |node.items| then Failure(OutOfBounds(indices[0]))
      else
        match Descend(node.items[indices[0]], indices[1..], part, parts, value)
        case Failure(e) => Failure(e)
        case Success(child) => Success(Arr(node.items[indices[0] := child]))
    else Failure(ExpectedArray(part))
  }

  /**
   * The last segment. A plain key is inserted into (or overwritten in) the
   * object. A segment with indices writes at the last index of the array
   * stored under its key; when the node is not an object it does nothing.
   */
  function SetLast(node: Json, part: string, value: Json): Result<Json, SetError> {
    if Contains(part, "[") then
      match ParseArrayPath(part)
      case Failure(e) => Failure(BadIndex(e))
      case Success((key, indices)) =>
        if node.Obj? then
          if key !in node.fields then Failure(KeyNotFound(key))
          else
            var target := node.fields[key];
            if target.Arr? then
              if |indices| == 0 then Success(node)
              else
                var index := indices[|indices| - 1];
                if index >= |target.items| then Failure(OutOfBounds(index))
                else Success(Obj(node.fields[key := Arr(target.items[index := value])]))
            else Failure(ExpectedArray(part))
        else Success(node)
    else if node.Obj? then Success(Obj(node.fields[part := value]))
    else Failure(ExpectedObject(part))
  }

  /** `json-set` on a decoded tree: the path is cut at every `.`. */
  function JsonSet(data: Json, path: string, value: Json): Result<Json, SetError> {
    SetAt(data, Split(path, '.'), value)
  }

  /* ---------------------------------------------------------------------- */
  /* Properties                                                             */
  /* ---------------------------------------------------------------------- */

  /** A successful set keeps the kind of the node it starts from. */
  lemma {:induction false} SetKeepsKind(node: Json, parts: seq<string>, value: Json)
    requires |parts| >= 1 && SetAt(node, parts, value).Success?
    ensures SetAt(node, parts, value).value.Obj? == node.Obj?
    decreases |parts|, 0
  {
    var part := parts[0];
    if |parts| > 1 && Contains(part, "[") && !node.Obj? {
      var indices := ParseArrayPath(part).value.1;
      DescendKeepsKind(node, indices, part, parts[1..], value);
    }
  }

  lemma {:induction false} DescendKeepsKind(node: Json, indices: seq<nat>, part: string, parts: seq<string>, value: Json)
    requires |parts| >= 1 && Descend(node, indices, part, parts, value).Success?
    ensures Descend(node, indices, part, parts, value).value.Obj? == node.Obj?
    decreases |parts|, 1 + |indices|
  {
    if |indices| == 0 {
      SetKeepsKind(node, parts, value);
    }
  }

  /** Setting the same value at the same path twice is the same as once. */
  lemma {:induction false} SetIdempotent(node: Json, parts: seq<string>, value: Json)
    requires |parts| >= 1 && SetAt(node, parts, value).Success?
    ensures SetAt(SetAt(node, parts, value).value, parts, value) == SetAt(node, parts, value)
    decreases |parts|, 0
  {
    var part := parts[0];
    var r := SetAt(node, parts, value).value;
    if |parts| == 1 {
      SetLastIdempotent(node, part, value);
    } else if Contains(part, "[") {
      var (key, indices) := ParseArrayPath(part).value;
      if node.Obj? {
        var child := Descend(node.fields[key], indices, part, parts[1..], value).value;
        DescendIdempotent(node.fields[key], indices, part, parts[1..], value);
        assert r == Obj(node.fields[key := child]);
        assert r.fields[key] == child;
        assert node.fields[key := child][key := child] == node.fields[key := child];
      } else {
        DescendKeepsKind(node, indices, part, parts[1..], value);
        DescendIdempotent(node, indices, part, parts[1..], value);
      }
    } else {
      var child := SetAt(node.fields[part], parts[1..], value).value;
      SetIdempotent(node.fields[part], parts[1..], value);
      assert r.fields[part] == child;
      assert node.fields[part := child][part := child] == node.fields[part := child];
    }
  }

  lemma {:induction false} DescendIdempotent(node: Json, indices: seq<nat>, part: string, parts: seq<string>, value: Json)
    requires |parts| >= 1 && Descend(node, indices, part, parts, value).Success?
    ensures Descend(Descend(node, indices, part, parts, value).value, indices, part, parts, value)
      == Descend(node, indices, part, parts, value)
    decreases |parts|, 1 + |indices|
  {
    if |indices| == 0 {
      SetIdempotent(node, parts, value);
    } else {
      var i := indices[0];
      var child := Descend(node.items[i], indices[1..], part, parts, value).value;
      DescendIdempotent(node.items[i], indices[1..], part, parts, value);
      var r := Arr(node.items[i := child]);
      assert r.items[i] == child;
      assert node.items[i := child][i := child] == node.items[i := child];
    }
  }

  lemma SetLastIdempotent(node: Json, part: string, value: Json)
    requires SetLast(node, part, value).Success?
    ensures SetLast(SetLast(node, part, value).value, part, value) == SetLast(node, part, value)
  {
    if Contains(part, "[") && node.Obj? {
      var (key, indices) := ParseArrayPath(part).value;
      var target := node.fields[key];
      if |indices| > 0 {
        var index := indices[|indices| - 1];
        var items := target.items[index := value];
        assert items[index := value] == items;
        assert node.fields[key := Arr(items)][key := Arr(items)] == node.fields[key := Arr(items)];
      }
    } else if !Contains(part, "[") {
      assert node.fields[part := value][part := value] == node.fields[part := value];
    }
  }

  /** A final plain key on an object is inserted or overwritten, and every
      other key keeps its value. */
  lemma SetLastKey(fields: map<string, Json>, part: string, value: Json)
    requires '[' !in part
    ensures var r := SetLast(Obj(fields), part, value);
      r.Success? && r.value.Obj? && r.value.fields.Keys == fields.Keys + {part} &&
      r.value.fields[part] == value &&
      forall k :: k in fields && k != part ==> r.value.fields[k] == fields[k]
  {
    CharOccurs(part, '[');
  }

  /** A final `key[..][i]` segment on an object replaces item `i` of the
      array under `key`: the array keeps its length and its other items, and
      the object its other keys. */
  lemma SetLastItem(fields: map<string, Json>, part: string, value: Json)
    requires Contains(part, "[") && ParseArrayPath(part).Success?
    requires SetLast(Obj(fields), part, value).Success?
    ensures var (key, indices) := ParseArrayPath(part).value;
      var r := SetLast(Obj(fields), part, value).value;
      key in fields && fields[key].Arr? && r.Obj? && r.fields.Keys == fields.Keys &&
      (forall k :: k in fields && k != key ==> r.fields[k] == fields[k]) &&
      r.fields[key].Arr? && |r.fields[key].items| == |fields[key].items| &&
      (|indices| > 0 ==>
        var i := indices[|indices| - 1];
        i < |fields[key].items| && r.fields[key].items[i] == value &&
        forall j :: 0 <= j < |fields[key].items| && j != i ==> r.fields[key].items[j] == fields[key].items[j])
  {
  }

  /** A path of plain keys, read back. */
  function GetKeys(node: Json, parts: seq<string>): Option<Json>
    decreases |parts|
  {
    if |parts| == 0 then Some(node)
    else if node.Obj? && parts[0] in node.fields then GetKeys(node.fields[parts[0]], parts[1..])
    else None
  }

  /** After a successful set along plain keys, reading the path back gives
      the value that was set. */
  lemma {:induction false} SetThenGet(node: Json, parts: seq<string>, value: Json)
    requires |parts| >= 1 && forall k :: 0 <= k < |parts| ==> '[' !in parts[k]
    requires SetAt(node, parts, value).Success?
    ensures GetKeys(SetAt(node, parts, value).value, parts) == Some(value)
    decreases |parts|
  {
    CharOccurs(parts[0], '[');
    var r := SetAt(node, parts, value).value;
    if |parts| > 1 {
      var child := SetAt(node.fields[parts[0]], parts[1..], value).value;
      SetThenGet(node.fields[parts[0]], parts[1..], value);
      assert r.fields[parts[0]] == child;
    }
  }

  /** A set along plain keys leaves every key of the starting object other
      than the first segment as it was. */
  lemma SetKeepsOtherKeys(fields: map<string, Json>, parts: seq<string>, value: Json)
    requires |parts| >= 1 && '[' !in parts[0]
    requires SetAt(Obj(fields), parts, value).Success?
    ensures var r := SetAt(Obj(fields), parts, value).value;
      r.Obj? && fields.Keys <= r.fields.Keys && r.fields.Keys <= fields.Keys + {parts[0]} &&
      forall k :: k in fields && k != parts[0] ==> r.fields[k] == fields[k]
  {
    CharOccurs(parts[0], '[');
  }

  /* ---------------------------------------------------------------------- */
  /* The last segment with every index followed                             */
  /* ---------------------------------------------------------------------- */

  /** The value reached by following `indices` into nested arrays. */
  function GetAt(node: Json, indices: seq<nat>): Option<Json>
    decreases |indices|
  {
    if |indices| == 0 then Some(node)
    else if node.Arr? && indices[0] < |node.items| then GetAt(node.items[indices[0]], indices[1..])
    else None
  }

  /** Follow every index but the last into nested arrays and write `value`
      at the last one. */
  function WriteAt(node: Json, indices: seq<nat>, part: string, value: Json): (r: Result<Json, SetError>)
    requires |indices| >= 1
    ensures r.Success? ==> node.Arr? && r.value.Arr? && |r.value.items| == |node.items|
    decreases |indices|
  {
    if !node.Arr? then Failure(ExpectedArray(part))
    else if indices[0] >= |node.items| then Failure(OutOfBounds(indices[0]))
    else if |indices| == 1 then Success(Arr(node.items[indices[0] := value]))
    else
      match WriteAt(node.items[indices[0]], indices[1..], part, value)
      case Failure(e) => Failure(e)
      case Success(child) => Success(Arr(node.items[indices[0] := child]))
  }

  /** The write succeeds exactly when the indexed place exists, and reading
      it back then gives the value written. */
  lemma {:induction false} WriteAtReadsBack(node: Json, indices: seq<nat>, part: string, value: Json)
    requires |indices| >= 1
    ensures WriteAt(node, indices, part, value).Success? <==> GetAt(node, indices).Some?
    ensures WriteAt(node, indices, part, value).Success? ==>
      GetAt(WriteAt(node, indices, part, value).value, indices) == Some(value)
    decreases |indices|
  {
    if node.Arr? && indices[0] < |node.items| {
      var i := indices[0];
      if |indices| == 1 {
        assert indices[1..] == [];
      } else {
        WriteAtReadsBack(node.items[i], indices[1..], part, value);
        var w := WriteAt(node.items[i], indices[1..], part, value);
        if w.Success? {
          assert WriteAt(node, indices, part, value).value.items[i] == w.value;
        }
      }
    }
  }

  /**
   * The last segment as evidently intended: `key[i][j]` writes at item `j`
   * of item `i` of the array under `key`, following every index as the
   * segments before the last do. Everything else is as in `SetLast`.
   */
  function SetLastNested(node: Json, part: string, value: Json): Result<Json, SetError> {
    if Contains(part, "[") then
      match ParseArrayPath(part)
      case Failure(e) => Failure(BadIndex(e))
      case Success((key, indices)) =>
        if node.Obj? then
          if key !in node.fields then Failure(KeyNotFound(key))
          else
            var target := node.fields[key];
            if target.Arr? then
              if |indices| == 0 then Success(node)
              else
                match WriteAt(target, indices, part, value)
                case Failure(e) => Failure(e)
                case Success(written) => Success(Obj(node.fields[key := written]))
            else Failure(ExpectedArray(part))
        else Success(node)
    else SetLast(node, part, value)
  }

  lemma IndexedContainsBracket(key: string, indices: seq<nat>)
    requires |indices| >= 1
    ensures Contains(Indexed(key, indices), "[")
  {
    var part := Indexed(key, indices);
    CharOccurs(part, '[');
    assert part[|key|] == '[';
    assert OccursAt(part, "[", |key|);
  }

  /** A final `key[i][j]..` segment on an object succeeds exactly when the
      key holds nested arrays reaching the indexed place; the value is then
      read back there and every other key keeps its value. */
  lemma SetLastNestedReadsBack(fields: map<string, Json>, key: string, indices: seq<nat>, value: Json)
    requires '[' !in key && |indices| >= 1
    requires forall k :: 0 <= k < |indices| ==> indices[k] <= USIZE_MAX
    ensures var r := SetLastNested(Obj(fields), Indexed(key, indices), value);
      (r.Success? <==> key in fields && GetAt(fields[key], indices).Some?) &&
      (r.Success? ==>
        r.value.Obj? && r.value.fields.Keys == fields.Keys &&
        GetAt(r.value.fields[key], indices) == Some(value) &&
        forall k :: k in fields && k != key ==> r.value.fields[k] == fields[k])
  {
    var part := Indexed(key, indices);
    IndexedContainsBracket(key, indices);
    ParseArrayPathRoundTrip(key, indices);
    var r := SetLastNested(Obj(fields), part, value);
    if key !in fields {
      assert r == Failure(KeyNotFound(key));
    } else if !fields[key].Arr? {
      assert r == Failure(ExpectedArray(part));
      assert GetAt(fields[key], indices) == None;
    } else {
      WriteAtReadsBack(fields[key], indices, part, value);
      var w := WriteAt(fields[key], indices, part, value);
      SetLastNestedWrites(fields, part, key, indices, value);
      if w.Success? {
        assert r == Success(Obj(fields[key := w.value]));
        assert fields[key := w.value][key] == w.value;
      }
    }
  }

  lemma SetLastNestedWrites(fields: map<string, Json>, part: string, key: string, indices: seq<nat>, value: Json)
    requires Contains(part, "[") && ParseArrayPath(part) == Success((key, indices))
    requires |indices| >= 1 && key in fields && fields[key].Arr?
    ensures var w := WriteAt(fields[key], indices, part, value);
      SetLastNested(Obj(fields), part, value) ==
        if w.Success? then Success(Obj(fields[key := w.value])) else Failure(w.error)
  {
  }

  lemma SetLastWrites(fields: map<string, Json>, part: string, key: string, indices: seq<nat>, value: Json)
    requires Contains(part, "[") && ParseArrayPath(part) == Success((key, indices))
    requires |indices| >= 1 && key in fields && fields[key].Arr?
    requires indices[|indices| - 1] < |fields[key].items|
    ensures SetLast(Obj(fields), part, value) ==
      Success(Obj(fields[key := Arr(fields[key].items[indices[|indices| - 1] := value])]))
  {
  }

  /**
   * `SetLast` as written reads every index of the last segment but writes
   * only at the last one, in the array under the key: on `{key: [[a, b],
   * [c, d]]}`, `key[0][1]` replaces `[c, d]` by the value, and reading
   * `key[0][1]` back still gives `b`.
   */
  lemma SetLastSkipsEarlierIndices(key: string, a: Json, b: Json, c: Json, d: Json, value: Json)
    requires '[' !in key && value != b
    ensures var fields := map[key := Arr([Arr([a, b]), Arr([c, d])])];
      var asWritten := SetLast(Obj(fields), Indexed(key, [0, 1]), value);
      asWritten == Success(Obj(map[key := Arr([Arr([a, b]), value])])) &&
      GetAt(asWritten.value.fields[key], [0, 1]) == Some(b)
  {
    SetLastWritesLastIndexOnly(key, a, b, c, d, value);
    var written := Arr([Arr([a, b]), value]);
    assert map[key := written][key] == written;
    assert GetAt(Arr([a, b]), [1]) == GetAt(b, [1][1..]);
    assert GetAt(written, [0, 1]) == GetAt(Arr([a, b]), [0, 1][1..]);
  }

  lemma SetLastWritesLastIndexOnly(key: string, a: Json, b: Json, c: Json, d: Json, value: Json)
    requires '[' !in key
    ensures var fields := map[key := Arr([Arr([a, b]), Arr([c, d])])];
      SetLast(Obj(fields), Indexed(key, [0, 1]), value) == Success(Obj(map[key := Arr([Arr([a, b]), value])]))
  {
    var fields := map[key := Arr([Arr([a, b]), Arr([c, d])])];
    var part := Indexed(key, [0, 1]);
    IndexedContainsBracket(key, [0, 1]);
    ParseArrayPathRoundTrip(key, [0, 1]);
    var items := [Arr([a, b]), Arr([c, d])];
    assert fields[key].items == items;
    assert [0, 1][|[0, 1]| - 1] == 1;
    SetLastWrites(fields, part, key, [0, 1], value);
    var written := Arr([Arr([a, b]), value]);
    assert Arr(items[1 := value]) == written by {
      assert items[1 := value] == [Arr([a, b]), value];
    }
    MapOverwrite(key, Arr(items), written);
  }

  lemma MapOverwrite<K, V>(k: K, was: V, now: V)
    ensures map[k := was][k := now] == map[k := now]
  {
  }

  /** On the same tree, `SetLastNested` writes `key[0][1]` inside `[a, b]`. */
  lemma SetLastNestedFollowsEveryIndex(key: string, a: Json, b: Json, c: Json, d: Json, value: Json)
    requires '[' !in key
    ensures var fields := map[key := Arr([Arr([a, b]), Arr([c, d])])];
      SetLastNested(Obj(fields), Indexed(key, [0, 1]), value) ==
        Success(Obj(map[key := Arr([Arr([a, value]), Arr([c, d])])]))
  {
    var fields := map[key := Arr([Arr([a, b]), Arr([c, d])])];
    var part := Indexed(key, [0, 1]);
    IndexedContainsBracket(key, [0, 1]);
    ParseArrayPathRoundTrip(key, [0, 1]);
    SetLastNestedWrites(fields, part, key, [0, 1], value);
    assert [a, b][1 := value] == [a, value];
    assert WriteAt(Arr([a, b]), [0, 1][1..], part, value) == Success(Arr([a, value]));
    assert [Arr([a, b]), Arr([c, d])][0 := Arr([a, value])] == [Arr([a, value]), Arr([c, d])];
    MapOverwrite(key, Arr([Arr([a, b]), Arr([c, d])]), Arr([Arr([a, value]), Arr([c, d])]));
  }

  /* ---------------------------------------------------------------------- */
  /* Reading a path                                                         */
  /* ---------------------------------------------------------------------- */

  /** The value reached from `node` through one segment read the way the
      traversal loop reads it, or the error it stops with. */
  function StepInto(node: Json, part: string): Result<Json, SetError> {
    if Contains(part, "[") then
      match ParseArrayPath(part)
      case Failure(e) => Failure(BadIndex(e))
      case Success((key, indices)) =>
        if node.Obj? then
          if key in node.fields then Follow(node.fields[key], indices, part) else Failure(KeyNotFound(key))
        else Follow(node, indices, part)
    else if node.Obj? then
      if part in node.fields then Success(node.fields[part]) else Failure(KeyNotFound(part))
    else Failure(ExpectedObject(part))
  }

  /** The value reached by following `indices` into nested arrays, or the
      error at the first index that cannot be followed. */
  function Follow(node: Json, indices: seq<nat>, part: string): (r: Result<Json, SetError>)
    decreases |indices|
    ensures r.Success? <==> GetAt(node, indices).Some?
    ensures r.Success? ==> r.value == GetAt(node, indices).value
  {
    if |indices| == 0 then Success(node)
    else if !node.Arr? then Failure(ExpectedArray(part))
    else if indices[0] >= |node.items| then Failure(OutOfBounds(indices[0]))
    else Follow(node.items[indices[0]], indices[1..], part)
  }

  /** The value at the end of a path, or the error that stops the reading. */
  function GetPath(node: Json, parts: seq<string>): Result<Json, SetError>
    decreases |parts|
  {
    if |parts| == 0 then Success(node)
    else
      match StepInto(node, parts[0])
      case Failure(e) => Failure(e)
      case Success(child) => GetPath(child, parts[1..])
  }

  /** Why the last segment cannot be written into `parent`, if it cannot. */
  function LastFault(parent: Json, part: string): Option<SetError> {
    if Contains(part, "[") then
      match ParseArrayPath(part)
      case Failure(e) => Some(BadIndex(e))
      case Success((key, indices)) =>
        if !parent.Obj? then None
        else if key !in parent.fields then Some(KeyNotFound(key))
        else if !parent.fields[key].Arr? then Some(ExpectedArray(part))
        else if |indices| > 0 && indices[|indices| - 1] >= |parent.fields[key].items| then
          Some(OutOfBounds(indices[|indices| - 1]))
        else None
    else if parent.Obj? then None
    else Some(ExpectedObject(part))
  }

  /** Why setting at `parts` fails: the path to the parent cannot be read,
      or the last segment cannot be written into the parent. */
  function Fault(node: Json, parts: seq<string>): Option<SetError>
    requires |parts| >= 1
  {
    match GetPath(node, parts[..|parts| - 1])
    case Failure(e) => Some(e)
    case Success(parent) => LastFault(parent, parts[|parts| - 1])
  }

  /** The last segment fails exactly where `LastFault` says, and a bracketed
      segment on a parent that is not an object leaves it as it is. */
  lemma SetLastFailsLikeLastFault(node: Json, part: string, value: Json)
    ensures SetLast(node, part, value).Failure? <==> LastFault(node, part).Some?
    ensures LastFault(node, part).Some? ==> SetLast(node, part, value) == Failure(LastFault(node, part).value)
    ensures Contains(part, "[") && ParseArrayPath(part).Success? && !node.Obj? ==> SetLast(node, part, value) == Success(node)
  {
  }

  /** Following the indices of a segment fails where `Follow` fails, and
      otherwise the set goes on from where `Follow` arrives. */
  lemma {:induction false} DescendFailsLikeFollow(node: Json, indices: seq<nat>, part: string, parts: seq<string>, value: Json)
    requires |parts| >= 1
    ensures Follow(node, indices, part).Failure? ==>
      Descend(node, indices, part, parts, value) == Failure(Follow(node, indices, part).error)
    ensures Follow(node, indices, part).Success? ==>
      (Descend(node, indices, part, parts, value).Failure? <==> SetAt(Follow(node, indices, part).value, parts, value).Failure?)
    ensures Follow(node, indices, part).Success? && SetAt(Follow(node, indices, part).value, parts, value).Failure? ==>
      Descend(node, indices, part, parts, value) == SetAt(Follow(node, indices, part).value, parts, value)
    decreases |indices|
  {
    if |indices| > 0 && node.Arr? && indices[0] < |node.items| {
      DescendFailsLikeFollow(node.items[indices[0]], indices[1..], part, parts, value);
    }
  }

  /** Where setting fails, seen one segment in. */
  lemma FaultCons(node: Json, parts: seq<string>)
    requires |parts| > 1
    ensures Fault(node, parts) ==
      match StepInto(node, parts[0])
      case Failure(e) => Some(e)
      case Success(child) => Fault(child, parts[1..])
  {
    var n := |parts|;
    assert parts[..n - 1][0] == parts[0];
    assert parts[..n - 1][1..] == parts[1..][..n - 2];
    assert parts[1..][n - 2] == parts[n - 1];
  }

  /** json-set fails exactly when `Fault` names an error, and with that
      error. */
  lemma {:induction false} SetFailsLikeFault(node: Json, parts: seq<string>, value: Json)
    requires |parts| >= 1
    ensures SetAt(node, parts, value).Failure? <==> Fault(node, parts).Some?
    ensures Fault(node, parts).Some? ==> SetAt(node, parts, value) == Failure(Fault(node, parts).value)
    decreases |parts|
  {
    var part := parts[0];
    if |parts| == 1 {
      assert parts[..0] == [];
      SetLastFailsLikeLastFault(node, part, value);
    } else {
      var rest := parts[1..];
      FaultCons(node, parts);
      if Contains(part, "[") {
        match ParseArrayPath(part)
        case Failure(_) =>
        case Success((key, indices)) =>
          if node.Obj? {
            if key in node.fields {
              var target := node.fields[key];
              DescendFailsLikeFollow(target, indices, part, rest, value);
              if Follow(target, indices, part).Success? {
                SetFailsLikeFault(Follow(target, indices, part).value, rest, value);
              }
            }
          } else {
            DescendFailsLikeFollow(node, indices, part, rest, value);
            if Follow(node, indices, part).Success? {
              SetFailsLikeFault(Follow(node, indices, part).value, rest, value);
            }
          }
      } else if node.Obj? && part in node.fields {
        SetFailsLikeFault(node.fields[part], rest, value);
      }
    }
  }

  /** A successful descent arrives where `Follow` arrives, and following
      the same indices in the result reaches what the set made of it. */
  lemma {:induction false} DescendThenFollow(node: Json, indices: seq<nat>, part: string, parts: seq<string>, value: Json)
    requires |parts| >= 1 && Descend(node, indices, part, parts, value).Success?
    ensures Follow(node, indices, part).Success?
    ensures SetAt(Follow(node, indices, part).value, parts, value).Success?
    ensures Follow(Descend(node, indices, part, parts, value).value, indices, part) ==
      SetAt(Follow(node, indices, part).value, parts, value)
    decreases |indices|
  {
    if |indices| > 0 {
      var i := indices[0];
      var child := node.items[i];
      DescendThenFollow(child, indices[1..], part, parts, value);
      var d := Descend(child, indices[1..], part, parts, value).value;
      assert Descend(node, indices, part, parts, value).value.items[i] == d;
    }
  }

  /** After a successful set whose last segment is a plain key, reading the
      path back through keys and indices gives the value that was set. */
  lemma {:induction false} SetThenGetPath(node: Json, parts: seq<string>, value: Json)
    requires |parts| >= 1 && !Contains(parts[|parts| - 1], "[")
    requires SetAt(node, parts, value).Success?
    ensures GetPath(SetAt(node, parts, value).value, parts) == Success(value)
    decreases |parts|
  {
    var part := parts[0];
    var r := SetAt(node, parts, value).value;
    if |parts| == 1 {
      assert r == Obj(node.fields[part := value]);
      assert GetPath(value, parts[1..]) == Success(value);
    } else {
      var rest := parts[1..];
      assert rest[|rest| - 1] == parts[|parts| - 1];
      if Contains(part, "[") {
        var (key, indices) := ParseArrayPath(part).value;
        if node.Obj? {
          assert key in node.fields;
          var target := node.fields[key];
          DescendThenFollow(target, indices, part, rest, value);
          var c := Follow(target, indices, part).value;
          SetThenGetPath(c, rest, value);
          assert r == Obj(node.fields[key := Descend(target, indices, part, rest, value).value]);
        } else {
          DescendThenFollow(node, indices, part, rest, value);
          DescendKeepsKind(node, indices, part, rest, value);
          var c := Follow(node, indices, part).value;
          SetThenGetPath(c, rest, value);
        }
      } else {
        var child := SetAt(node.fields[part], rest, value).value;
        SetThenGetPath(node.fields[part], rest, value);
        assert r == Obj(node.fields[part := child]);
      }
    }
  }
}

=== FILE: messages.dfy ===
/**
 * The chat message records of src/openaiapi/mod.rs (`Message`,
 * `MessageContent`, `ContentPart`, `ToolCall`, `FunctionCall`) and
 * `Message::human_readable_string`. JSON (de)serialisation is not modelled:
 * these are the decoded values.
 */
module Messages {
  import opened Wrappers
  import opened Strings

  datatype ContentPart = Text(text: string) | ImageUrl(url: string)

  /** `MessageContent`: a plain string or a list of parts. */
  datatype Content = Simple(text: string) | Multi(parts: seq<ContentPart>)

  datatype FunctionCall = FunctionCall(name: string, arguments: string)

  /** A model-issued request to run a named tool; `arguments` is opaque JSON text. */
  datatype ToolCall = ToolCall(id: string, toolType: string, call: FunctionCall)

  datatype Message = Message(
    role: string,
    content: Option<Content>,
    name: Option<string>,
    toolCallId: Option<string>,
    toolCalls: Option<seq<ToolCall>>)

  /** `Message::normal`. */
  function Normal(role: string, content: Content): Message {
    Message(role, Some(content), None, None, None)
  }

  /** `Message::tool_response`: the answer to the tool call `toolCallId`. */
  function ToolResponse(role: string, name: string, toolCallId: string, content: Content): Message {
    Message(role, Some(content), Some(name), Some(toolCallId), None)
  }

  /** The tool calls a message carries, in order (none when absent). */
  function CallsOf(m: Message): seq<ToolCall> {
    if m.toolCalls.Some? then m.toolCalls.value else []
  }

  /** A text part as it is; an image as its URL's length in UTF-8 bytes. */
  function PartText(p: ContentPart): string {
    match p
    case Text(t) => t
    case ImageUrl(url) => ImageText(Utf8Length(url))
  }

  function ImageText(n: nat): string {
    "Image (" + NatToString(n) + " bytes)"
  }

  /** The size shown for an image is the number of bytes, so it equals the
      URL's count of characters exactly when the URL is ASCII. */
  lemma ImageSizeIsCharCountIffAscii(url: string)
    ensures PartText(ImageUrl(url)) == ImageText(|url|) <==> Ascii(url)
  {
    Utf8LengthAscii(url);
    if PartText(ImageUrl(url)) == ImageText(|url|) {
      ImageTextInjective(Utf8Length(url), |url|);
    }
  }

  /** A one-character URL outside ASCII is shown as two bytes. */
  lemma ImageSizeOfAccent()
    ensures PartText(ImageUrl("\U{e9}")) == "Image (2 bytes)"
  {
  }

  lemma ImageTextInjective(m: nat, n: nat)
    requires ImageText(m) == ImageText(n)
    ensures m == n
  {
    var x, y := NatToString(m), NatToString(n);
    var pre := "Image (";
    var tm, tn := ImageText(m), ImageText(n);
    assert |x| == |y|;
    assert tm[|pre|..|pre| + |x|] == x;
    assert tn[|pre|..|pre| + |y|] == y;
    NatToStringValue(m);
    NatToStringValue(n);
  }

  function PartsText(parts: seq<ContentPart>): string
    decreases |parts|
  {
    if |parts| == 0 then "" else PartText(parts[0]) + PartsText(parts[1..])
  }

  function ContentText(c: Option<Content>): string {
    match c
    case None => ""
    case Some(Simple(t)) => t + "\n"
    case Some(Multi(parts)) => PartsText(parts)
  }

  /** One tool call shown as a fenced block named after the function. */
  function CallBlock(c: ToolCall): string {
    "```" + c.call.name + "\n" + c.call.arguments + "\n```"
  }

  function CallBlocks(calls: seq<ToolCall>): string
    decreases |calls|
  {
    if |calls| == 0 then "" else CallBlock(calls[0]) + CallBlocks(calls[1..])
  }

  /** `Message::human_readable_string`: a `# role` header line, then the
      content, then every tool call as a fenced block. */
  function HumanReadable(m: Message): (r: string)
    ensures StartsWith(r, "# " + m.role + "\n")
  {
    var header := "# " + m.role + "\n";
    var r := header + ContentText(m.content) + CallBlocks(CallsOf(m));
    assert r[..|header|] == header;
    r
  }

  lemma {:induction false} CallBlocksShowEveryCall(calls: seq<ToolCall>, i: nat)
    requires i < |calls|
    ensures Occurs(CallBlocks(calls), CallBlock(calls[i]))
    decreases i
  {
    var rest := CallBlocks(calls[1..]);
    if i == 0 {
      assert OccursAt(CallBlock(calls[0]), CallBlock(calls[0]), 0);
      OccursWithin("", CallBlock(calls[0]), rest, CallBlock(calls[0]), 0);
      assert "" + CallBlock(calls[0]) + rest == CallBlocks(calls);
    } else {
      CallBlocksShowEveryCall(calls[1..], i - 1);
      assert calls[1..][i - 1] == calls[i];
      var k: nat :| k <= |rest| && OccursAt(rest, CallBlock(calls[i]), k);
      OccursWithin(CallBlock(calls[0]), rest, "", CallBlock(calls[i]), k);
      assert CallBlock(calls[0]) + rest + "" == CallBlocks(calls);
    }
  }

  /** The human-readable form shows a simple text content. */
  lemma HumanReadableShowsContent(m: Message)
    requires m.content.Some? && m.content.value.Simple?
    ensures Occurs(HumanReadable(m), m.content.value.text)
  {
    var header := "# " + m.role + "\n";
    var blocks := CallBlocks(CallsOf(m));
    var t := m.content.value.text;
    assert OccursAt(t, t, 0);
    OccursWithin(header, t, "\n" + blocks, t, 0);
    assert header + t + ("\n" + blocks) == HumanReadable(m);
  }

  /** The human-readable form shows the text of all parts of a list
      content, right after the header. */
  lemma HumanReadableShowsParts(m: Message)
    requires m.content.Some? && m.content.value.Multi?
    ensures OccursAt(HumanReadable(m), PartsText(m.content.value.parts), |"# " + m.role + "\n"|)
  {
  }

  /** The human-readable form shows every tool call of the message. */
  lemma HumanReadableShowsCalls(m: Message, i: nat)
    requires i < |CallsOf(m)|
    ensures Occurs(HumanReadable(m), CallBlock(CallsOf(m)[i]))
  {
    var blocks := CallBlocks(CallsOf(m));
    CallBlocksShowEveryCall(CallsOf(m), i);
    var p := CallBlock(CallsOf(m)[i]);
    var k: nat :| k <= |blocks| && OccursAt(blocks, p, k);
    var pre := "# " + m.role + "\n" + ContentText(m.content);
    OccursWithin(pre, blocks, "", p, k);
    assert pre + blocks + "" == HumanReadable(m);
  }

  /** The blocks of the calls before `i`, then call `i`'s block, then the
      blocks of the calls after it. */
  lemma {:induction false} CallBlocksSplit(calls: seq<ToolCall>, i: nat)
    requires i < |calls|
    ensures CallBlocks(calls) == CallBlocks(calls[..i]) + (CallBlock(calls[i]) + CallBlocks(calls[i + 1..]))
    decreases i
  {
    if i == 0 {
      assert calls[..0] == [];
      assert "" + (CallBlock(calls[0]) + CallBlocks(calls[1..])) == CallBlocks(calls);
    } else {
      var tail := calls[1..];
      CallBlocksSplit(tail, i - 1);
      assert tail[..i - 1] == calls[..i][1..];
      assert tail[i - 1] == calls[i];
      assert tail[i..] == calls[i + 1..];
      var before := CallBlocks(tail[..i - 1]);
      var here := CallBlock(calls[i]) + CallBlocks(calls[i + 1..]);
      assert CallBlocks(calls[..i]) == CallBlock(calls[0]) + before;
      assert CallBlock(calls[0]) + (before + here) == (CallBlock(calls[0]) + before) + here;
    }
  }

  /** The human-readable form puts call `i`'s block after the header, the
      content and the blocks of the calls before it. */
  lemma HumanReadableCallAt(m: Message, i: nat)
    requires i < |CallsOf(m)|
    ensures var calls := CallsOf(m);
      OccursAt(HumanReadable(m), CallBlock(calls[i]),
               |"# " + m.role + "\n"| + |ContentText(m.content)| + |CallBlocks(calls[..i])|)
  {
    var calls := CallsOf(m);
    var front := "# " + m.role + "\n" + ContentText(m.content);
    var before := CallBlocks(calls[..i]);
    var here := CallBlock(calls[i]);
    var post := CallBlocks(calls[i + 1..]);
    assert HumanReadable(m) == front + CallBlocks(calls);
    CallBlocksSplit(calls, i);
    AppendAssoc(front, before, here + post);
    AppendAssoc(front + before, here, post);
    assert OccursAt(here, here, 0);
    OccursWithin(front + before, here, post, here, 0);
  }

  /** The blocks of earlier calls come first: a longer prefix of the calls
      renders to text that extends the shorter one's. */
  lemma CallBlocksGrow(calls: seq<ToolCall>, i: nat)
    requires i < |calls|
    ensures CallBlocks(calls[..i + 1]) == CallBlocks(calls[..i]) + CallBlock(calls[i])
  {
    var prefix := calls[..i + 1];
    CallBlocksSplit(prefix, i);
    assert prefix[..i] == calls[..i];
    assert prefix[i + 1..] == [];
    assert CallBlock(calls[i]) + "" == CallBlock(calls[i]);
  }

  /** A list of parts renders each part in order: text as it is, an image as
      its size in bytes. */
  lemma {:induction false} PartsTextGrow(parts: seq<ContentPart>, p: ContentPart)
    ensures PartsText(parts + [p]) == PartsText(parts) + PartText(p)
    decreases |parts|
  {
    if |parts| == 0 {
      assert [] + [p] == [p];
      assert PartsText([p]) == PartText(p) + PartsText([]);
    } else {
      PartsTextGrow(parts[1..], p);
      assert (parts + [p])[1..] == parts[1..] + [p];
      assert (parts + [p])[0] == parts[0];
      AppendAssoc(PartText(parts[0]), PartsText(parts[1..]), PartText(p));
    }
  }
}

=== FILE: search_replace.dfy ===
/**
 * The SEARCH/REPLACE tool of src/tools/files/mod.rs: `parse_blocks` cuts the
 * tool input into blocks, and `apply_blocks` applies them one after the other
 * to the file's text, all or nothing, and builds the report. Reading and
 * writing the file are parameters: the text read (or the read error) comes
 * in, and the text to write comes out.
 */
module SearchReplace {
  import opened Wrappers
  import opened Strings
  import TextEdits

  const SearchMarker: string := "<<<<<<< SEARCH"
  const Separator: string := "======="
  const ReplaceMarker: string := ">>>>>>> REPLACE"

  /** One parsed block. */
  datatype Block = Block(search: string, replace: string)

  /** The block as `parse_blocks` writes it back into `raw_block`. */
  function Raw(b: Block): string {
    SearchMarker + ("\n" + (b.search + (Separator + ("\n" + (b.replace + (ReplaceMarker + "\n"))))))
  }

  function Raws(blocks: seq<Block>): seq<string>
    ensures |Raws(blocks)| == |blocks|
  {
    seq(|blocks|, k requires 0 <= k < |blocks| => Raw(blocks[k]))
  }

  /** Why parsing stopped: a reported error, or the slice that panics when the
      separator comes after the REPLACE marker. */
  datatype ParseFault = Reported(message: string) | SlicePanic

  predicate NoLeadingNewline(s: string) {
    |s| == 0 || s[0] != '\n'
  }

  lemma {:induction false} TrimmedHasNoLeadingNewline(s: string)
    ensures NoLeadingNewline(TrimLeadingNewlines(s))
    ensures |TrimLeadingNewlines(s)| <= |s|
    decreases |s|
  {
    if |s| > 0 && s[0] == '\n' {
      TrimmedHasNoLeadingNewline(s[1..]);
    }
  }

  /** What one round of the loop of `parse_blocks` finds: no more SEARCH
      markers, a block and the text after its REPLACE marker, or a fault. */
  datatype Next = Done | Found(block: Block, rest: string) | Stuck(fault: ParseFault)

  function NextBlock(remaining: string): (r: Next)
    ensures r.Found? ==> |r.rest| < |remaining|
    ensures r.Found? ==> NoLeadingNewline(r.block.search) && NoLeadingNewline(r.block.replace)
  {
    match Find(remaining, SearchMarker)
    case None => Done
    case Some(start) => BlockAfter(remaining[start + |SearchMarker|..])
  }

  /** The block opened by a SEARCH marker, from the text that follows it. */
  function BlockAfter(after: string): (r: Next)
    ensures r != Done
    ensures r.Found? ==> |r.rest| < |after|
    ensures r.Found? ==> NoLeadingNewline(r.block.search) && NoLeadingNewline(r.block.replace)
  {
    match Find(after, Separator)
    case None => Stuck(Reported("Missing ======= separator"))
    case Some(sep) =>
      match Find(after, ReplaceMarker)
      case None => Stuck(Reported("Missing >>>>>>> REPLACE"))
      case Some(end) =>
        if sep + |Separator| > end then Stuck(SlicePanic)
        else
          TrimmedHasNoLeadingNewline(after[..sep]);
          TrimmedHasNoLeadingNewline(after[sep + |Separator|..end]);
          Found(Block(TrimLeadingNewlines(after[..sep]), TrimLeadingNewlines(after[sep + |Separator|..end])),
                after[end + |ReplaceMarker|..])
  }

  /** The loop of `parse_blocks` on what is left of the input. */
  function Scan(remaining: string): (r: Result<seq<Block>, ParseFault>)
    decreases |remaining|
    ensures r.Success? ==> forall k :: 0 <= k < |r.value| ==>
      NoLeadingNewline(r.value[k].search) && NoLeadingNewline(r.value[k].replace)
  {
    match NextBlock(remaining)
    case Done => Success([])
    case Stuck(f) => Failure(f)
    case Found(b, rest) =>
      match Scan(rest)
      case Failure(e) => Failure(e)
      case Success(bs) => Success([b] + bs)
  }

  lemma {:induction false} TrimIsSuffix(s: string)
    ensures |TrimLeadingNewlines(s)| <= |s|
    ensures TrimLeadingNewlines(s) == s[|s| - |TrimLeadingNewlines(s)|..]
    decreases |s|
  {
    if |s| > 0 && s[0] == '\n' {
      TrimIsSuffix(s[1..]);
    }
  }

  /** A slice that ends before the first occurrence of `pat` holds none. */
  lemma NoneBefore(s: string, pat: string, a: nat, b: nat, k: nat)
    requires |pat| > 0 && a <= b <= k && FirstOccurrence(s, pat, k)
    ensures !Occurs(s[a..b], pat)
  {
    forall p: nat | p + |pat| <= b - a
      ensures !OccursAt(s[a..b], pat, p)
    {
      assert a + p + |pat| <= b <= |s|;
      assert s[a..b][p..p + |pat|] == s[a..b][p..][..|pat|];
      assert s[a..b][p..] == s[a + p..b];
      assert s[a + p..b][..|pat|] == s[a + p..a + p + |pat|];
      assert !OccursAt(s, pat, a + p);
    }
  }

  /** A block's search text holds no separator and no REPLACE marker, and its
      replace text no REPLACE marker: each marker found is the first one that
      follows. */
  predicate Clean(b: Block) {
    !Occurs(b.search, Separator) && !Occurs(b.search, ReplaceMarker) && !Occurs(b.replace, ReplaceMarker)
  }

  lemma NextBlockClean(remaining: string)
    ensures NextBlock(remaining).Found? ==> Clean(NextBlock(remaining).block)
  {
    if NextBlock(remaining).Found? {
      var start := Find(remaining, SearchMarker).value;
      var after := remaining[start + |SearchMarker|..];
      var sep := Find(after, Separator).value;
      var end := Find(after, ReplaceMarker).value;
      var search := TrimLeadingNewlines(after[..sep]);
      var replace := TrimLeadingNewlines(after[sep + |Separator|..end]);
      TrimIsSuffix(after[..sep]);
      TrimIsSuffix(after[sep + |Separator|..end]);
      var a := sep - |search|;
      var a' := end - |replace|;
      assert search == after[a..sep];
      assert replace == after[a'..end];
      NoneBefore(after, Separator, a, sep, sep);
      NoneBefore(after, ReplaceMarker, a, sep, end);
      NoneBefore(after, ReplaceMarker, a', end, end);
    }
  }

  /** Every parsed block is clean. */
  lemma {:induction false} ScanClean(remaining: string)
    ensures Scan(remaining).Success? ==> forall k :: 0 <= k < |Scan(remaining).value| ==> Clean(Scan(remaining).value[k])
    decreases |remaining|
  {
    NextBlockClean(remaining);
    match NextBlock(remaining)
    case Done =>
    case Stuck(_) =>
    case Found(b, rest) => ScanClean(rest);
  }

  /** `parse_blocks`: the blocks in input order, or an error. */
  function ParseBlocks(content: string): (r: Result<seq<Block>, ParseFault>)
    ensures r.Success? ==> |r.value| > 0
    ensures r.Success? <==> Scan(content).Success? && |Scan(content).value| > 0
    ensures r.Failure? && Scan(content).Success? ==> r.error == Reported("No SEARCH/REPLACE blocks found")
  {
    match Scan(content)
    case Failure(e) => Failure(e)
    case Success(blocks) =>
      if |blocks| == 0 then Failure(Reported("No SEARCH/REPLACE blocks found")) else Success(blocks)
  }

  /** Input without a SEARCH marker has no blocks. */
  lemma NoMarkerNoBlocks(content: string)
    requires !Occurs(content, SearchMarker)
    ensures ParseBlocks(content) == Failure(Reported("No SEARCH/REPLACE blocks found"))
  {
  }

  /** The text between a block's SEARCH marker line and its REPLACE marker:
      the search text, the separator and the replace text. */
  function Body(b: Block): string {
    b.search + (Separator + ("\n" + b.replace))
  }

  /** The blocks `Raw` writes so that they read back unchanged: the first
      separator after the search text is the one `Raw` writes after it, the
      first REPLACE marker after the search text is the one `Raw` writes
      after the replace text, and neither text starts with a line feed. */
  predicate Writable(b: Block) {
    && Find(b.search + Separator, Separator) == Some(|b.search|)
    && Find(Body(b) + ReplaceMarker, ReplaceMarker) == Some(|Body(b)|)
    && NoLeadingNewline(b.search) && NoLeadingNewline(b.replace)
  }

  lemma TrimOneNewline(s: string)
    requires NoLeadingNewline(s)
    ensures TrimLeadingNewlines("\n" + s) == s
  {
    assert ("\n" + s)[1..] == s;
  }

  /** The three markers of one round: the SEARCH marker at `start` of `s`,
      followed by `after`, which holds the separator at `sep` and the REPLACE
      marker at `end`, in that order. */
  predicate MarkersAt(s: string, start: nat, after: string, sep: nat, end: nat) {
    && Find(s, SearchMarker) == Some(start) && start + |SearchMarker| <= |s| && s[start + |SearchMarker|..] == after
    && Find(after, Separator) == Some(sep) && Find(after, ReplaceMarker) == Some(end)
    && sep + |Separator| <= end && end + |ReplaceMarker| <= |after|
  }

  /** One round of the loop, once the three markers have been found. */
  lemma NextBlockOf(s: string, start: nat, after: string, sep: nat, end: nat, b: Block, rest: string)
    requires MarkersAt(s, start, after, sep, end)
    requires b.search == TrimLeadingNewlines(after[..sep])
    requires b.replace == TrimLeadingNewlines(after[sep + |Separator|..end])
    requires rest == after[end + |ReplaceMarker|..]
    ensures NextBlock(s).Found? && NextBlock(s).block == b && NextBlock(s).rest == rest
  {
    assert NextBlock(s) == BlockAfter(after);
    assert BlockAfter(after) == Found(b, rest);
  }

  /** What follows the SEARCH marker in a block's raw form and `tail`. */
  function AfterMarker(b: Block, tail: string): string {
    "\n" + (b.search + (Separator + ("\n" + (b.replace + (ReplaceMarker + ("\n" + tail))))))
  }

  lemma RawThen(b: Block, tail: string)
    ensures Raw(b) + tail == SearchMarker + AfterMarker(b, tail)
  {
    var f := ReplaceMarker + "\n";
    var e := b.replace + f;
    var d := "\n" + e;
    var c := Separator + d;
    var bb := b.search + c;
    var a := "\n" + bb;
    AppendAssoc(ReplaceMarker, "\n", tail);
    AppendAssoc(b.replace, f, tail);
    AppendAssoc("\n", e, tail);
    AppendAssoc(Separator, d, tail);
    AppendAssoc(b.search, c, tail);
    AppendAssoc("\n", bb, tail);
    AppendAssoc(SearchMarker, a, tail);
  }

  /** The separator is found right after the search text. */
  lemma FindSeparator(b: Block, tail: string)
    requires Writable(b)
    ensures AfterMarker(b, tail)[..1 + |b.search|] == "\n" + b.search
    ensures Find(AfterMarker(b, tail), Separator) == Some(1 + |b.search|)
  {
    var y1 := "\n" + (b.replace + (ReplaceMarker + ("\n" + tail)));
    AppendAssoc(b.search, Separator, y1);
    FindWithin(AfterMarker(b, tail), "\n", b.search + Separator, y1, Separator, |b.search|, 1 + |b.search|);
  }

  /** The REPLACE marker is found right after the replace text. */
  lemma FindReplaceMarker(b: Block, tail: string)
    requires Writable(b)
    ensures Find(AfterMarker(b, tail), ReplaceMarker) == Some(EndAt(b))
  {
    AfterMarkerBody(b, tail);
    BodyLength(b);
    FindWithin(AfterMarker(b, tail), "\n", Body(b) + ReplaceMarker, "\n" + tail, ReplaceMarker, |Body(b)|, EndAt(b));
  }

  lemma BodyLength(b: Block)
    ensures 1 + |Body(b)| == EndAt(b)
  {
  }

  /** `AfterMarker` as the body, the REPLACE marker and the rest. */
  lemma AfterMarkerBody(b: Block, tail: string)
    ensures AfterMarker(b, tail) == "\n" + ((Body(b) + ReplaceMarker) + ("\n" + tail))
  {
    var y2 := "\n" + tail;
    var r := "\n" + b.replace;
    AppendAssoc(b.replace, ReplaceMarker, y2);
    AppendAssoc("\n", b.replace, ReplaceMarker + y2);
    AppendAssoc(Separator, r, ReplaceMarker + y2);
    AppendAssoc(b.search, Separator + r, ReplaceMarker + y2);
    AppendAssoc(Body(b), ReplaceMarker, y2);
  }

  /** The replace text and the rest, cut out at the markers. */
  lemma RawSlices(b: Block, tail: string)
    ensures var sep := 1 + |b.search|;
      var end := sep + |Separator| + 1 + |b.replace|;
      OccursAt(AfterMarker(b, tail), Separator, sep) &&
      AfterMarker(b, tail)[..sep] == "\n" + b.search &&
      AfterMarker(b, tail)[sep + |Separator|..end] == "\n" + b.replace &&
      AfterMarker(b, tail)[end + |ReplaceMarker|..] == "\n" + tail
  {
    var x1 := "\n" + b.search;
    var r := "\n" + b.replace;
    var y2 := ReplaceMarker + ("\n" + tail);
    var after := AfterMarker(b, tail);
    assert after == x1 + ((Separator + r) + y2) by {
      AppendAssoc("\n", b.search, Separator + ("\n" + (b.replace + y2)));
      AppendAssoc("\n", b.replace, y2);
      AppendAssoc(Separator, r, y2);
    }
    assert after == (x1 + (Separator + r)) + y2 by {
      AppendAssoc(x1, Separator + r, y2);
    }
    var sep := |x1|;
    assert after[..sep] == x1;
    assert after[sep..] == (Separator + r) + y2;
    assert after[sep..sep + |Separator|] == Separator;
    assert after[sep + |Separator|..] == r + y2 by {
      AppendAssoc(Separator, r, y2);
    }
    assert after[sep + |Separator|..][..|r|] == r;
  }

  /** Where the separator and the REPLACE marker sit in `AfterMarker`. */
  function SepAt(b: Block): nat {
    1 + |b.search|
  }

  function EndAt(b: Block): nat {
    SepAt(b) + |Separator| + 1 + |b.replace|
  }

  /** Scanning text that starts with one block's raw form, after text with
      no `<`, reads that block and resumes right after its REPLACE marker. */
  lemma ScanOne(pre: string, b: Block, tail: string)
    requires '<' !in pre && Writable(b)
    ensures var n := NextBlock(pre + (Raw(b) + tail));
      n.Found? && n.block == b && n.rest == "\n" + tail
  {
    RawMarkers(pre, b, tail);
    RawPieces(b, tail);
    NextBlockOf(pre + (Raw(b) + tail), |pre|, AfterMarker(b, tail), SepAt(b), EndAt(b), b, "\n" + tail);
  }

  /** The three markers of a block's raw form are where it puts them. */
  lemma RawMarkers(pre: string, b: Block, tail: string)
    requires '<' !in pre && Writable(b)
    ensures MarkersAt(pre + (Raw(b) + tail), |pre|, AfterMarker(b, tail), SepAt(b), EndAt(b))
  {
    RawThen(b, tail);
    FindSeparator(b, tail);
    FindReplaceMarker(b, tail);
    AfterMarkerLength(b, tail);
    MarkersAfter(pre + (Raw(b) + tail), pre, AfterMarker(b, tail), SepAt(b), EndAt(b));
  }

  /** Text with no `<`, then the SEARCH marker, then text holding the other
      two markers in order. */
  lemma MarkersAfter(s: string, pre: string, after: string, sep: nat, end: nat)
    requires s == pre + (SearchMarker + after) && '<' !in pre
    requires Find(after, Separator) == Some(sep) && Find(after, ReplaceMarker) == Some(end)
    requires sep + |Separator| <= end && end + |ReplaceMarker| <= |after|
    ensures MarkersAt(s, |pre|, after, sep, end)
  {
    SearchMarkerAfter(pre, after);
  }

  /** The SEARCH marker is found right after text with no `<`. */
  lemma SearchMarkerAfter(pre: string, after: string)
    requires '<' !in pre
    ensures var s := pre + (SearchMarker + after);
      Find(s, SearchMarker) == Some(|pre|) && |pre| + |SearchMarker| <= |s| && s[|pre| + |SearchMarker|..] == after
  {
    var s := pre + (SearchMarker + after);
    assert (SearchMarker + after)[..|SearchMarker|] == SearchMarker;
    FindAfterFreePrefix(pre, SearchMarker + after, SearchMarker);
    assert s[|pre|..] == SearchMarker + after;
  }

  lemma AfterMarkerLength(b: Block, tail: string)
    ensures |AfterMarker(b, tail)| == EndAt(b) + |ReplaceMarker| + 1 + |tail|
  {
  }

  /** The texts between the markers of a block's raw form trim back to the
      block, and the rest starts right after the REPLACE marker. */
  lemma RawPieces(b: Block, tail: string)
    requires NoLeadingNewline(b.search) && NoLeadingNewline(b.replace)
    ensures EndAt(b) + |ReplaceMarker| <= |AfterMarker(b, tail)|
    ensures b.search == TrimLeadingNewlines(AfterMarker(b, tail)[..SepAt(b)])
    ensures b.replace == TrimLeadingNewlines(AfterMarker(b, tail)[SepAt(b) + |Separator|..EndAt(b)])
    ensures AfterMarker(b, tail)[EndAt(b) + |ReplaceMarker|..] == "\n" + tail
  {
    TrimOneNewline(b.search);
    RawSlices(b, tail);
    TrimOneNewline(b.replace);
  }

  /** Scanning past one found block. */
  lemma ScanFound(s: string)
    requires NextBlock(s).Found? && Scan(NextBlock(s).rest).Success?
    ensures Scan(s) == Success([NextBlock(s).block] + Scan(NextBlock(s).rest).value)
  {
  }

  /** Text with no `<` holds no further block. */
  lemma ScanNoMarker(s: string)
    requires '<' !in s
    ensures Scan(s) == Success([])
  {
    FindWithoutFirstChar(s, SearchMarker);
  }

  /** Parsing the raw forms of writable blocks, after text with no `<`, gives
      the blocks back. */
  lemma {:induction false} ScanRaws(pre: string, blocks: seq<Block>)
    requires '<' !in pre
    requires forall k :: 0 <= k < |blocks| ==> Writable(blocks[k])
    ensures Scan(pre + Concat(Raws(blocks))) == Success(blocks)
    decreases |blocks|
  {
    if |blocks| == 0 {
      assert pre + Concat(Raws(blocks)) == pre;
      ScanNoMarker(pre);
    } else {
      var later := blocks[1..];
      forall k | 0 <= k < |later|
        ensures Writable(later[k])
      {
        assert later[k] == blocks[k + 1];
      }
      ScanRaws("\n", later);
      var rest := Concat(Raws(later));
      ConcatRawsCons(blocks);
      assert pre + Concat(Raws(blocks)) == pre + (Raw(blocks[0]) + rest);
      ScanRawsStep(pre, blocks[0], rest, later);
      HeadTail(blocks);
    }
  }

  /** One block's raw form in front of text that scans back to the rest. */
  lemma ScanRawsStep(pre: string, b: Block, rest: string, bs: seq<Block>)
    requires '<' !in pre && Writable(b)
    requires Scan("\n" + rest) == Success(bs)
    ensures Scan(pre + (Raw(b) + rest)) == Success([b] + bs)
  {
    var s := pre + (Raw(b) + rest);
    ScanOne(pre, b, rest);
    ScanFound(s);
  }

  lemma ConcatRawsCons(blocks: seq<Block>)
    requires |blocks| > 0
    ensures Concat(Raws(blocks)) == Raw(blocks[0]) + Concat(Raws(blocks[1..]))
  {
    assert Raws(blocks)[1..] == Raws(blocks[1..]);
  }

  /** Trimming a text that starts with a line feed shortens it. */
  lemma TrimShortens(s: string)
    requires |s| > 0 && s[0] == '\n'
    ensures |TrimLeadingNewlines(s)| < |s|
  {
    TrimIsSuffix(s[1..]);
  }

  /** If the text before the first separator trims back to the search text,
      that separator is the one `Raw` writes. */
  lemma SeparatorReadBack(b: Block, tail: string, sep: nat)
    requires Find(AfterMarker(b, tail), Separator) == Some(sep)
    requires sep <= |AfterMarker(b, tail)|
    requires b.search == TrimLeadingNewlines(AfterMarker(b, tail)[..sep])
    ensures sep == SepAt(b)
  {
    var after := AfterMarker(b, tail);
    RawSlices(b, tail);
    OccursFirstChar(after, Separator, sep);
    assert after[0] == '\n';
    assert after[..sep][0] == '\n';
    TrimShortens(after[..sep]);
  }

  /** If the text between the separator and the first REPLACE marker trims
      back to the replace text, that marker is the one `Raw` writes. */
  lemma ReplaceMarkerReadBack(b: Block, tail: string, end: nat)
    requires Find(AfterMarker(b, tail), ReplaceMarker) == Some(end)
    requires SepAt(b) + |Separator| <= end <= |AfterMarker(b, tail)|
    requires b.replace == TrimLeadingNewlines(AfterMarker(b, tail)[SepAt(b) + |Separator|..end])
    ensures end == EndAt(b)
  {
    var after := AfterMarker(b, tail);
    var lo := SepAt(b) + |Separator|;
    RawSlices(b, tail);
    FindReplaceMarkerOccurs(b, tail);
    OccursFirstChar(after, ReplaceMarker, end);
    assert after[lo] == ("\n" + b.replace)[0] == '\n';
    assert after[lo..end][0] == '\n';
    TrimShortens(after[lo..end]);
  }

  /** `Raw` writes a REPLACE marker after the replace text. */
  lemma FindReplaceMarkerOccurs(b: Block, tail: string)
    ensures OccursAt(AfterMarker(b, tail), ReplaceMarker, EndAt(b))
  {
    var after := AfterMarker(b, tail);
    AfterMarkerLength(b, tail);
    RawSlices(b, tail);
    assert after[EndAt(b)..EndAt(b) + |ReplaceMarker|] == ReplaceMarker by {
      AfterMarkerBody(b, tail);
      BodyLength(b);
      var x := Body(b) + ReplaceMarker;
      assert after[1..1 + |x|] == x;
      assert x[|Body(b)|..] == ReplaceMarker;
    }
  }

  /** A block read back from its own raw form is writable. */
  lemma WritableOfReadBack(b: Block, tail: string)
    requires BlockAfter(AfterMarker(b, tail)).Found? && BlockAfter(AfterMarker(b, tail)).block == b
    ensures Writable(b)
  {
    var after := AfterMarker(b, tail);
    var sep := Find(after, Separator).value;
    var end := Find(after, ReplaceMarker).value;
    assert b.search == TrimLeadingNewlines(after[..sep]);
    assert b.replace == TrimLeadingNewlines(after[sep + |Separator|..end]);
    SeparatorReadBack(b, tail, sep);
    ReplaceMarkerReadBack(b, tail, end);
    SearchFindsSeparator(b, tail);
    BodyFindsReplaceMarker(b, tail);
  }

  /** The first separator in `AfterMarker` is the first after the search text. */
  lemma SearchFindsSeparator(b: Block, tail: string)
    requires Find(AfterMarker(b, tail), Separator) == Some(SepAt(b))
    ensures Find(b.search + Separator, Separator) == Some(|b.search|)
  {
    var after := AfterMarker(b, tail);
    AfterMarkerLength(b, tail);
    AfterMarkerBody(b, tail);
    var x := Body(b) + ReplaceMarker;
    assert after[1..SepAt(b) + |Separator|] == b.search + Separator by {
      assert after[1..1 + |x|] == x;
      assert x[..|b.search| + |Separator|] == b.search + Separator;
    }
    FindInSlice(after, Separator, SepAt(b), 1, SepAt(b) + |Separator|);
  }

  /** The first REPLACE marker in `AfterMarker` is the first after the body. */
  lemma BodyFindsReplaceMarker(b: Block, tail: string)
    requires Find(AfterMarker(b, tail), ReplaceMarker) == Some(EndAt(b))
    ensures Find(Body(b) + ReplaceMarker, ReplaceMarker) == Some(|Body(b)|)
  {
    var after := AfterMarker(b, tail);
    AfterMarkerLength(b, tail);
    AfterMarkerBody(b, tail);
    BodyLength(b);
    var x := Body(b) + ReplaceMarker;
    assert after[1..EndAt(b) + |ReplaceMarker|] == x;
    FindInSlice(after, ReplaceMarker, EndAt(b), 1, EndAt(b) + |ReplaceMarker|);
  }

  /** The block right after a SEARCH marker at the start of the text. */
  lemma NextBlockOfRaw(b: Block, tail: string)
    ensures NextBlock(Raw(b) + tail) == BlockAfter(AfterMarker(b, tail))
  {
    RawThen(b, tail);
    SearchMarkerAfter("", AfterMarker(b, tail));
    assert "" + (SearchMarker + AfterMarker(b, tail)) == Raw(b) + tail;
  }

  /** A block's raw form reads back as that block exactly when the block is
      writable. */
  lemma ReadBackIffWritable(b: Block, tail: string)
    ensures (NextBlock(Raw(b) + tail).Found? && NextBlock(Raw(b) + tail).block == b) <==> Writable(b)
  {
    NextBlockOfRaw(b, tail);
    if Writable(b) {
      ScanOne("", b, tail);
      assert "" + (Raw(b) + tail) == Raw(b) + tail;
    } else if NextBlock(Raw(b) + tail).Found? && NextBlock(Raw(b) + tail).block == b {
      WritableOfReadBack(b, tail);
    }
  }

  /** `parse_blocks` reads one block's raw form back as that block exactly
      when the block is writable. */
  lemma ParseRawIffWritable(b: Block)
    ensures ParseBlocks(Raw(b)) == Success([b]) <==> Writable(b)
  {
    ReadBackIffWritable(b, "");
    assert Raw(b) + "" == Raw(b);
    if Writable(b) {
      ParseRaws([b]);
      ConcatRawsOne(b);
    } else if ParseBlocks(Raw(b)) == Success([b]) {
      ScanSingle(Raw(b), b);
    }
  }

  lemma ConcatRawsOne(b: Block)
    ensures Concat(Raws([b])) == Raw(b)
  {
    assert Raws([b])[1..] == [];
    assert Raw(b) + "" == Raw(b);
  }

  /** Text that scans to one block holds that block first. */
  lemma ScanSingle(s: string, b: Block)
    requires Scan(s) == Success([b])
    ensures NextBlock(s).Found? && NextBlock(s).block == b
  {
    match NextBlock(s)
    case Done =>
    case Stuck(_) =>
    case Found(b', rest) =>
      assert Scan(s) == Success([b'] + Scan(rest).value);
      assert ([b'] + Scan(rest).value)[0] == b';
  }

  /** `parse_blocks` reads back the raw forms of any non-empty list of
      writable blocks. */
  lemma ParseRaws(blocks: seq<Block>)
    requires |blocks| > 0
    requires forall k :: 0 <= k < |blocks| ==> Writable(blocks[k])
    ensures ParseBlocks(Concat(Raws(blocks))) == Success(blocks)
  {
    ScanRaws("", blocks);
    assert "" + Concat(Raws(blocks)) == Concat(Raws(blocks));
  }

  /* ---------------------------------------------------------------------- */
  /* Applying the blocks                                                    */
  /* ---------------------------------------------------------------------- */

  /** `str::lines().count()`. */
  function LineCount(s: string): nat {
    |Lines(s)|
  }

  predicate Reshapes(b: Block) {
    LineCount(b.search) != LineCount(b.replace)
  }

  function Warning(b: Block): string {
    "Line count changed from " + NatToString(LineCount(b.search)) + " to " + NatToString(LineCount(b.replace))
  }

  /** One warning per block whose line count changes, in block order. */
  function Warnings(blocks: seq<Block>): seq<string>
    decreases |blocks|
  {
    if |blocks| == 0 then []
    else
      var last := blocks[|blocks| - 1];
      Warnings(blocks[..|blocks| - 1]) + (if Reshapes(last) then [Warning(last)] else [])
  }

  /** The search texts' line counts, summed. */
  function LinesChanged(blocks: seq<Block>): nat
    decreases |blocks|
  {
    if |blocks| == 0 then 0
    else LinesChanged(blocks[..|blocks| - 1]) + LineCount(blocks[|blocks| - 1].search)
  }

  /** There are no warnings exactly when no block changes its line count. */
  lemma {:induction false} WarningsNone(blocks: seq<Block>)
    ensures |Warnings(blocks)| == 0 <==> forall k :: 0 <= k < |blocks| ==> !Reshapes(blocks[k])
    decreases |blocks|
  {
    if |blocks| > 0 {
      var init := blocks[..|blocks| - 1];
      var last := blocks[|blocks| - 1];
      WarningsNone(init);
      assert Warnings(blocks) == Warnings(init) + (if Reshapes(last) then [Warning(last)] else []);
      assert forall k :: 0 <= k < |init| ==> init[k] == blocks[k];
    }
  }

  /** Each warning belongs to a block that changes its line count. */
  lemma {:induction false} WarningsFromReshapes(blocks: seq<Block>)
    ensures |Warnings(blocks)| <= |blocks|
    ensures forall w :: w in Warnings(blocks) ==> exists k :: 0 <= k < |blocks| && Reshapes(blocks[k]) && w == Warning(blocks[k])
    decreases |blocks|
  {
    if |blocks| > 0 {
      var init := blocks[..|blocks| - 1];
      WarningsFromReshapes(init);
      forall w | w in Warnings(blocks)
        ensures exists k :: 0 <= k < |blocks| && Reshapes(blocks[k]) && w == Warning(blocks[k])
      {
        if w in Warnings(init) {
          var k :| 0 <= k < |init| && Reshapes(init[k]) && w == Warning(init[k]);
          assert blocks[k] == init[k];
        } else {
          assert w == Warning(blocks[|blocks| - 1]);
        }
      }
    }
  }

  /** The edit each block amounts to. */
  function AsEdits(blocks: seq<Block>): (r: seq<TextEdits.Edit>)
    ensures |r| == |blocks|
  {
    seq(|blocks|, k requires 0 <= k < |blocks| => TextEdits.Edit(blocks[k].search, blocks[k].replace))
  }

  function NotInFile(search: string): string {
    "SEARCH block not found in file:\n" + search
  }

  /** The report `apply_blocks` returns; `content` shows the tool's input
      text, not the file. */
  function Report(path: string, blockCount: nat, linesChanged: nat, original: string, warnings: seq<string>): string {
    "file: " + path + "\nblocks_applied: " + NatToString(blockCount)
    + "\nlines_changed: " + NatToString(linesChanged)
    + "\ncontent:\n" + TrimEnd(original)
    + "\nwarnings: " + (if |warnings| == 0 then "none" else Join(warnings, "; ")) + "\n"
  }

  /** A successful application: the text to write and the report. */
  datatype Applied = Applied(content: string, report: string)

  lemma AsEditsPrefix(blocks: seq<Block>, i: nat)
    requires i < |blocks|
    ensures AsEdits(blocks[..i + 1]) == AsEdits(blocks[..i]) + [TextEdits.Edit(blocks[i].search, blocks[i].replace)]
  {
  }

  /** One more block in the loop of `apply_blocks`. */
  lemma ApplyStep(file: string, blocks: seq<Block>, i: nat, content: string)
    requires i < |blocks|
    requires TextEdits.ApplyEdits(file, AsEdits(blocks[..i])) == Success(content)
    ensures TextEdits.ApplyEdits(file, AsEdits(blocks[..i + 1])) ==
      match TextEdits.ReplaceFirst(content, blocks[i].search, blocks[i].replace)
      case None => Failure(TextEdits.NotFound(blocks[i].search))
      case Some(c) => Success(c)
  {
    var e := TextEdits.Edit(blocks[i].search, blocks[i].replace);
    AsEditsPrefix(blocks, i);
    TextEdits.ApplyEditsAppend(file, AsEdits(blocks[..i]), [e]);
    assert [e][1..] == [];
  }

  /** A block whose text is missing at its turn fails the whole list. */
  lemma MissingStops(file: string, blocks: seq<Block>, i: nat, content: string)
    requires i < |blocks|
    requires TextEdits.ApplyEdits(file, AsEdits(blocks[..i])) == Success(content)
    requires !Occurs(content, blocks[i].search)
    ensures TextEdits.ApplyEdits(file, AsEdits(blocks)).Failure?
  {
    ApplyStep(file, blocks, i, content);
    assert blocks == blocks[..i + 1] + blocks[i + 1..];
    assert AsEdits(blocks) == AsEdits(blocks[..i + 1]) + AsEdits(blocks[i + 1..]);
    TextEdits.ApplyEditsAppend(file, AsEdits(blocks[..i + 1]), AsEdits(blocks[i + 1..]));
  }

  /** A block whose text is present at its turn: the edits, the line total
      and the warnings each take one more step. */
  lemma NextStage(file: string, blocks: seq<Block>, i: nat, content: string)
    requires i < |blocks|
    requires TextEdits.ApplyEdits(file, AsEdits(blocks[..i])) == Success(content)
    requires Occurs(content, blocks[i].search)
    ensures TextEdits.ApplyEdits(file, AsEdits(blocks[..i + 1])) ==
      Success(TextEdits.ReplaceFirst(content, blocks[i].search, blocks[i].replace).value)
    ensures LinesChanged(blocks[..i + 1]) == LinesChanged(blocks[..i]) + LineCount(blocks[i].search)
    ensures Warnings(blocks[..i + 1]) ==
      Warnings(blocks[..i]) + (if Reshapes(blocks[i]) then [Warning(blocks[i])] else [])
  {
    ApplyStep(file, blocks, i, content);
    assert blocks[..i + 1][..i] == blocks[..i];
  }

  /**
   * `apply_blocks`: each block's search text must occur in the text as the
   * earlier blocks left it, and its first occurrence is replaced; the first
   * block whose text is missing stops everything with nothing written.
   * `write` is the outcome of writing the result back.
   */
  method ApplyBlocks(path: string, blocks: seq<Block>, original: string,
                     read: Result<string, string>, write: Option<string>)
    returns (r: Result<Applied, string>)
    ensures read.Failure? ==> r == Failure("Failed to read file: " + read.error)
    ensures read.Success? ==>
      (r.Success? <==> TextEdits.ApplyEdits(read.value, AsEdits(blocks)).Success? && write.None?)
    ensures read.Success? && r.Success? ==>
      r.value.content == TextEdits.ApplyEdits(read.value, AsEdits(blocks)).value &&
      r.value.report == Report(path, |blocks|, LinesChanged(blocks), original, Warnings(blocks))
    ensures read.Success? && TextEdits.ApplyEdits(read.value, AsEdits(blocks)).Success? && write.Some? ==>
      r == Failure("Failed to write file: " + write.value)
    ensures read.Success? && TextEdits.ApplyEdits(read.value, AsEdits(blocks)).Failure? ==>
      exists k :: 0 <= k < |blocks| &&
        TextEdits.ApplyEdits(read.value, AsEdits(blocks[..k])).Success? &&
        !Occurs(TextEdits.ApplyEdits(read.value, AsEdits(blocks[..k])).value, blocks[k].search) &&
        r == Failure(NotInFile(blocks[k].search))
  {
    if read.Failure? {
      return Failure("Failed to read file: " + read.error);
    }
    var content := read.value;
    var linesChanged := 0;
    var warnings := [];
    var i := 0;
    assert blocks[..0] == [];
    while i < |blocks|
      invariant 0 <= i <= |blocks|
      invariant TextEdits.ApplyEdits(read.value, AsEdits(blocks[..i])) == Success(content)
      invariant linesChanged == LinesChanged(blocks[..i])
      invariant warnings == Warnings(blocks[..i])
    {
      var b := blocks[i];
      if !Contains(content, b.search) {
        MissingStops(read.value, blocks, i, content);
        return Failure(NotInFile(b.search));
      }
      NextStage(read.value, blocks, i, content);
      var searchLines := LineCount(b.search);
      var replaceLines := LineCount(b.replace);
      if searchLines != replaceLines {
        warnings := warnings + [Warning(b)];
      }
      linesChanged := linesChanged + searchLines;
      content := TextEdits.ReplaceFirst(content, b.search, b.replace).value;
      i := i + 1;
    }
    assert blocks[..i] == blocks;
    if write.Some? {
      return Failure("Failed to write file: " + write.value);
    }
    r := Success(Applied(content, Report(path, |blocks|, linesChanged, original, warnings)));
  }

  /** `search_replace` once the tool input is decoded: parse, then apply. */
  method SearchReplace(path: string, input: string, read: Result<string, string>, write: Option<string>)
    returns (r: Result<Applied, ParseFault>)
    ensures ParseBlocks(input).Failure? ==> r == Failure(ParseBlocks(input).error)
    ensures r.Success? <==> (ParseBlocks(input).Success? && read.Success? && write.None? &&
      TextEdits.ApplyEdits(read.value, AsEdits(ParseBlocks(input).value)).Success?)
    ensures r.Success? ==>
      r.value.content == TextEdits.ApplyEdits(read.value, AsEdits(ParseBlocks(input).value)).value
  {
    var parsed := ParseBlocks(input);
    if parsed.Failure? {
      return Failure(parsed.error);
    }
    var applied := ApplyBlocks(path, parsed.value, input, read, write);
    if applied.Failure? {
      return Failure(Reported(applied.error));
    }
    r := Success(applied.value);
  }
}

=== FILE: streaming.dfy ===
/**
 * `ChatContext::parse_streaming_response` (src/openaiapi/mod.rs): folding a
 * streamed response body into one assistant message.
 *
 * The body is cut into lines; a line, once trimmed, carries a frame when it
 * is not empty, is not `[DONE]` and starts with `data: `. Decoding the JSON
 * of a frame is abstracted: `decode` stands for serde plus the lookups of
 * `choices[0].delta` and `choices[0].finish_reason`, and yields `Ignored` for
 * text that does not parse or has no first choice.
 *
 * The fold (`Fold`, the source's loop) is proved equal to a reference
 * definition that cuts the frames into segments, each ended by a frame whose
 * finish reason is `tool_calls` (`Calls`).
 */
module Streaming {
  import opened Wrappers
  import opened Strings
  import opened Messages

  /** One entry of `delta.tool_calls`: each key may be absent. */
  datatype ToolFragment = ToolFragment(
    id: Option<string>,
    toolType: Option<string>,
    name: Option<string>,
    arguments: Option<string>)

  /** A decoded `data: ` frame: the text delta, the tool-call fragments and
      the finish reason of the first choice. */
  datatype Frame =
    | Data(content: Option<string>, fragments: seq<ToolFragment>, finishReason: Option<string>)
    | Ignored

  const DataPrefix: string := "data: "
  const DoneMarker: string := "[DONE]"
  const ToolCallsReason: string := "tool_calls"
  const TooManyCalls: string := "Tool calls cannot be more than one!"

  /* ---------------------------------------------------------------------- */
  /* From body text to frames                                               */
  /* ---------------------------------------------------------------------- */

  /** The JSON text a body line carries, if it is a frame line. */
  function FramePayload(line: string): (r: Option<string>)
    ensures r.Some? <==> var t := Trim(line); t != "" && t != DoneMarker && StartsWith(t, DataPrefix)
    ensures r.Some? ==> Trim(line) == DataPrefix + r.value
  {
    var t := Trim(line);
    if t != "" && t != DoneMarker && StartsWith(t, DataPrefix) then
      assert t == t[..|DataPrefix|] + t[|DataPrefix|..];
      Some(t[|DataPrefix|..])
    else None
  }

  /** One frame per body line; lines that carry no frame are `Ignored`. */
  function BodyFrames(body: string, decode: string -> Frame): seq<Frame> {
    var lines := Lines(body);
    seq(|lines|, i requires 0 <= i < |lines| =>
      match FramePayload(lines[i])
      case Some(p) => decode(p)
      case None => Ignored)
  }

  /** A body is treated as streamed when it contains both `data: ` and `[DONE]`. */
  function IsStreamingBody(body: string): bool {
    Contains(body, DataPrefix) && Contains(body, DoneMarker)
  }

  /* ---------------------------------------------------------------------- */
  /* Reference definition                                                   */
  /* ---------------------------------------------------------------------- */

  /** The frame finalises a tool call. */
  predicate Finishes(f: Frame) {
    f.Data? && f.finishReason == Some(ToolCallsReason)
  }

  function TextOf(f: Frame): string {
    if f.Data? && f.content.Some? then f.content.value else ""
  }

  /** All text deltas, in frame order. */
  function Texts(frames: seq<Frame>): string
    decreases |frames|
  {
    if |frames| == 0 then "" else TextOf(frames[0]) + Texts(frames[1..])
  }

  datatype Field = IdField | TypeField | NameField

  function FieldOf(t: ToolFragment, fld: Field): Option<string> {
    match fld
    case IdField => t.id
    case TypeField => t.toolType
    case NameField => t.name
  }

  function FragmentWrites(ts: seq<ToolFragment>, fld: Field): seq<Option<string>>
    decreases |ts|
  {
    if |ts| == 0 then [] else [FieldOf(ts[0], fld)] + FragmentWrites(ts[1..], fld)
  }

  function FragmentArgs(ts: seq<ToolFragment>): string
    decreases |ts|
  {
    if |ts| == 0 then "" else ts[0].arguments.GetOr("") + FragmentArgs(ts[1..])
  }

  function FrameWrites(f: Frame, fld: Field): seq<Option<string>> {
    if f.Data? then FragmentWrites(f.fragments, fld) else []
  }

  function FrameArgs(f: Frame): string {
    if f.Data? then FragmentArgs(f.fragments) else ""
  }

  /** Every value written to one field, in frame order (absent keys as `None`). */
  function Writes(frames: seq<Frame>, fld: Field): seq<Option<string>>
    decreases |frames|
  {
    if |frames| == 0 then [] else FrameWrites(frames[0], fld) + Writes(frames[1..], fld)
  }

  /** All argument fragments, concatenated in frame order. */
  function ArgsOf(frames: seq<Frame>): string
    decreases |frames|
  {
    if |frames| == 0 then "" else FrameArgs(frames[0]) + ArgsOf(frames[1..])
  }

  /** Last-writer-wins register: the last value written, or `d` when none was. */
  function LastWrite(d: string, ws: seq<Option<string>>): string
    decreases |ws|
  {
    if |ws| == 0 then d else LastWrite(if ws[0].Some? then ws[0].value else d, ws[1..])
  }

  /** The register holds the last value written after all writes, or its
      initial value when nothing was written. */
  lemma {:induction false} LastWriteIsLast(d: string, ws: seq<Option<string>>)
    ensures (forall i :: 0 <= i < |ws| ==> ws[i].None?) ==> LastWrite(d, ws) == d
    ensures forall i :: 0 <= i < |ws| && ws[i].Some? && (forall j :: i < j < |ws| ==> ws[j].None?) ==>
      LastWrite(d, ws) == ws[i].value
    decreases |ws|
  {
    if |ws| > 0 {
      LastWriteIsLast(if ws[0].Some? then ws[0].value else d, ws[1..]);
      assert forall i :: 1 <= i < |ws| ==> ws[i] == ws[1..][i - 1];
    }
  }

  /** The tool call a segment of frames assembles. */
  function Assemble(segment: seq<Frame>): ToolCall {
    ToolCall(
      LastWrite("", Writes(segment, IdField)),
      LastWrite("", Writes(segment, TypeField)),
      FunctionCall(LastWrite("", Writes(segment, NameField)), ArgsOf(segment)))
  }

  /** The index of the first frame that finalises a tool call. */
  function FirstFinish(frames: seq<Frame>): (r: Option<nat>)
    decreases |frames|
    ensures r.Some? ==> r.value < |frames|
  {
    if |frames| == 0 then None
    else if Finishes(frames[0]) then Some(0)
    else match FirstFinish(frames[1..])
      case None => None
      case Some(k) => Some(k + 1)
  }

  /** `FirstFinish` finds the first finalising frame, or reports there is none. */
  lemma {:induction false} FirstFinishSpec(frames: seq<Frame>)
    ensures FirstFinish(frames).Some? ==> Finishes(frames[FirstFinish(frames).value])
    ensures FirstFinish(frames).Some? ==> forall i :: 0 <= i < FirstFinish(frames).value ==> !Finishes(frames[i])
    ensures FirstFinish(frames).None? <==> forall i :: 0 <= i < |frames| ==> !Finishes(frames[i])
    decreases |frames|
  {
    if |frames| > 0 && !Finishes(frames[0]) {
      FirstFinishSpec(frames[1..]);
      assert forall i :: 1 <= i < |frames| ==> frames[i] == frames[1..][i - 1];
    }
  }

  /**
   * Reference: cut the frames after every finalising frame; every complete
   * segment assembles one tool call; a trailing segment that is never
   * finalised contributes nothing.
   */
  function Segments(frames: seq<Frame>): seq<seq<Frame>>
    decreases |frames|
  {
    match FirstFinish(frames)
    case None => []
    case Some(k) => [frames[..k + 1]] + Segments(frames[k + 1..])
  }

  function AssembleAll(segments: seq<seq<Frame>>): (r: seq<ToolCall>)
    decreases |segments|
  {
    if |segments| == 0 then [] else [Assemble(segments[0])] + AssembleAll(segments[1..])
  }

  function Calls(frames: seq<Frame>): seq<ToolCall> {
    AssembleAll(Segments(frames))
  }

  /** The number of frames that finalise a tool call. */
  function FinishCount(frames: seq<Frame>): nat
    decreases |frames|
  {
    if |frames| == 0 then 0
    else (if Finishes(frames[0]) then 1 else 0) + FinishCount(frames[1..])
  }

  /* ---------------------------------------------------------------------- */
  /* The source's loop                                                      */
  /* ---------------------------------------------------------------------- */

  /** The loop's local variables: the text so far, the finalised calls and the
      tool call being accumulated. */
  datatype Accumulator = Accumulator(
    text: string,
    calls: seq<ToolCall>,
    id: string,
    toolType: string,
    name: string,
    arguments: string)

  const Start: Accumulator := Accumulator("", [], "", "", "", "")

  /** Merge one tool-call fragment: id, type and name are overwritten when
      present, argument text is appended. */
  function MergeFragment(a: Accumulator, t: ToolFragment): Accumulator {
    a.(id := t.id.GetOr(a.id),
       toolType := t.toolType.GetOr(a.toolType),
       name := t.name.GetOr(a.name),
       arguments := a.arguments + t.arguments.GetOr(""))
  }

  function MergeFragments(a: Accumulator, ts: seq<ToolFragment>): Accumulator
    decreases |ts|
  {
    if |ts| == 0 then a else MergeFragments(MergeFragment(a, ts[0]), ts[1..])
  }

  /** One iteration of the loop over the body's lines. */
  function StepFrame(a: Accumulator, f: Frame): Accumulator {
    match f
    case Ignored => a
    case Data(content, fragments, finishReason) =>
      var withText := a.(text := a.text + content.GetOr(""));
      var merged := MergeFragments(withText, fragments);
      if finishReason == Some(ToolCallsReason) then
        var call := ToolCall(merged.id, merged.toolType, FunctionCall(merged.name, merged.arguments));
        merged.(calls := merged.calls + [call], id := "", toolType := "", name := "", arguments := "")
      else merged
  }

  /** The loop over all frames, in order. */
  function Fold(frames: seq<Frame>): Accumulator
    decreases |frames|
  {
    if |frames| == 0 then Start
    else StepFrame(Fold(frames[..|frames| - 1]), frames[|frames| - 1])
  }

  /**
   * `parse_streaming_response`: role `assistant`; content is the text deltas
   * concatenated, or absent when that is empty; tool calls are those of the
   * reference definition, or absent when there are none. More than one
   * finalised call makes the source panic; here it is the error outcome.
   */
  function ParseStreamingResponse(frames: seq<Frame>): (r: Result<Message, string>)
    ensures r.Success? <==> FinishCount(frames) <= 1
    ensures r.Failure? ==> r.error == TooManyCalls
    ensures r.Success? ==> r.value.role == "assistant" && r.value.name.None? && r.value.toolCallId.None?
    ensures r.Success? ==> r.value.content == if Texts(frames) == "" then None else Some(Simple(Texts(frames)))
    ensures r.Success? ==> r.value.toolCalls == if Calls(frames) == [] then None else Some(Calls(frames))
  {
    FoldMatchesReference(frames);
    CallsCount(frames);
    var a := Fold(frames);
    if |a.calls| > 1 then Failure(TooManyCalls)
    else
      Success(Message(
        "assistant",
        if |a.text| > 0 then Some(Simple(a.text)) else None,
        None,
        None,
        if |a.calls| > 0 then Some(a.calls) else None))
  }

  /** The whole path from a streamed body to the reconstructed message. */
  function ParseStreamingBody(body: string, decode: string -> Frame): Result<Message, string> {
    ParseStreamingResponse(BodyFrames(body, decode))
  }

  /* ---------------------------------------------------------------------- */
  /* Proof that the loop computes the reference                             */
  /* ---------------------------------------------------------------------- */

  /** Where the segment still being accumulated starts: just after the last
      finalising frame. */
  function SegmentStart(frames: seq<Frame>): (j: nat)
    decreases |frames|
    ensures j <= |frames|
    ensures j == 0 || Finishes(frames[j - 1])
    ensures forall i :: j <= i < |frames| ==> !Finishes(frames[i])
  {
    if |frames| == 0 then 0
    else if Finishes(frames[|frames| - 1]) then |frames|
    else SegmentStart(frames[..|frames| - 1])
  }

  lemma {:induction false} TextsSnoc(frames: seq<Frame>, f: Frame)
    ensures Texts(frames + [f]) == Texts(frames) + TextOf(f)
    decreases |frames|
  {
    if |frames| == 0 {
      assert frames + [f] == [f];
    } else {
      assert (frames + [f])[1..] == frames[1..] + [f];
      TextsSnoc(frames[1..], f);
    }
  }

  lemma {:induction false} WritesSnoc(frames: seq<Frame>, f: Frame, fld: Field)
    ensures Writes(frames + [f], fld) == Writes(frames, fld) + FrameWrites(f, fld)
    decreases |frames|
  {
    if |frames| == 0 {
      assert frames + [f] == [f];
    } else {
      var rest := frames[1..];
      assert (frames + [f])[0] == frames[0];
      assert (frames + [f])[1..] == rest + [f];
      WritesSnoc(rest, f, fld);
      var head, tail, last := FrameWrites(frames[0], fld), Writes(rest, fld), FrameWrites(f, fld);
      calc {
        Writes(frames + [f], fld);
        head + Writes(rest + [f], fld);
        head + (tail + last);
        (head + tail) + last;
        Writes(frames, fld) + last;
      }
    }
  }

  lemma {:induction false} ArgsSnoc(frames: seq<Frame>, f: Frame)
    ensures ArgsOf(frames + [f]) == ArgsOf(frames) + FrameArgs(f)
    decreases |frames|
  {
    if |frames| == 0 {
      assert frames + [f] == [f];
    } else {
      assert (frames + [f])[1..] == frames[1..] + [f];
      ArgsSnoc(frames[1..], f);
    }
  }

  lemma {:induction false} LastWriteAppend(d: string, xs: seq<Option<string>>, ys: seq<Option<string>>)
    ensures LastWrite(d, xs + ys) == LastWrite(LastWrite(d, xs), ys)
    decreases |xs|
  {
    if |xs| == 0 {
      assert xs + ys == ys;
    } else {
      assert (xs + ys)[1..] == xs[1..] + ys;
      LastWriteAppend(if xs[0].Some? then xs[0].value else d, xs[1..], ys);
    }
  }

  /** Merging fragments in order overwrites each field with its last written
      value and appends all argument text. */
  lemma {:induction false} MergeFragmentsEffect(a: Accumulator, ts: seq<ToolFragment>)
    ensures MergeFragments(a, ts) == a.(
      id := LastWrite(a.id, FragmentWrites(ts, IdField)),
      toolType := LastWrite(a.toolType, FragmentWrites(ts, TypeField)),
      name := LastWrite(a.name, FragmentWrites(ts, NameField)),
      arguments := a.arguments + FragmentArgs(ts))
    decreases |ts|
  {
    if |ts| > 0 {
      MergeFragmentsEffect(MergeFragment(a, ts[0]), ts[1..]);
    }
  }

  lemma {:induction false} FirstFinishIs(frames: seq<Frame>, k: nat)
    requires k < |frames| && Finishes(frames[k])
    requires forall i :: 0 <= i < k ==> !Finishes(frames[i])
    ensures FirstFinish(frames) == Some(k)
    decreases k
  {
    if k > 0 {
      assert !Finishes(frames[0]);
      assert frames[1..][k - 1] == frames[k];
      FirstFinishIs(frames[1..], k - 1);
    }
  }

  /** Segments of a prefix that ends with a finalising frame, and of what
      follows, concatenate. */
  lemma {:induction false} SegmentsSplit(p: seq<Frame>, s: seq<Frame>)
    requires |p| == 0 || Finishes(p[|p| - 1])
    ensures Segments(p + s) == Segments(p) + Segments(s)
    decreases |p|
  {
    if |p| == 0 {
      assert p + s == s;
    } else {
      FirstFinishSpec(p);
      var k := FirstFinish(p).value;
      assert (p + s)[k] == p[k];
      FirstFinishIs(p + s, k);
      assert (p + s)[..k + 1] == p[..k + 1];
      assert (p + s)[k + 1..] == p[k + 1..] + s;
      SegmentsSplit(p[k + 1..], s);
    }
  }

  lemma {:induction false} AssembleAllAppend(a: seq<seq<Frame>>, b: seq<seq<Frame>>)
    ensures AssembleAll(a + b) == AssembleAll(a) + AssembleAll(b)
    ensures |AssembleAll(a)| == |a|
    decreases |a|
  {
    if |a| == 0 {
      assert a + b == b;
    } else {
      assert (a + b)[1..] == a[1..] + b;
      AssembleAllAppend(a[1..], b);
    }
  }

  lemma CallsSplit(p: seq<Frame>, s: seq<Frame>)
    requires |p| == 0 || Finishes(p[|p| - 1])
    ensures Calls(p + s) == Calls(p) + Calls(s)
  {
    SegmentsSplit(p, s);
    AssembleAllAppend(Segments(p), Segments(s));
  }

  lemma CallsUnfinished(s: seq<Frame>)
    requires forall i :: 0 <= i < |s| ==> !Finishes(s[i])
    ensures Calls(s) == []
  {
    FirstFinishSpec(s);
  }

  /** A segment whose only finalising frame is its last assembles one call. */
  lemma CallsOneSegment(s: seq<Frame>)
    requires |s| > 0 && FirstFinish(s) == Some(|s| - 1)
    ensures Calls(s) == [Assemble(s)]
  {
    SegmentsOne(s);
    AssembleOne(s);
  }

  lemma SegmentsOne(s: seq<Frame>)
    requires |s| > 0 && FirstFinish(s) == Some(|s| - 1)
    ensures Segments(s) == [s]
  {
    var rest := s[|s|..];
    assert s[..|s|] == s;
    assert Segments(s) == [s] + Segments(rest);
    assert rest == [];
    assert FirstFinish(rest) == None;
    assert Segments(rest) == [];
    assert [s] + [] == [s];
  }

  lemma AssembleOne(s: seq<Frame>)
    ensures AssembleAll([s]) == [Assemble(s)]
  {
    assert [s][1..] == [];
  }

  /** What the loop's state should be after `frames`: the text so far, the
      calls of the completed segments, and the open segment's fields. */
  function Expected(frames: seq<Frame>): Accumulator {
    var j := SegmentStart(frames);
    var open := frames[j..];
    Accumulator(
      Texts(frames),
      Calls(frames[..j]),
      LastWrite("", Writes(open, IdField)),
      LastWrite("", Writes(open, TypeField)),
      LastWrite("", Writes(open, NameField)),
      ArgsOf(open))
  }

  lemma SegmentStartSnoc(pre: seq<Frame>, f: Frame)
    ensures SegmentStart(pre + [f]) == if Finishes(f) then |pre| + 1 else SegmentStart(pre)
  {
    assert (pre + [f])[..|pre|] == pre;
  }

  /** The open segment's fields after one more frame that does not finalise. */
  lemma {:induction false} StepOpen(open: seq<Frame>, a: Accumulator, f: Frame)
    requires a.id == LastWrite("", Writes(open, IdField))
    requires a.toolType == LastWrite("", Writes(open, TypeField))
    requires a.name == LastWrite("", Writes(open, NameField))
    requires a.arguments == ArgsOf(open)
    requires !Finishes(f)
    ensures StepFrame(a, f).id == LastWrite("", Writes(open + [f], IdField))
    ensures StepFrame(a, f).toolType == LastWrite("", Writes(open + [f], TypeField))
    ensures StepFrame(a, f).name == LastWrite("", Writes(open + [f], NameField))
    ensures StepFrame(a, f).arguments == ArgsOf(open + [f])
    ensures StepFrame(a, f).calls == a.calls
  {
    WritesSnoc(open, f, IdField);
    WritesSnoc(open, f, TypeField);
    WritesSnoc(open, f, NameField);
    ArgsSnoc(open, f);
    match f
    case Ignored =>
      assert Writes(open + [f], IdField) == Writes(open, IdField);
      assert Writes(open + [f], TypeField) == Writes(open, TypeField);
      assert Writes(open + [f], NameField) == Writes(open, NameField);
    case Data(content, fragments, finishReason) =>
      var withText := a.(text := a.text + content.GetOr(""));
      MergeFragmentsEffect(withText, fragments);
      LastWriteAppend("", Writes(open, IdField), FrameWrites(f, IdField));
      LastWriteAppend("", Writes(open, TypeField), FrameWrites(f, TypeField));
      LastWriteAppend("", Writes(open, NameField), FrameWrites(f, NameField));
  }

  /** A finalising frame closes the open segment into one more call and
      clears the fields. */
  lemma {:induction false} StepClose(open: seq<Frame>, a: Accumulator, f: Frame)
    requires a.id == LastWrite("", Writes(open, IdField))
    requires a.toolType == LastWrite("", Writes(open, TypeField))
    requires a.name == LastWrite("", Writes(open, NameField))
    requires a.arguments == ArgsOf(open)
    requires Finishes(f)
    ensures StepFrame(a, f).calls == a.calls + [Assemble(open + [f])]
    ensures StepFrame(a, f).id == "" && StepFrame(a, f).toolType == ""
    ensures StepFrame(a, f).name == "" && StepFrame(a, f).arguments == ""
  {
    WritesSnoc(open, f, IdField);
    WritesSnoc(open, f, TypeField);
    WritesSnoc(open, f, NameField);
    ArgsSnoc(open, f);
    var withText := a.(text := a.text + f.content.GetOr(""));
    MergeFragmentsEffect(withText, f.fragments);
    LastWriteAppend("", Writes(open, IdField), FrameWrites(f, IdField));
    LastWriteAppend("", Writes(open, TypeField), FrameWrites(f, TypeField));
    LastWriteAppend("", Writes(open, NameField), FrameWrites(f, NameField));
  }

  lemma StepText(a: Accumulator, f: Frame)
    ensures StepFrame(a, f).text == a.text + TextOf(f)
  {
    match f
    case Ignored =>
    case Data(content, fragments, finishReason) =>
      var withText := a.(text := a.text + content.GetOr(""));
      MergeFragmentsEffect(withText, fragments);
  }

  /** A finalising frame appends the open segment's call to the calls of
      the completed segments. */
  lemma CallsAfterClose(pre: seq<Frame>, f: Frame)
    requires Finishes(f)
    ensures Calls(pre + [f]) == Calls(pre[..SegmentStart(pre)]) + [Assemble(pre[SegmentStart(pre)..] + [f])]
  {
    var j := SegmentStart(pre);
    var open := pre[j..];
    assert pre + [f] == pre[..j] + (open + [f]);
    CallsSplit(pre[..j], open + [f]);
    OpenSegmentCloses(pre, f);
    CallsOneSegment(open + [f]);
  }

  /** The frames after the last finish, closed by a finishing frame, form
      one segment ending at that frame. */
  lemma OpenSegmentCloses(pre: seq<Frame>, f: Frame)
    requires Finishes(f)
    ensures var open := pre[SegmentStart(pre)..];
      |open + [f]| > 0 && FirstFinish(open + [f]) == Some(|open + [f]| - 1)
  {
    var j := SegmentStart(pre);
    var open := pre[j..];
    forall i | 0 <= i < |open|
      ensures !Finishes((open + [f])[i])
    {
      assert (open + [f])[i] == pre[j + i];
    }
    FirstFinishIs(open + [f], |open|);
  }

  lemma StepExpectedClose(pre: seq<Frame>, f: Frame)
    requires Finishes(f)
    ensures StepFrame(Expected(pre), f) == Expected(pre + [f])
  {
    var frames := pre + [f];
    var a := Expected(pre);
    var j := SegmentStart(pre);
    assert SegmentStart(frames) == |frames| by {
      SegmentStartSnoc(pre, f);
    }
    assert StepFrame(a, f).text == Texts(frames) by {
      TextsSnoc(pre, f);
      StepText(a, f);
    }
    assert StepFrame(a, f).calls == Calls(frames[..|frames|]) by {
      StepClose(pre[j..], a, f);
      CallsAfterClose(pre, f);
      assert frames[..|frames|] == frames;
    }
    StepClose(pre[j..], a, f);
    assert frames[|frames|..] == [];
  }

  lemma StepExpectedOpen(pre: seq<Frame>, f: Frame)
    requires !Finishes(f)
    ensures StepFrame(Expected(pre), f) == Expected(pre + [f])
  {
    var frames := pre + [f];
    var a := Expected(pre);
    var j := SegmentStart(pre);
    assert SegmentStart(frames) == j by {
      SegmentStartSnoc(pre, f);
    }
    assert StepFrame(a, f).text == Texts(frames) by {
      TextsSnoc(pre, f);
      StepText(a, f);
    }
    assert frames[j..] == pre[j..] + [f];
    assert frames[..j] == pre[..j];
    StepOpen(pre[j..], a, f);
  }

  /** One iteration of the loop keeps its state equal to the expected one. */
  lemma StepExpected(pre: seq<Frame>, f: Frame)
    ensures StepFrame(Expected(pre), f) == Expected(pre + [f])
  {
    if Finishes(f) {
      StepExpectedClose(pre, f);
    } else {
      StepExpectedOpen(pre, f);
    }
  }

  /** The loop's state after any prefix of the frames is the expected one. */
  lemma {:induction false} FoldInvariant(frames: seq<Frame>)
    ensures Fold(frames) == Expected(frames)
    decreases |frames|
  {
    if |frames| == 0 {
      assert frames[..0] == [] && frames[0..] == [];
    } else {
      var pre := frames[..|frames| - 1];
      assert frames == pre + [frames[|frames| - 1]];
      FoldInvariant(pre);
      StepExpected(pre, frames[|frames| - 1]);
    }
  }

  /** The loop computes the reference definition. */
  lemma FoldMatchesReference(frames: seq<Frame>)
    ensures Fold(frames).text == Texts(frames)
    ensures Fold(frames).calls == Calls(frames)
  {
    FoldInvariant(frames);
    CallsDropOpen(frames);
  }

  /** The segment still open at the end contributes no call. */
  lemma CallsDropOpen(frames: seq<Frame>)
    ensures Calls(frames) == Calls(frames[..SegmentStart(frames)])
  {
    var j := SegmentStart(frames);
    assert frames == frames[..j] + frames[j..];
    CallsSplit(frames[..j], frames[j..]);
    CallsUnfinished(frames[j..]);
  }

  lemma {:induction false} FinishCountAppend(a: seq<Frame>, b: seq<Frame>)
    ensures FinishCount(a + b) == FinishCount(a) + FinishCount(b)
    decreases |a|
  {
    if |a| == 0 {
      assert a + b == b;
    } else {
      assert (a + b)[1..] == a[1..] + b;
      FinishCountAppend(a[1..], b);
    }
  }

  lemma {:induction false} FinishCountNone(s: seq<Frame>)
    requires forall i :: 0 <= i < |s| ==> !Finishes(s[i])
    ensures FinishCount(s) == 0
    decreases |s|
  {
    if |s| > 0 {
      FinishCountNone(s[1..]);
    }
  }

  /** Every finalising frame produces exactly one tool call. */
  lemma {:induction false} SegmentsCount(frames: seq<Frame>)
    ensures |Segments(frames)| == FinishCount(frames)
    decreases |frames|
  {
    FirstFinishSpec(frames);
    match FirstFinish(frames)
    case None =>
      FinishCountNone(frames);
    case Some(k) =>
      var seg := frames[..k + 1];
      assert frames == seg + frames[k + 1..];
      FinishCountAppend(seg, frames[k + 1..]);
      assert seg == seg[..k] + [frames[k]];
      FinishCountAppend(seg[..k], [frames[k]]);
      FinishCountNone(seg[..k]);
      SegmentsCount(frames[k + 1..]);
  }

  lemma CallsCount(frames: seq<Frame>)
    ensures |Calls(frames)| == FinishCount(frames)
  {
    SegmentsCount(frames);
    AssembleAllAppend(Segments(frames), []);
  }
}

=== FILE: strings.dfy ===
/**
 * The string primitives the repository relies on from Rust's standard
 * library, over `string` = `seq<char>`: `find`, `contains`, `split`, `join`,
 * `lines`, `trim`, integer formatting and `usize` parsing, and `{:>N}`
 * right alignment, and `len` as a count of UTF-8 bytes. Elsewhere strings
 * are taken to be ASCII where the source measures them in bytes.
 */
module Strings {
  import opened Wrappers

  /* ---------------------------------------------------------------------- */
  /* Searching                                                              */
  /* ---------------------------------------------------------------------- */

  /** `pat` occurs in `s` starting at index `i`. */
  predicate OccursAt(s: string, pat: string, i: nat) {
    i + |pat| <= |s| && s[i..i + |pat|] == pat
  }

  /** `pat` occurs somewhere in `s`. */
  predicate Occurs(s: string, pat: string) {
    exists i: nat | i <= |s| :: OccursAt(s, pat, i)
  }

  /** `i` is where the first occurrence of `pat` in `s` starts. */
  predicate FirstOccurrence(s: string, pat: string, i: nat) {
    OccursAt(s, pat, i) && forall j: nat :: j < i ==> !OccursAt(s, pat, j)
  }

  function FindFrom(s: string, pat: string, from: nat): (r: Option<nat>)
    decreases |s| - from
    ensures r.Some? ==> from <= r.value && OccursAt(s, pat, r.value)
    ensures r.Some? ==> forall j: nat :: from <= j < r.value ==> !OccursAt(s, pat, j)
    ensures r.None? ==> forall j: nat :: from <= j ==> !OccursAt(s, pat, j)
  {
    if from + |pat| > |s| then None
    else if s[from..from + |pat|] == pat then Some(from)
    else FindFrom(s, pat, from + 1)
  }

  /** `str::find`: where the first occurrence of `pat` starts, if any. */
  function Find(s: string, pat: string): (r: Option<nat>)
    ensures r.Some? <==> Occurs(s, pat)
    ensures r.Some? ==> FirstOccurrence(s, pat, r.value)
  {
    FindFrom(s, pat, 0)
  }

  /** `str::contains`. */
  function Contains(s: string, pat: string): bool {
    Find(s, pat).Some?
  }

  /** A one-character pattern occurs exactly where that character is. */
  lemma CharOccurs(s: string, c: char)
    ensures forall i: nat :: OccursAt(s, [c], i) <==> i < |s| && s[i] == c
  {
    forall i: nat | i < |s|
      ensures OccursAt(s, [c], i) <==> s[i] == c
    {
      assert s[i..i + 1] == [s[i]];
    }
  }

  /** The first occurrence of a character is found where it first appears. */
  lemma FindCharAt(s: string, c: char, i: nat)
    requires i < |s| && s[i] == c && c !in s[..i]
    ensures Find(s, [c]) == Some(i)
  {
    CharOccurs(s, c);
    assert OccursAt(s, [c], i);
    forall j: nat | j < i
      ensures !OccursAt(s, [c], j)
    {
      assert s[j] == s[..i][j];
    }
  }

  /** A pattern starting at `|x|` in `x + y` is found there when its first
      character does not appear in `x`. */
  lemma FindAfterFreePrefix(x: string, y: string, pat: string)
    requires |pat| > 0 && pat[0] !in x
    requires |pat| <= |y| && y[..|pat|] == pat
    ensures Find(x + y, pat) == Some(|x|)
  {
    var s := x + y;
    assert s[|x|..|x| + |pat|] == y[..|pat|];
    assert OccursAt(s, pat, |x|);
    forall j: nat | j < |x|
      ensures !OccursAt(s, pat, j)
    {
      assert s[j] == x[j];
      if j + |pat| <= |s| {
        assert s[j..j + |pat|][0] == s[j];
      }
    }
  }

  /** A pattern whose first character is absent from `s` is not found. */
  lemma FindWithoutFirstChar(s: string, pat: string)
    requires |pat| > 0 && pat[0] !in s
    ensures Find(s, pat) == None
  {
    forall j: nat | j + |pat| <= |s|
      ensures !OccursAt(s, pat, j)
    {
      assert s[j..j + |pat|][0] == s[j];
    }
  }

  /** `Find` answers the first occurrence. */
  lemma FindFirst(s: string, pat: string, i: nat)
    requires FirstOccurrence(s, pat, i)
    ensures Find(s, pat) == Some(i)
  {
    assert i <= |s| && OccursAt(s, pat, i);
  }

  /** Text appended after the first occurrence does not move it. */
  lemma FindInPrefix(x: string, z: string, pat: string)
    requires Find(x, pat).Some?
    ensures Find(x + z, pat) == Find(x, pat)
  {
    var s := x + z;
    var i := Find(x, pat).value;
    assert s[i..i + |pat|] == x[i..i + |pat|];
    forall j: nat | j < i
      ensures !OccursAt(s, pat, j)
    {
      assert j + |pat| <= |x|;
      assert s[j..j + |pat|] == x[j..j + |pat|];
      assert !OccursAt(x, pat, j);
    }
    FindFirst(s, pat, i);
  }

  /** Text put before the string, holding no first character of `pat`,
      moves the first occurrence by its length. */
  lemma FindShift(x: string, y: string, pat: string, i: nat)
    requires |pat| > 0 && pat[0] !in x && Find(y, pat) == Some(i)
    ensures Find(x + y, pat) == Some(|x| + i)
  {
    var s := x + y;
    assert s[|x| + i..|x| + i + |pat|] == y[i..i + |pat|];
    forall j: nat | j < |x| + i
      ensures !OccursAt(s, pat, j)
    {
      if j < |x| {
        assert s[j] == x[j];
        if j + |pat| <= |s| {
          assert s[j..j + |pat|][0] == s[j];
        }
      } else if j + |pat| <= |s| {
        assert s[j..j + |pat|] == y[j - |x|..j - |x| + |pat|];
        assert !OccursAt(y, pat, j - |x|);
      }
    }
    FindFirst(s, pat, |x| + i);
  }

  /** The first occurrence in `y` seen through text before and after it. */
  lemma FindWithin(s: string, x: string, y: string, z: string, pat: string, i: nat, k: nat)
    requires s == x + (y + z) && k == |x| + i
    requires |pat| > 0 && pat[0] !in x && Find(y, pat) == Some(i)
    ensures Find(s, pat) == Some(k)
  {
    FindInPrefix(y, z, pat);
    FindShift(x, y + z, pat, i);
  }

  lemma SliceOfSlice(s: string, a: nat, c: nat, j: nat, n: nat)
    requires a <= c <= |s| && j + n <= c - a
    ensures s[a..c][j..j + n] == s[a + j..a + j + n]
  {
    var lhs := s[a..c][j..j + n];
    var rhs := s[a + j..a + j + n];
    assert forall q :: 0 <= q < n ==> lhs[q] == rhs[q];
  }

  /** A slice around the first occurrence, starting at or before it, finds
      it at the same place counted from the slice's start. */
  lemma FindInSlice(s: string, pat: string, k: nat, a: nat, c: nat)
    requires Find(s, pat) == Some(k) && a <= k && k + |pat| <= c <= |s|
    ensures Find(s[a..c], pat) == Some(k - a)
  {
    var t := s[a..c];
    SliceOfSlice(s, a, c, k - a, |pat|);
    forall j: nat | j < k - a
      ensures !OccursAt(t, pat, j)
    {
      if j + |pat| <= |t| {
        SliceOfSlice(s, a, c, j, |pat|);
        assert !OccursAt(s, pat, a + j);
      }
    }
    FindFirst(t, pat, k - a);
  }

  /** Concatenation groups either way. */
  lemma AppendAssoc(a: string, b: string, c: string)
    ensures (a + b) + c == a + (b + c)
  {
  }

  /** A non-empty sequence is its head followed by its tail. */
  lemma HeadTail<T>(s: seq<T>)
    requires |s| > 0
    ensures [s[0]] + s[1..] == s
  {
  }

  /** An occurrence starts with the pattern's first character. */
  lemma OccursFirstChar(s: string, pat: string, k: nat)
    requires OccursAt(s, pat, k) && |pat| > 0
    ensures k < |s| && s[k] == pat[0]
  {
    assert s[k..k + |pat|][0] == s[k];
  }

  /** An occurrence survives putting text before or after the string. */
  lemma OccursWithin(a: string, s: string, b: string, pat: string, k: nat)
    requires OccursAt(s, pat, k)
    ensures OccursAt(a + s + b, pat, |a| + k)
    ensures Occurs(a + s + b, pat)
  {
    assert (a + s + b)[|a| + k..|a| + k + |pat|] == s[k..k + |pat|];
    assert |a| + k <= |a + s + b| && OccursAt(a + s + b, pat, |a| + k);
  }

  /* ---------------------------------------------------------------------- */
  /* Splitting and joining                                                  */
  /* ---------------------------------------------------------------------- */

  /** `str::split(c)`: the pieces between the occurrences of `c`. */
  function Split(s: string, c: char): (r: seq<string>)
    decreases |s|
    ensures |r| >= 1
    ensures forall k :: 0 <= k < |r| ==> c !in r[k]
  {
    CharOccurs(s, c);
    match Find(s, [c])
    case None => [s]
    case Some(i) => [s[..i]] + Split(s[i + 1..], c)
  }

  /** `[String]::join(sep)`. */
  function Join(parts: seq<string>, sep: string): string
    decreases |parts|
  {
    if |parts| == 0 then ""
    else if |parts| == 1 then parts[0]
    else parts[0] + sep + Join(parts[1..], sep)
  }

  /** Joining the pieces of a split with the separator gives the string back. */
  lemma {:induction false} JoinSplit(s: string, c: char)
    ensures Join(Split(s, c), [c]) == s
    decreases |s|
  {
    match Find(s, [c])
    case None =>
    case Some(i) =>
      var head := s[..i];
      var tail := s[i + 1..];
      var rest := Split(tail, c);
      JoinSplit(tail, c);
      assert Split(s, c) == [head] + rest;
      JoinCons(head, rest, [c]);
      assert s[i..i + 1][0] == s[i] == c;
      assert s == head + [c] + tail;
  }

  /** Joining a first piece in front of at least one more. */
  lemma JoinCons(head: string, rest: seq<string>, sep: string)
    requires |rest| >= 1
    ensures Join([head] + rest, sep) == head + sep + Join(rest, sep)
  {
    assert ([head] + rest)[1..] == rest;
  }

  /** Splitting a join of pieces free of the separator gives the pieces back. */
  lemma {:induction false} SplitJoin(parts: seq<string>, c: char)
    requires |parts| >= 1
    requires forall k :: 0 <= k < |parts| ==> c !in parts[k]
    ensures Split(Join(parts, [c]), c) == parts
    decreases |parts|
  {
    CharOccurs(parts[0], c);
    if |parts| == 1 {
      assert Find(parts[0], [c]).None?;
    } else {
      var tail := Join(parts[1..], [c]);
      var s := parts[0] + [c] + tail;
      assert s[..|parts[0]|] == parts[0];
      FindCharAt(s, c, |parts[0]|);
      assert s[|parts[0]| + 1..] == tail;
      SplitJoin(parts[1..], c);
    }
  }

  /** Concatenation of a sequence of strings. */
  function Concat(parts: seq<string>): string
    decreases |parts|
  {
    if |parts| == 0 then "" else parts[0] + Concat(parts[1..])
  }

  lemma {:induction false} ConcatAppend(a: seq<string>, b: seq<string>)
    ensures Concat(a + b) == Concat(a) + Concat(b)
    decreases |a|
  {
    if |a| > 0 {
      assert (a + b)[0] == a[0];
      assert (a + b)[1..] == a[1..] + b;
      ConcatAppend(a[1..], b);
      assert Concat(a + b) == a[0] + (Concat(a[1..]) + Concat(b));
    } else {
      assert a + b == b;
    }
  }

  /* ---------------------------------------------------------------------- */
  /* Lines                                                                  */
  /* ---------------------------------------------------------------------- */

  /** Drops one trailing carriage return. */
  function StripCr(line: string): string {
    if |line| > 0 && line[|line| - 1] == '\r' then line[..|line| - 1] else line
  }

  /**
   * `str::lines`: the text is cut after every line feed; a line ended by a
   * line feed also loses one carriage return before it; a final line feed
   * does not start another (empty) line.
   */
  function Lines(s: string): (r: seq<string>)
    decreases |s|
    ensures forall k :: 0 <= k < |r| ==> '\n' !in r[k]
  {
    CharOccurs(s, '\n');
    if |s| == 0 then []
    else match Find(s, "\n")
      case None => [s]
      case Some(i) => [StripCr(s[..i])] + Lines(s[i + 1..])
  }

  /** Every line followed by a line feed, concatenated. */
  function Unlines(lines: seq<string>): string
    decreases |lines|
  {
    if |lines| == 0 then "" else lines[0] + "\n" + Unlines(lines[1..])
  }

  /** Text without carriage returns that is empty or ends with a line feed is
      exactly its lines, each followed by a line feed. */
  lemma {:induction false} UnlinesLines(s: string)
    requires '\r' !in s
    requires |s| == 0 || s[|s| - 1] == '\n'
    ensures Unlines(Lines(s)) == s
    decreases |s|
  {
    CharOccurs(s, '\n');
    if |s| > 0 {
      assert OccursAt(s, "\n", |s| - 1);
      var i := Find(s, "\n").value;
      assert s[..i] + "\n" + s[i + 1..] == s;
      assert StripCr(s[..i]) == s[..i];
      UnlinesLines(s[i + 1..]);
    }
  }

  /* ---------------------------------------------------------------------- */
  /* Trimming and prefixes                                                  */
  /* ---------------------------------------------------------------------- */

  predicate StartsWith(s: string, prefix: string) {
    |prefix| <= |s| && s[..|prefix|] == prefix
  }

  /** `char::is_whitespace`: the Unicode White_Space characters. */
  predicate IsWhitespace(c: char) {
    ('\t' <= c <= '\r') || c == ' ' || c == '\U{0085}' || c == '\U{00A0}'
    || c == '\U{1680}' || ('\U{2000}' <= c <= '\U{200A}') || c == '\U{2028}'
    || c == '\U{2029}' || c == '\U{202F}' || c == '\U{205F}' || c == '\U{3000}'
  }

  function TrimStart(s: string): string
    decreases |s|
  {
    if |s| > 0 && IsWhitespace(s[0]) then TrimStart(s[1..]) else s
  }

  /** `str::trim_end`. */
  function TrimEnd(s: string): string
    decreases |s|
  {
    if |s| > 0 && IsWhitespace(s[|s| - 1]) then TrimEnd(s[..|s| - 1]) else s
  }

  /** `str::trim`. */
  function Trim(s: string): string {
    TrimEnd(TrimStart(s))
  }

  /** `str::trim_start_matches('\n')`. */
  function TrimLeadingNewlines(s: string): string
    decreases |s|
  {
    if |s| > 0 && s[0] == '\n' then TrimLeadingNewlines(s[1..]) else s
  }

  /* ---------------------------------------------------------------------- */
  /* Length in bytes                                                        */
  /* ---------------------------------------------------------------------- */

  /** How many bytes the UTF-8 encoding spends on `c` (section 3 of RFC 3629). */
  function Utf8Width(c: char): (n: nat)
    ensures 1 <= n <= 4
    ensures n == 1 <==> c as int < 0x80
  {
    if c as int < 0x80 then 1
    else if c as int < 0x800 then 2
    else if c as int < 0x1_0000 then 3
    else 4
  }

  /** `str::len()`: the length of `s` in UTF-8 bytes. */
  function Utf8Length(s: string): (n: nat)
    decreases |s|
    ensures |s| <= n <= 4 * |s|
  {
    if |s| == 0 then 0 else Utf8Width(s[0]) + Utf8Length(s[1..])
  }

  /** Every character of `s` is ASCII. */
  predicate Ascii(s: string) {
    forall i :: 0 <= i < |s| ==> s[i] as int < 0x80
  }

  /** Bytes and characters agree exactly on ASCII text. */
  lemma {:induction false} Utf8LengthAscii(s: string)
    ensures Utf8Length(s) == |s| <==> Ascii(s)
    decreases |s|
  {
    if |s| > 0 {
      var rest := s[1..];
      Utf8LengthAscii(rest);
      assert Ascii(s) <==> s[0] as int < 0x80 && Ascii(rest) by {
        if s[0] as int < 0x80 && Ascii(rest) {
          forall i | 0 <= i < |s|
            ensures s[i] as int < 0x80
          {
            if i > 0 {
              assert s[i] == rest[i - 1];
            }
          }
        }
        if Ascii(s) {
          forall i | 0 <= i < |rest|
            ensures rest[i] as int < 0x80
          {
            assert rest[i] == s[i + 1];
          }
        }
      }
    }
  }

  lemma {:induction false} Utf8LengthAppend(a: string, b: string)
    ensures Utf8Length(a + b) == Utf8Length(a) + Utf8Length(b)
    decreases |a|
  {
    if |a| == 0 {
      assert a + b == b;
    } else {
      var ab := a + b;
      assert ab[0] == a[0];
      assert ab[1..] == a[1..] + b;
      Utf8LengthAppend(a[1..], b);
      assert Utf8Length(ab) == Utf8Width(a[0]) + Utf8Length(a[1..] + b);
    }
  }

  /** A character outside ASCII counts more than once: `"\U{e9}"` is one
      character and two bytes. */
  lemma Utf8LengthOfAccent()
    ensures |"\U{e9}"| == 1 && Utf8Length("\U{e9}") == 2
  {
    assert Utf8Length("\U{e9}"[1..]) == 0;
  }

  /* ---------------------------------------------------------------------- */
  /* Integers                                                               */
  /* ---------------------------------------------------------------------- */

  /** The largest `usize` of a 64-bit target. */
  const USIZE_MAX: int := 0xFFFF_FFFF_FFFF_FFFF

  type usize = x: int | 0 <= x <= USIZE_MAX

  predicate IsDigit(c: char) {
    '0' <= c <= '9'
  }

  predicate AllDigits(s: string) {
    forall i :: 0 <= i < |s| ==> IsDigit(s[i])
  }

  function DigitChar(d: nat): char
    requires d < 10
  {
    ('0' as int + d) as char
  }

  function DigitValue(c: char): nat
    requires IsDigit(c)
  {
    c as int - '0' as int
  }

  /** Decimal rendering of a natural number, as `{}` formats it. */
  function NatToString(n: nat): (r: string)
    decreases n
    ensures |r| >= 1 && AllDigits(r)
  {
    if n < 10 then [DigitChar(n)] else NatToString(n / 10) + [DigitChar(n % 10)]
  }

  /** Decimal rendering of a signed integer, as `{}` formats it. */
  function IntToString(x: int): string {
    if x < 0 then "-" + NatToString(-x) else NatToString(x)
  }

  /** The number a string of decimal digits denotes. */
  function DigitsValue(s: string): nat
    requires AllDigits(s)
    decreases |s|
  {
    if |s| == 0 then 0 else DigitsValue(s[..|s| - 1]) * 10 + DigitValue(s[|s| - 1])
  }

  /** Reading back a rendered natural number gives the number. */
  lemma {:induction false} NatToStringValue(n: nat)
    ensures DigitsValue(NatToString(n)) == n
    decreases n
  {
    if n >= 10 {
      NatToStringValue(n / 10);
      var s := NatToString(n / 10) + [DigitChar(n % 10)];
      assert s[..|s| - 1] == NatToString(n / 10);
    }
  }

  /** The kinds of `core::num::ParseIntError`. */
  datatype IntErrorKind = Empty | InvalidDigit | PosOverflow

  /** The `Display` text of a `ParseIntError`. */
  function IntErrorMessage(kind: IntErrorKind): string {
    match kind
    case Empty => "cannot parse integer from empty string"
    case InvalidDigit => "invalid digit found in string"
    case PosOverflow => "number too large to fit in target type"
  }

  /** The text the digit loop reads: `s` without one leading `+`. */
  function Unsigned(s: string): string {
    if |s| > 0 && s[0] == '+' then s[1..] else s
  }

  /** The first `i` characters of `digits` are digits whose value fits in a
      `usize`. */
  predicate FitsUpTo(digits: string, i: nat) {
    i <= |digits| && AllDigits(digits[..i]) && DigitsValue(digits[..i]) <= USIZE_MAX
  }

  lemma PrefixStep(digits: string, i: nat)
    requires i < |digits| && AllDigits(digits[..i]) && IsDigit(digits[i])
    ensures AllDigits(digits[..i + 1])
    ensures DigitsValue(digits[..i + 1]) == DigitsValue(digits[..i]) * 10 + DigitValue(digits[i])
  {
    assert digits[..i + 1][..i] == digits[..i];
  }

  /** A longer prefix of digits never denotes a smaller number. */
  lemma {:induction false} PrefixValueGrows(digits: string, j: nat, k: nat)
    requires j <= k <= |digits| && AllDigits(digits[..k])
    ensures AllDigits(digits[..j]) && DigitsValue(digits[..j]) <= DigitsValue(digits[..k])
    decreases k - j
  {
    if j < k {
      assert digits[..k - 1] == digits[..k][..k - 1];
      PrefixStep(digits, k - 1);
      PrefixValueGrows(digits, j, k - 1);
    }
  }

  /**
   * The digit loop of `from_str_radix` from position `i`, `acc` being the
   * value of the digits before it: a character is first checked to be a
   * digit, and only then is the value multiplied by ten and the digit
   * added; the first overflow stops the loop.
   */
  function ReadDigits(digits: string, i: nat, acc: nat): (r: Result<nat, IntErrorKind>)
    requires FitsUpTo(digits, i) && acc == DigitsValue(digits[..i])
    ensures r.Success? ==> AllDigits(digits) && r.value == DigitsValue(digits) && r.value <= USIZE_MAX
    ensures r != Failure(Empty)
    decreases |digits| - i
  {
    if i == |digits| then
      assert digits[..i] == digits;
      Success(acc)
    else if !IsDigit(digits[i]) then Failure(InvalidDigit)
    else
      var next := acc * 10 + DigitValue(digits[i]);
      if next > USIZE_MAX then Failure(PosOverflow)
      else
        PrefixStep(digits, i);
        ReadDigits(digits, i + 1, next)
  }

  /**
   * `str::parse::<usize>()`: an optional leading `+`, then decimal digits
   * read left to right. A lone sign is an invalid digit.
   */
  function ParseUsize(s: string): (r: Result<nat, IntErrorKind>)
    ensures |s| == 0 <==> r == Failure(Empty)
    ensures r.Success? ==>
      |Unsigned(s)| > 0 && AllDigits(Unsigned(s)) && r.value == DigitsValue(Unsigned(s)) && r.value <= USIZE_MAX
  {
    if |s| == 0 then Failure(Empty)
    else if |s| == 1 && (s[0] == '+' || s[0] == '-') then Failure(InvalidDigit)
    else
      assert Unsigned(s)[..0] == [];
      ReadDigits(Unsigned(s), 0, 0)
  }

  lemma {:induction false} ReadDigitsAccepts(digits: string, i: nat, acc: nat)
    requires FitsUpTo(digits, i) && acc == DigitsValue(digits[..i])
    requires AllDigits(digits) && DigitsValue(digits) <= USIZE_MAX
    ensures ReadDigits(digits, i, acc).Success?
    decreases |digits| - i
  {
    if i < |digits| {
      assert digits[..|digits|] == digits;
      PrefixStep(digits, i);
      PrefixValueGrows(digits, i + 1, |digits|);
      ReadDigitsAccepts(digits, i + 1, acc * 10 + DigitValue(digits[i]));
    }
  }

  lemma {:induction false} ReadDigitsStops(digits: string, i: nat, acc: nat, j: nat)
    requires FitsUpTo(digits, i) && acc == DigitsValue(digits[..i])
    requires i <= j < |digits| && FitsUpTo(digits, j)
    ensures !IsDigit(digits[j]) ==> ReadDigits(digits, i, acc) == Failure(InvalidDigit)
    ensures IsDigit(digits[j]) && DigitsValue(digits[..j]) * 10 + DigitValue(digits[j]) > USIZE_MAX ==>
      ReadDigits(digits, i, acc) == Failure(PosOverflow)
    decreases |digits| - i
  {
    if i < j {
      assert digits[i] == digits[..j][i];
      PrefixStep(digits, i);
      PrefixValueGrows(digits, i + 1, j);
      ReadDigitsStops(digits, i + 1, acc * 10 + DigitValue(digits[i]), j);
    }
  }

  /** `parse` succeeds exactly on one or more digits, after an optional
      `+`, whose value fits in a `usize`. */
  lemma ParseUsizeAccepts(s: string)
    ensures ParseUsize(s).Success? <==>
      |Unsigned(s)| > 0 && AllDigits(Unsigned(s)) && DigitsValue(Unsigned(s)) <= USIZE_MAX
  {
    var d := Unsigned(s);
    if |d| > 0 && AllDigits(d) && DigitsValue(d) <= USIZE_MAX {
      assert d[..0] == [];
      ReadDigitsAccepts(d, 0, 0);
    }
  }

  /**
   * The first fault wins: when the characters before position `j` are
   * digits whose value fits, a non-digit at `j` is an invalid digit, and a
   * digit at `j` that makes the value overflow is an overflow, whatever
   * follows.
   */
  lemma ParseUsizeFirstFault(s: string, j: nat)
    requires j < |Unsigned(s)| && FitsUpTo(Unsigned(s), j)
    ensures !IsDigit(Unsigned(s)[j]) ==> ParseUsize(s) == Failure(InvalidDigit)
    ensures IsDigit(Unsigned(s)[j]) && DigitsValue(Unsigned(s)[..j]) * 10 + DigitValue(Unsigned(s)[j]) > USIZE_MAX
      ==> ParseUsize(s) == Failure(PosOverflow)
  {
    var d := Unsigned(s);
    if !(|s| == 1 && (s[0] == '+' || s[0] == '-')) {
      assert d[..0] == [];
      assert ParseUsize(s) == ReadDigits(d, 0, 0);
      ReadDigitsStops(d, 0, 0, j);
    }
  }

  /** Every `usize` survives rendering and parsing back. */
  lemma ParseUsizeRoundTrip(n: nat)
    requires n <= USIZE_MAX
    ensures ParseUsize(NatToString(n)) == Success(n)
  {
    NatToStringValue(n);
    ParseUsizeAccepts(NatToString(n));
  }

  /* ---------------------------------------------------------------------- */
  /* Alignment                                                              */
  /* ---------------------------------------------------------------------- */

  function Spaces(n: nat): (r: string)
    ensures |r| == n && forall i :: 0 <= i < n ==> r[i] == ' '
  {
    seq(n, _ => ' ')
  }

  /** `format!("{:>w}", s)`: right-aligned in a field of `width` characters,
      never cut. */
  function PadLeft(s: string, width: nat): (r: string)
    ensures |r| == Max(|s|, width)
    ensures r[|r| - |s|..] == s
    ensures forall i :: 0 <= i < |r| - |s| ==> r[i] == ' '
  {
    if |s| >= width then s else Spaces(width - |s|) + s
  }
}

=== FILE: text_edits.dfy ===
/**
 * `FileLibrary::edit_file` and `FileLibrary::multiedit`, which are the same
 * in src/tools/files/mod.rs and src/files/mod.rs. `EditFile` and `MultiEdit`
 * take the file's text and give the text to write back; `EditFileTool` and
 * `MultiEditTool` add the read and the write, whose outcomes are inputs.
 */
module TextEdits {
  import opened Wrappers
  import opened Strings

  /** One requested replacement: `old_string` by `new_string`. */
  datatype Edit = Edit(oldText: string, newText: string)

  /** A successful edit: the text written back and the reply. */
  datatype Written = Written(content: string, message: string)

  /** The reply for an edit whose text is absent. */
  function NotFound(oldText: string): string {
    "Edit failed: string '" + oldText + "' not found"
  }

  /** Replace the first occurrence of `oldText` by `newText` (`find` then
      `replace_range`, or `replacen(.., 1)`): absent when `oldText` does not
      occur. */
  function ReplaceFirst(content: string, oldText: string, newText: string): (r: Option<string>)
    ensures r.Some? <==> Occurs(content, oldText)
  {
    match Find(content, oldText)
    case None => None
    case Some(p) => Some(content[..p] + newText + content[p + |oldText|..])
  }

  /** Replacing the first occurrence keeps everything before and after it. */
  lemma ReplaceFirstKeepsRest(content: string, oldText: string, newText: string)
    requires Occurs(content, oldText)
    ensures var p := Find(content, oldText).value;
      var r := ReplaceFirst(content, oldText, newText).value;
      |r| == |content| - |oldText| + |newText| &&
      r[..p] == content[..p] && r[p..p + |newText|] == newText && r[p + |newText|..] == content[p + |oldText|..] &&
      forall j: nat :: j < p ==> !OccursAt(content, oldText, j)
  {
  }

  /**
   * Undoing an edit: replacing the new text by the old one again restores the
   * content, provided the new text is not empty and its first character does
   * not appear before the edited place.
   */
  lemma ReplaceFirstUndo(content: string, oldText: string, newText: string)
    requires Occurs(content, oldText)
    requires |newText| > 0 && newText[0] !in content[..Find(content, oldText).value]
    ensures ReplaceFirst(ReplaceFirst(content, oldText, newText).value, newText, oldText) == Some(content)
  {
    var p := Find(content, oldText).value;
    var rest := content[p + |oldText|..];
    var r := ReplaceFirst(content, oldText, newText).value;
    assert r == content[..p] + (newText + rest);
    assert (newText + rest)[..|newText|] == newText;
    FindAfterFreePrefix(content[..p], newText + rest, newText);
    assert r[..p] == content[..p];
    assert r[p + |newText|..] == rest;
    assert content[..p] + oldText + rest == content;
  }

  /** `edit_file`: replace the first occurrence, or report it missing. */
  function EditFile(content: string, edit: Edit): (r: Result<Written, string>)
    ensures r.Success? <==> Occurs(content, edit.oldText)
    ensures r.Failure? ==> r.error == NotFound(edit.oldText)
    ensures r.Success? ==> r.value == Written(ReplaceFirst(content, edit.oldText, edit.newText).value, "Edit applied successfully")
  {
    match ReplaceFirst(content, edit.oldText, edit.newText)
    case None => Failure(NotFound(edit.oldText))
    case Some(c) => Success(Written(c, "Edit applied successfully"))
  }

  /** The edits applied one after the other, each on the previous result;
      the first one whose text is missing stops everything. */
  function ApplyEdits(content: string, edits: seq<Edit>): (r: Result<string, string>)
    decreases |edits|
  {
    if |edits| == 0 then Success(content)
    else match ReplaceFirst(content, edits[0].oldText, edits[0].newText)
      case None => Failure(NotFound(edits[0].oldText))
      case Some(c) => ApplyEdits(c, edits[1..])
  }

  /** `multiedit`: all edits or nothing, then report how many were made. */
  function MultiEdit(content: string, edits: seq<Edit>): (r: Result<Written, string>)
    ensures r.Success? <==> ApplyEdits(content, edits).Success?
    ensures r.Failure? ==> r.error == ApplyEdits(content, edits).error
    ensures r.Success? ==> r.value.content == ApplyEdits(content, edits).value
    ensures r.Success? ==> r.value.message == "Applied " + NatToString(|edits|) + " edits successfully"
  {
    match ApplyEdits(content, edits)
    case Failure(e) => Failure(e)
    case Success(c) => Success(Written(c, "Applied " + NatToString(|edits|) + " edits successfully"))
  }

  /** The text at the start of each edit's turn, when every earlier edit
      succeeded. */
  function Stages(content: string, edits: seq<Edit>): (r: seq<string>)
    decreases |edits|
    ensures 1 <= |r| <= |edits| + 1
    ensures r[0] == content
  {
    if |edits| == 0 then [content]
    else match ReplaceFirst(content, edits[0].oldText, edits[0].newText)
      case None => [content]
      case Some(c) => [content] + Stages(c, edits[1..])
  }

  /**
   * `multiedit` fails exactly when, at some edit's turn, its text is missing
   * from the result of the edits before it; that edit is the one reported.
   */
  lemma {:induction false} MultiEditFailsOnFirstMissing(content: string, edits: seq<Edit>)
    ensures var st := Stages(content, edits);
      (ApplyEdits(content, edits).Failure? <==> |st| <= |edits|) &&
      (|st| <= |edits| ==>
        !Occurs(st[|st| - 1], edits[|st| - 1].oldText) &&
        ApplyEdits(content, edits).error == NotFound(edits[|st| - 1].oldText)) &&
      (forall k :: 0 <= k < |st| - 1 ==> Occurs(st[k], edits[k].oldText))
    decreases |edits|
  {
    if |edits| > 0 {
      var e := edits[0];
      var next := ReplaceFirst(content, e.oldText, e.newText);
      if next.Some? {
        var c := next.value;
        var tail := Stages(c, edits[1..]);
        MultiEditFailsOnFirstMissing(c, edits[1..]);
        var st := Stages(content, edits);
        assert st == [content] + tail;
        assert ApplyEdits(content, edits) == ApplyEdits(c, edits[1..]);
        forall k | 1 <= k < |st| - 1
          ensures Occurs(st[k], edits[k].oldText)
        {
          assert st[k] == tail[k - 1];
          assert edits[k] == edits[1..][k - 1];
        }
        if |st| <= |edits| {
          assert st[|st| - 1] == tail[|tail| - 1];
          assert edits[|st| - 1] == edits[1..][|tail| - 1];
        }
      }
    }
  }

  /** Editing in two batches is the same as editing in one. */
  lemma {:induction false} ApplyEditsAppend(content: string, a: seq<Edit>, b: seq<Edit>)
    ensures ApplyEdits(content, a + b) ==
      match ApplyEdits(content, a)
      case Failure(e) => Failure(e)
      case Success(c) => ApplyEdits(c, b)
    decreases |a|
  {
    if |a| == 0 {
      assert a + b == b;
    } else {
      assert (a + b)[0] == a[0];
      assert (a + b)[1..] == a[1..] + b;
      match ReplaceFirst(content, a[0].oldText, a[0].newText)
      case None =>
      case Some(c) => ApplyEditsAppend(c, a[1..], b);
    }
  }

  /** A single-edit `multiedit` changes the text as `edit_file` does. */
  lemma MultiEditOfOne(content: string, edit: Edit)
    ensures MultiEdit(content, [edit]).Success? <==> EditFile(content, edit).Success?
    ensures MultiEdit(content, [edit]).Success? ==>
      MultiEdit(content, [edit]).value.content == EditFile(content, edit).value.content
    ensures MultiEdit(content, [edit]).Failure? ==>
      MultiEdit(content, [edit]).error == EditFile(content, edit).error
  {
    assert [edit][1..] == [];
    var next := ReplaceFirst(content, edit.oldText, edit.newText);
    if next.Some? {
      assert ApplyEdits(content, [edit]) == ApplyEdits(next.value, []);
    }
  }

  /**
   * `edit_file` with its I/O: `read` is the file's text or the read error,
   * `write` the error writing the result back, if any. The reply is the
   * message; nothing is written unless the edit applies.
   */
  function EditFileTool(read: Result<string, string>, edit: Edit, write: Option<string>): (r: Result<string, string>)
    ensures read.Failure? ==> r == Failure(read.error)
    ensures read.Success? ==> (r.Success? <==> Occurs(read.value, edit.oldText) && write.None?)
    ensures read.Success? && !Occurs(read.value, edit.oldText) ==> r == Failure(NotFound(edit.oldText))
    ensures read.Success? && Occurs(read.value, edit.oldText) && write.Some? ==> r == Failure(write.value)
    ensures r.Success? ==> r.value == "Edit applied successfully"
  {
    match read
    case Failure(e) => Failure(e)
    case Success(content) =>
      match EditFile(content, edit)
      case Failure(e) => Failure(e)
      case Success(w) =>
        match write
        case Some(e) => Failure(e)
        case None => Success(w.message)
  }

  /** `multiedit` with its I/O, as `EditFileTool`. */
  function MultiEditTool(read: Result<string, string>, edits: seq<Edit>, write: Option<string>): (r: Result<string, string>)
    ensures read.Failure? ==> r == Failure(read.error)
    ensures read.Success? ==> (r.Success? <==> ApplyEdits(read.value, edits).Success? && write.None?)
    ensures read.Success? && ApplyEdits(read.value, edits).Failure? ==> r == Failure(ApplyEdits(read.value, edits).error)
    ensures read.Success? && ApplyEdits(read.value, edits).Success? && write.Some? ==> r == Failure(write.value)
    ensures r.Success? ==> r.value == "Applied " + NatToString(|edits|) + " edits successfully"
  {
    match read
    case Failure(e) => Failure(e)
    case Success(content) =>
      match MultiEdit(content, edits)
      case Failure(e) => Failure(e)
      case Success(w) =>
        match write
        case Some(e) => Failure(e)
        case None => Success(w.message)
  }
}

=== FILE: wrappers.dfy ===
/** Failure-compatible result types shared by every module of the model. */
module Wrappers {

  /** An optional value: Rust's `Option`. */
  datatype Option<+T> = None | Some(value: T) {

    /** The wrapped value, or `default` when there is none (`unwrap_or`). */
    function GetOr(default: T): T
    {
      match this
      case Some(v) => v
      case None => default
    }
  }

  /** Either a value or an error: Rust's `Result`. */
  datatype Result<+R, +E> = Success(value: R) | Failure(error: E) {

    predicate IsFailure() {
      Failure?
    }

    function PropagateFailure<U>(): Result<U, E>
      requires Failure?
    {
      Failure(error)
    }

    function Extract(): R
      requires Success?
    {
      value
    }
  }

  function Min(a: int, b: int): int {
    if a <= b then a else b
  }

  function Max(a: int, b: int): int {
    if a <= b then b else a
  }
}
